=== FILE: README.md ===
# Bar backend: sessions, song requests and the music integration, in Dafny

This project models the stateful core of a bar's ordering-and-music backend (an Express and
Mongoose server). The core has these parts:

- **Tables (`Mesa`).** Each table has a unique positive `numero` and an `estado` (libre,
  ocupada or reservada).
- **Customer sessions with lazy expiry.** A session closes when it has been idle too long or,
  optionally, open too long. Expiry is checked only when something reads the session. At
  most one session per table is active.
- **Song requests.** A customer's song request enters the bar's queue only after an ordered
  chain of admission gates: queue cap, per-session quota, hourly limit, cooldown, duplicate
  window and a configured playback device. Moderators then set its status, vote on it or
  delete it.
- **The cleanup job.** It deletes requests for a track once the player has moved on: first
  by exact URI, then by a fuzzy title and artist match.
- **Token caches.**
  - The player account's OAuth authorization-code flow (section 4.1 of RFC 6749). Its
    `state` values are single-use (section 10.12 of RFC 6749) and its tokens are refreshed
    (section 6 of RFC 6749).
  - The search's client-credentials token (section 4.4 of RFC 6749).
  - A small token store.
- **Smaller controllers.** The preferred-device setting, the search result mapping and the
  promotion controller.

Modules follow the source files:

| module | models |
|---|---|
| `MesaModel`, `SessionModel`, `SongRequestModel`, `PromocionModel` | the schemas. Each collection is a `seq` field of a store class; the unique and partial indexes become validity predicates. |
| `SessionController`, `SessionGuard` | the session handlers and the guard middleware. |
| `SongRequestsController`, `TrackUri` | the request handlers and `normalizeTrackUri`, including the part of URL parsing it relies on. |
| `AutoCleanup` | the job's `norm`, its two delete filters and `tick`. |
| `SpotifyAuth`, `SpotifyTokenStore`, `MusicSearch` | the token flows and caches, and search. |
| `MesaController`, `SettingsController`, `PromocionController` | the remaining controllers. |
| `Strings`, `Js`, `Collections`, `Paging` | JavaScript's `trim`, `split`, `toLowerCase`, `Number`, `String` and truthiness, and the query-and-page helpers the handlers share. |

How the model represents the source:

- **State.** Handlers that change stored documents are methods with `modifies` clauses over
  the store classes. Each such method's `ensures` gives the new collection as a function of
  the old one. Pure decisions, such as the admission gates, the expiry policy or the URI
  normaliser, are functions, and lemmas state their properties.
- **Inputs from outside.** The clock is an integer `now` in milliseconds. Fresh ids (UUIDs,
  ObjectIds, OAuth `state`) are parameters with freshness preconditions. The outcome of
  every HTTP call to the streaming service is a parameter (`TokenCall`, `SearchCall`,
  `enqueued`, `item`, `storeFails`).
- **Configuration.** Thresholds read from the environment are the `Limits` and
  `SessionConfig` records, whose `Default…` constants hold the source's defaults.

Behaviour of the code that the model keeps as written:

- **Cooldown.** `crearSolicitud` compares whole seconds,
  `floor(elapsed / 1000) < COOLDOWN_SECONDS`. So a request is admitted once exactly
  `COOLDOWN_SECONDS` have passed (`SongRequestsController.CooldownWait`).
- **Idle expiry with no activity stamp.** Idle expiry falls back from `lastActivityAt` to
  `startedAt`, and with neither stamp to `Date.now()`. With one clock value for the whole
  request, as in this model, such a session is not idle-expired
  (`SessionController.IdleExpiryStamps`); see "Left out" for the clock.
- **Statuses.** `actualizarEstado` accepts any of `approved`, `rejected`, `playing` and
  `done` on any request, so a `done` request can go back to `approved`
  (`SongRequestsController.ActualizarEstado`).
- **Sort fields.** `listarSolicitudes` sorts by whatever field name `sort` gives; a missing
  or empty name means `createdAt`. The model compares the record's own fields the way the
  database orders their values (`SongRequestsController.Order`).
- **Freeing a table on close.** `closeAndSave` frees the table only when no active session
  remains for it. Under the one-active-per-table invariant none ever does, so the model's
  `CloseAndSave` always sets `libre` and proves that no active session is left.

Edge cases of the promotion controller that the model keeps as written:

- A `titulo: null` in an update is stored as the string `"null"`.
- `activa: null` on create gives `false`, because `parseBoolean(null)` is `false`, not
  `undefined`.
- A `titulo` or `imagenUrl` that is blank after trimming passes the handler's check but
  fails the schema. The insert is then refused (500).
- An `orden` that does not convert to a number fails the update with a cast error (500)
  before the id is looked up.

## Model

| member | source | states |
|---|---|---|
| MesaModel.NewMesa | models/Mesa.js:6-18 | a new table has the given id and `numero`, `estado` libre and no QR code |
| MesaModel.IndexOfMesa | controllers/mesaController.js:62 | `findById` finds a table with that id exactly when one exists |
| MesaModel.SetEstado | controllers/sessionController.js:13-19 | `findByIdAndUpdate(mesaId, { estado })` changes that table's `estado` and no other field or table; an unknown id changes nothing |
| MesaModel.SetEstadoTwice | controllers/sessionController.js:13-19 | writing `estado` twice leaves only the last write |
| MesaModel.SetEstadoKeepsKeys | models/Mesa.js:6-10 | writing `estado` keeps ids and `numero`s unique |
| MesaModel.MesaStore.constructor | models/Mesa.js:4-22 | the table collection starts empty and valid |
| MesaController.CheckNumero | controllers/mesaController.js:9-16 | undefined, null or "" is "required"; otherwise the value is accepted exactly when `Number(numero)` is a positive integer, and then that number is used |
| MesaController.CheckNumeroOfInt | controllers/mesaController.js:13-16 | a number is accepted exactly when it is positive, and its decimal string is accepted with the same value |
| MesaController.CrearMesa | controllers/mesaController.js:5-41 | the three 400 answers in order (missing, not a positive integer, `numero` taken) leave the store unchanged; success appends exactly one new libre table with that `numero`; ids and `numero`s stay unique |
| MesaController.AddMesaKeepsKeys | models/Mesa.js:6-10 | adding a table with an unused id and `numero` keeps both unique |
| MesaController.ObtenerMesas | controllers/mesaController.js:46 | the listing is a permutation of all tables sorted by `numero` ascending |
| MesaController.UniqueNumerosOnce | models/Mesa.js:9 | with unique `numero`s no table occurs twice in the collection |
| MesaController.ObtenerMesasStrict | controllers/mesaController.js:46 | with unique `numero`s the listing is strictly increasing in `numero` |
| MesaController.NumerosDiffer | models/Mesa.js:9 | two different tables have different `numero`s |
| MesaController.ObtenerMesaPorId | controllers/mesaController.js:59-73 | 404 exactly when no table has the id; otherwise a stored table with that id |
| MesaController.ObtenerMesaPorIdUnique | controllers/mesaController.js:62 | with unique ids the table returned is the one stored under that id |
| SessionModel.NewSession | controllers/sessionController.js:78-84 | a new session is active for its table, with the fresh id and `startedAt = lastActivityAt = now`, and is not closed |
| SessionModel.Closed | controllers/sessionController.js:39-43 | closing sets `active = false`, `closedAt = now` and the reason, and keeps table, id and stamps |
| SessionModel.Touched | controllers/sessionController.js:69 | a refresh changes `lastActivityAt` to now and nothing else |
| SessionModel.FindActiveByMesa | controllers/sessionController.js:57 | `findOne({ mesa, active: true })` finds an active session of that table exactly when one exists |
| SessionModel.FindActiveById | controllers/sessionController.js:131 | `findOne({ sessionId, active: true })` finds an active session with that id exactly when one exists |
| SessionModel.ActiveIsUnique | models/Session.js:15-18 | under the partial unique index, the active session found for a table is the only active one |
| SessionModel.OnlyActiveOf | models/Session.js:15-18 | under the index, any active session of a table is the one the lookup finds |
| SessionModel.CloseLeavesNoActive | controllers/sessionController.js:39-46 | closing the active session keeps the collection well formed and leaves its table with no active session |
| SessionModel.AddActiveKeepsIndex | models/Session.js:6-18 | adding an active session for a table without one, with a fresh non-empty id, keeps ids unique and one active session per table |
| SessionModel.TouchKeepsWellFormed | models/Session.js:15-18 | refreshing activity keeps the collection well formed |
| SessionModel.ClosedIdNotActive | controllers/sessionController.js:128-140 | after a close, the same id no longer finds an active session (a second close answers 404) |
| SessionModel.CloseKeepsIds | models/Session.js:7 | closing a session does not make an unused id used |
| SessionModel.ClosedSessionsMayShareMesa | models/Session.js:15-18 | the index is partial: two closed sessions of the same table are allowed |
| SessionModel.SessionStore.constructor | models/Session.js:4-18 | the session collection starts empty and valid |
| SessionController.Expiry | controllers/sessionController.js:61-66 | idle is checked first, so `idle` exactly when idle-expired, `absolute` exactly when absolute- but not idle-expired, and no expiry otherwise; never `manual` |
| SessionController.LastActivity | controllers/sessionController.js:31 | the idle clock starts at `lastActivityAt`, else at `startedAt`, else at the clock itself |
| SessionController.ExpiredByIdle | controllers/sessionController.js:30-33 | with a non-negative idle limit, an idle-expired session has a time stamp, and its last activity lies before `now` |
| SessionController.ExpiredByAbsolute | controllers/sessionController.js:34-38 | never with `ABSOLUTE_MINUTES = 0`; with a positive limit, an expired session has a `startedAt` that lies before `now` |
| SessionController.IdleExpiryStamps | controllers/sessionController.js:30-33 | idle expiry is `now - lastActivityAt > IDLE·60000`, else measured from `startedAt`; with neither stamp, and the fallback clock read equal to `now`, it does not hold |
| SessionController.AbsoluteDisabled | controllers/sessionController.js:34-38 | with `ABSOLUTE_MINUTES = 0` absolute expiry never holds and only idle expiry remains |
| SessionController.IdleWins | controllers/sessionController.js:61-66 | a session that trips both limits is closed as `idle` |
| SessionController.ExpiryIsMonotone | controllers/sessionController.js:30-38 | once expired, a session stays expired at every later time |
| SessionController.TouchedIdleBoundary | controllers/sessionController.js:161-166 | after a refresh at `now` the session is idle-expired exactly after `until = now + IDLE·60000` |
| SessionController.CloseAndSave | controllers/sessionController.js:39-46 | the session is closed in place, its table has no active session left and is set to libre, and the collection stays valid |
| SessionController.StartOrGetSession | controllers/sessionController.js:49-98 | 400 without `mesaId` and 404 for an unknown table, both changing nothing; a live session is reused and refreshed; an expired one is closed with its reason and a new one created; without one a new one is created; the table ends ocupada and the one-active-per-table invariant holds |
| SessionController.GetActiveByMesa | controllers/sessionController.js:100-126 | 404 without an active session; an expired one is closed with its reason and its table freed; a live one is refreshed and its table set ocupada |
| SessionController.CloseSession | controllers/sessionController.js:128-140 | 404 exactly when no active session has the id; otherwise that session is closed as `manual`, its table freed, and the id no longer finds an active session |
| SessionController.Ping | controllers/sessionController.js:143-172 | 400 without an id from the path or the body; 404 without an active session; 410 closing an expired one; otherwise a refresh, the table set ocupada and `until = now + IDLE·60000` |
| SessionGuard.SessionIdFrom | middleware/sessionGuard.js:22-25 | the id comes from the header, else the body, else the query, and is missing exactly when none of them is truthy |
| SessionGuard.RequireActiveSession | middleware/sessionGuard.js:19-61 | 401 without an id; 403 with no active session and nothing changed; an expired session is closed with its reason (idle first); a live one gets only `lastActivityAt` refreshed; the tables are never touched |
| SongRequestModel.ParseStatus | models/SongRequest.js:42-47 | the `enum` check accepts only the five status names, each for its own status |
| SongRequestModel.ParseStatusName | models/SongRequest.js:42-47 | every status round-trips through its name |
| SongRequestModel.NewRequest | controllers/songRequestsController.js:180-191 | the created record has the given fields, status queued, 0 votes, `createdAt = now` and every optional date and reason null |
| SongRequestModel.IndexOfRequest | controllers/songRequestsController.js:280 | `findById` finds a request with that id exactly when one exists |
| SongRequestModel.RequestStore.constructor | models/SongRequest.js:1-95 | the request collection starts empty with unique ids |
| SongRequestsController.CountMatching | controllers/songRequestsController.js:103-105 | `countDocuments` is at most the collection size and zero exactly when nothing matches |
| SongRequestsController.CountMatchingAppend | controllers/songRequestsController.js:180-191 | an insert raises each count by one exactly when the new record matches the query |
| SongRequestsController.LatestCreated | controllers/songRequestsController.js:138-143 | the newest request of a session: none exactly when the session has none, otherwise the greatest `createdAt` among them |
| SongRequestsController.CooldownWait | controllers/songRequestsController.js:145-152 | held exactly when less than `COOLDOWN_SECONDS` whole seconds have passed since the last request; the reported wait is strictly positive and at most the cooldown |
| SongRequestsController.ResolveTrack | controllers/songRequestsController.js:77-80 | the three fields are tried in the order `trackUri`, `trackUrl`, `trackId`, and the first that normalises wins |
| SongRequestsController.FindActiveSession | controllers/songRequestsController.js:49-59 | the active session with the body's `sessionId`, else the active session of `mesaId`, else none |
| SongRequestsController.ImageField | controllers/songRequestsController.js:184 | `imageUrl` is kept exactly when truthy, and is then `String(imageUrl).trim()` |
| SongRequestsController.TextField | controllers/songRequestsController.js:182-183 | `String(v).trim()` is trimmed, and for a string it is that string trimmed |
| SongRequestsController.SessionGates | controllers/songRequestsController.js:102-177 | a session's request passes exactly when the queue, session, hourly, cooldown, duplicate and device gates all pass; a refusal is 429 or 409 |
| SongRequestsController.SessionGateOrder | controllers/songRequestsController.js:102-177 | the first failing gate wins: queue full, then session quota, hourly limit, cooldown (with its wait), duplicate, no device |
| SongRequestsController.Admit | controllers/songRequestsController.js:63-191 | an admitted request had a normalisable track, a title and an artist, an active session and open gates, and becomes queued with 0 votes, trimmed texts and `requestedBy` taken from the session |
| SongRequestsController.AdmitOrder | controllers/songRequestsController.js:77-177 | the request's own checks (track 400, texts 400) come before the session lookup (404), which comes before the gates; the schema's text bounds decide last |
| SongRequestsController.InsertUnderQuotas | controllers/songRequestsController.js:102-168 | inserting an admitted request keeps the queue, session and hourly counts within their limits and makes it the only live duplicate |
| SongRequestsController.CooldownAfterInsert | controllers/songRequestsController.js:138-153 | after a session's request at `now`, every request of that session is refused until the cooldown runs out |
| SongRequestsController.DuplicateAfterInsert | controllers/songRequestsController.js:156-168 | a queued request for a track refuses the same track from the same session for the whole duplicate window |
| SongRequestsController.CooldownBlocksRepeat | controllers/songRequestsController.js:138-153 | the same body sent again before the cooldown runs out is not admitted |
| SongRequestsController.DuplicateBlocksRepeat | controllers/songRequestsController.js:156-168 | the same track requested again within the duplicate window yields no second record |
| SongRequestsController.AdmittedStaysWithinLimits | controllers/songRequestsController.js:102-191 | after an admitted insert, every count is still within its limit |
| SongRequestsController.AppendFreshId | models/SongRequest.js:1-95 | inserting a record with an unused id keeps ids unique |
| SongRequestsController.CrearSolicitud | controllers/songRequestsController.js:63-216 | a refusal leaves the store unchanged; an admitted request adds exactly one record, which stays whether the enqueue succeeded (201) or not (202) |
| SongRequestsController.TrimAll | controllers/songRequestsController.js:237 | `map(s => s.trim())` trims each piece and keeps their number |
| SongRequestsController.StatusList | controllers/songRequestsController.js:234-240 | a name is in the status filter exactly when it is the non-empty trim of one of the comma-separated pieces; each is non-empty and trimmed; no filter when `status` is absent or empty |
| SongRequestsController.StatusListOfWord | controllers/songRequestsController.js:234-240 | a single word without commas filters by that word alone |
| SongRequestsController.StatusNameIsWord | models/SongRequest.js:42-47 | every status name is a non-empty trimmed word without commas |
| SongRequestsController.StatusListSingle | controllers/songRequestsController.js:234-240 | `status=<name>` filters by that one status |
| SongRequestsController.SortKeyOf | controllers/songRequestsController.js:244-246 | an empty or missing field name means `createdAt`; `votes`, `title`, `requestedBy.sessionId`, `playedAt` and the other record fields select their own key, exactly for their own name |
| SongRequestsController.ParseSortOf | controllers/songRequestsController.js:244-246 | `field:dir` selects that field, descending exactly when `dir` lower-cases to `desc` |
| SongRequestsController.ParseSort | controllers/songRequestsController.js:244-246 | a `sort` without a colon selects that field, ascending |
| SongRequestsController.Order | controllers/songRequestsController.js:245-252 | ascending compares the field's values in the model's order, descending compares them the other way round, and requests with equal values are tied both ways |
| SongRequestsController.ParseSortDefault | controllers/songRequestsController.js:230 | the default sort is `createdAt` ascending |
| SongRequestsController.OrderIsPreorder | controllers/songRequestsController.js:244-252 | every order the listing uses, ascending or descending on any field, is total and transitive |
| SongRequestsController.ValueLeTotal | controllers/songRequestsController.js:252 | any two field values are comparable: null first, then numbers and dates, then strings |
| SongRequestsController.ValueLeTrans | controllers/songRequestsController.js:252 | the order of field values is transitive |
| SongRequestsController.Selection | controllers/songRequestsController.js:233-242 | `find(filter)` returns exactly the stored requests that match the filter, and all of them without a filter |
| SongRequestsController.Listar | controllers/songRequestsController.js:222-261 | `page` and `limit` are `PageNumber(page)` and `PageLimit(limit, 50, 100)`; `total` counts the matches; the items are exactly the `skip((page-1)*limit).limit(limit)` window of the matches sorted by the requested field and direction, so they match, are sorted and number at most `limit` |
| SongRequestsController.ListUnfiltered | controllers/songRequestsController.js:233-253 | without filters `total` is the number of requests |
| SongRequestsController.TargetStatus | controllers/songRequestsController.js:268-274 | only approved, rejected, playing and done are accepted, never queued |
| SongRequestsController.RejectReason | controllers/songRequestsController.js:278 | a truthy reason is stored as `String(reason).trim()`; without one the reason is "—" |
| SongRequestsController.WithStatus | controllers/songRequestsController.js:276-280 | the update sets the status, stamps `playedAt` only for playing and the reason only for rejected, and changes nothing else |
| SongRequestsController.ActualizarEstado | controllers/songRequestsController.js:263-288 | 400 exactly for a status outside the four; 404 exactly for an unknown id; otherwise only that record changes, to its updated form |
| SongRequestsController.VoteDelta | controllers/songRequestsController.js:297 | the delta is `Number(delta)` when finite, else +1 (undefined gives +1, null gives 0) |
| SongRequestsController.Votar | controllers/songRequestsController.js:294-311 | 404 exactly for an unknown id; otherwise only that record's votes change, by the delta, unclamped |
| SongRequestsController.Eliminar | controllers/songRequestsController.js:316-326 | 404 exactly for an unknown id; otherwise exactly that record is removed, the others keep their order, and the id is no longer used |
| TrackUri.NormalizeTrackUri | controllers/songRequestsController.js:27-47 | the result is null or a trimmed string starting with `spotify:track:`, and only a non-empty string can normalise |
| TrackUri.NormalizeString | controllers/songRequestsController.js:29-46 | a normalised string starts with `spotify:track:` and has no surrounding whitespace |
| TrackUri.NormalizeOfPrefixed | controllers/songRequestsController.js:31 | a trimmed `spotify:track:` URI is returned unchanged |
| TrackUri.NormalizeIdempotent | controllers/songRequestsController.js:27-47 | normalising a normalised URI gives it back |
| TrackUri.BareIdShape | controllers/songRequestsController.js:31-33 | a bare alphanumeric id is neither a native URI nor a track link |
| TrackUri.NormalizeBareId | controllers/songRequestsController.js:42-44 | a bare ASCII-alphanumeric `x` becomes `spotify:track:x` |
| TrackUri.NormalizeTrackLink | controllers/songRequestsController.js:33-39 | the link `https://open.spotify.com/track/<id>` with an alphanumeric id becomes `spotify:track:<id>` |
| TrackUri.LinkParses | controllers/songRequestsController.js:35-36 | `new URL` accepts that link, and its path splits into the segments `track` and the id |
| TrackUri.NormalizeNonString | controllers/songRequestsController.js:28 | a non-string or empty input gives null |
| TrackUri.LinkTrackId | controllers/songRequestsController.js:35-38 | the id taken from a track link is the non-empty second path segment |
| TrackUri.LinkIdShape | controllers/songRequestsController.js:38 | the URI built from a link's id starts with `spotify:track:` and is trimmed |
| TrackUri.PrefixedShape | controllers/songRequestsController.js:38 | `spotify:track:` followed by an id that does not end in whitespace is trimmed |
| TrackUri.UrlPathParts | controllers/songRequestsController.js:35-36 | the parsed pathname splits into non-empty, percent-encoded segments without `/` |
| TrackUri.PathParts | controllers/songRequestsController.js:36 | `pathname.split("/").filter(Boolean)` yields non-empty encoded segments |
| TrackUri.EncodeSegment | controllers/songRequestsController.js:35 | a path segment is percent-encoded to printable characters without `/` |
| TrackUri.EncodeAll | controllers/songRequestsController.js:35 | every segment of the path is encoded |
| TrackUri.ResolveDots | controllers/songRequestsController.js:35 | resolving `.` and `..` segments keeps only encoded segments |
| TrackUri.AfterLastAt | controllers/songRequestsController.js:35 | the host starts after the last `@` of the authority |
| TrackUri.StripC0 | controllers/songRequestsController.js:35 | stripping leading and trailing C0 controls and spaces does not lengthen the input |
| TrackUri.RemoveTabNewline | controllers/songRequestsController.js:35 | removing tabs and newlines does not lengthen the input |
| TrackUri.SplitPathname | controllers/songRequestsController.js:36 | a path built from slash-free segments splits back into them |
| TrackUri.NotContainsWithout | controllers/songRequestsController.js:33 | a text lacking a character of `open.spotify.com/track/` does not contain it |
| AutoCleanup.Squash | jobs/spotifyAutoCleanup.js:7 | `replace(/[^a-z0-9]+/gi, " ")` leaves only `[a-z0-9]` and single spaces |
| AutoCleanup.Norm | jobs/spotifyAutoCleanup.js:6-7 | `norm` output holds only `[a-z0-9]` and single inner spaces, with no space at either end |
| AutoCleanup.NormValue | jobs/spotifyAutoCleanup.js:6-7 | `norm` of a string is `Norm` of it, of undefined is "", and the result is always normalised |
| AutoCleanup.CleanInfix | jobs/spotifyAutoCleanup.js:7 | every infix of a clean string is clean |
| AutoCleanup.TrimClean | jobs/spotifyAutoCleanup.js:7 | trimming a squashed string leaves a normalised one |
| AutoCleanup.SquashOfClean | jobs/spotifyAutoCleanup.js:7 | squashing an already clean string changes nothing |
| AutoCleanup.NormOfNormalized | jobs/spotifyAutoCleanup.js:6-7 | a normalised string is its own `norm` |
| AutoCleanup.NormIdempotent | jobs/spotifyAutoCleanup.js:6-7 | `norm(norm(s)) == norm(s)` |
| AutoCleanup.NormIgnoresCase | jobs/spotifyAutoCleanup.js:7 | upper-casing the input does not change `norm` |
| AutoCleanup.AnySweptCons | jobs/spotifyAutoCleanup.js:40-45 | a delete hits a collection exactly when it hits its first request or the rest |
| AutoCleanup.Swept | jobs/spotifyAutoCleanup.js:40-58 | the delete by URI takes a request exactly when its `trackUri` is the previous one, whatever its status; the text fallback never takes a rejected request |
| AutoCleanup.Remaining | jobs/spotifyAutoCleanup.js:40-64 | `deleteMany(filter)` keeps exactly the requests the filter does not match, and changes nothing exactly when it deletes nothing |
| AutoCleanup.UniqueTail | models/SongRequest.js:1-95 | the tail of a collection with unique ids has unique ids none equal to the head's |
| AutoCleanup.UniqueCons | models/SongRequest.js:1-95 | a request with a new id in front of unique ids keeps them unique |
| AutoCleanup.RemainingKeepsIds | jobs/spotifyAutoCleanup.js:40-64 | deleting keeps request ids unique |
| AutoCleanup.Cleaned | jobs/spotifyAutoCleanup.js:39-66 | on a track change, every request for the previous URI is deleted whatever its status; if none was and the fallback is on, exactly the non-rejected requests matching the normalised previous title and artist are deleted; nothing else is |
| AutoCleanup.CleanedKeepsRejected | jobs/spotifyAutoCleanup.js:49 | a rejected request for another track is never deleted |
| AutoCleanup.FuzzyNeedsTitle | jobs/spotifyAutoCleanup.js:57 | with an empty previous title the fallback deletes nothing |
| AutoCleanup.CleanupState.constructor | jobs/spotifyAutoCleanup.js:93-99 | the job starts with nothing cached |
| AutoCleanup.Tick | jobs/spotifyAutoCleanup.js:9-76 | no item: nothing changes; first item: only cached; same or missing URI: nothing changes; a changed URI deletes as `Cleaned` says, or nothing if the store fails, and caches the new track either way |
| SettingsController.SettingsStore.constructor | controllers/settingsController.js:4-7 | no settings record exists at start |
| SettingsController.GetSettings | controllers/settingsController.js:4-7 | the single settings record, or empty settings when none exists |
| SettingsController.PreferredDevice | controllers/songRequestsController.js:171-177 | a device is configured exactly when the settings record has a truthy `preferredDeviceId` |
| SettingsController.SetPreferredDevice | controllers/settingsController.js:9-19 | 400 without `deviceId`, changing nothing; otherwise the single record is created or overwritten with the id and the name (null when absent), the record count goes from 0 to 1 or stays, and that device becomes the preferred one |
| SpotifyTokenStore.WithTokens | services/spotifyTokenStore.js:4-9 | each field takes the supplied value only when truthy; the expiry becomes `now + (expires_in − 30)·1000` only when `expires_in` is a number |
| SpotifyTokenStore.InitialExpired | services/spotifyTokenStore.js:13 | the store starts expired |
| SpotifyTokenStore.FreshTokenLife | services/spotifyTokenStore.js:7-13 | a new token with lifetime `e` is usable exactly until 30 seconds before it ends |
| SpotifyTokenStore.NoLifetimeKeepsExpiry | services/spotifyTokenStore.js:7 | without a numeric lifetime the old expiry stays, so a new token may be reported expired |
| SpotifyTokenStore.WithTokensIdempotent | services/spotifyTokenStore.js:4-9 | storing the same response twice at the same time equals storing it once |
| SpotifyTokenStore.TokenStore.constructor | services/spotifyTokenStore.js:1 | the store starts with null tokens and `expiresAt` 0 |
| SpotifyTokenStore.TokenStore.Snapshot | services/spotifyTokenStore.js:10 | `getTokens` returns all four fields |
| SpotifyTokenStore.TokenStore.SetTokens | services/spotifyTokenStore.js:4-9 | the new fields are `WithTokens` of the old ones |
| SpotifyTokenStore.TokenStore.GetAccessToken | services/spotifyTokenStore.js:11 | returns the stored access token |
| SpotifyTokenStore.TokenStore.GetRefreshToken | services/spotifyTokenStore.js:12 | returns the stored refresh token |
| SpotifyTokenStore.TokenStore.IsExpired | services/spotifyTokenStore.js:13 | expired exactly when there is no access token or `now ≥ expiresAt` |
| SpotifyAuth.ScopeList | controllers/spotifyAuthController.js:42-45 | the scope list has exactly the words of the setting, in order, single-spaced |
| SpotifyAuth.GetScopes | controllers/spotifyAuthController.js:39-46 | `getScopes` is single-spaced, and with the setting present it has exactly the setting's words |
| SpotifyAuth.ScopeListOfSingleSpaced | controllers/spotifyAuthController.js:42-45 | a single-spaced list comes back unchanged |
| SpotifyAuth.GetScopesIdempotent | controllers/spotifyAuthController.js:39-46 | feeding `getScopes`'s output back as the setting gives the same list |
| SpotifyAuth.GetScopesDefault | controllers/spotifyAuthController.js:40-42 | with the setting unset the default list is used as it is, and its words are the three default scopes |
| SpotifyAuth.BlankScopesEnv | controllers/spotifyAuthController.js:42-45 | a setting made only of whitespace gives an empty scope list |
| SpotifyAuth.PlaybackStateWord | controllers/spotifyAuthController.js:41 | the first default scope has no whitespace |
| SpotifyAuth.ModifyPlaybackWord | controllers/spotifyAuthController.js:41 | the second default scope has no whitespace |
| SpotifyAuth.CurrentlyPlayingWord | controllers/spotifyAuthController.js:41 | the third default scope has no whitespace |
| SpotifyAuth.LifetimeSeconds | controllers/spotifyAuthController.js:78 | `expires_in || 3600`: 3600 when absent or 0, the value otherwise |
| SpotifyAuth.Granted | controllers/spotifyAuthController.js:75-78 | a token response sets the access token and `expiresAt = now + (expires_in or 3600)·1000`, and keeps the old refresh token unless a new one came |
| SpotifyAuth.GrantedKeepsConnection | controllers/spotifyAuthController.js:109-115 | a refresh never loses the stored refresh token |
| SpotifyAuth.GrantedTokenLife | controllers/spotifyAuthController.js:123 | a fresh token is served from the cache exactly until 30 seconds before it expires |
| SpotifyAuth.StatusOf | controllers/spotifyAuthController.js:200-204 | connected exactly when a refresh token exists; expires-in is null without an access token or expiry, clamped at 0, and otherwise the whole seconds left |
| SpotifyAuth.ClearedIsDisconnected | controllers/spotifyAuthController.js:220-223 | after a reset the status is disconnected with no expiry and no token is cached |
| SpotifyAuth.AuthState.constructor | controllers/spotifyAuthController.js:16-22 | no tokens, `expiresAt` 0 and no pending states at start |
| SpotifyAuth.AuthState.Login | controllers/spotifyAuthController.js:134-155 | without configuration 500 and nothing changes; otherwise the new state is added to the pending set and the redirect carries it and `getScopes` |
| SpotifyAuth.AuthState.ExchangeCodeForTokens | controllers/spotifyAuthController.js:48-79 | a failed call changes nothing; a successful one applies `Granted` |
| SpotifyAuth.AuthState.Callback | controllers/spotifyAuthController.js:161-192 | a provider error comes first; a missing code or state, or a state not pending, is refused with nothing changed; otherwise the state is consumed before the exchange, which connects exactly when the token call succeeds |
| SpotifyAuth.StateIsSingleUse | controllers/spotifyAuthController.js:173-176 | after a callback that got past the state check, the same state is refused |
| SpotifyAuth.AuthState.RefreshAccessToken | controllers/spotifyAuthController.js:81-116 | fails without a stored refresh token or with a failed call; otherwise applies `Granted` |
| SpotifyAuth.AuthState.GetAccessToken | controllers/spotifyAuthController.js:122-128 | the cached token is returned without a call exactly when present and `now < expiresAt − 30000`; otherwise the result of a refresh |
| SpotifyAuth.AuthState.Status | controllers/spotifyAuthController.js:198-215 | the status report of the current tokens |
| SpotifyAuth.AuthState.DevReset | controllers/spotifyAuthController.js:220-223 | clears all three token fields |
| MusicSearch.FetchedAppToken | controllers/musicSearchController.js:39-41 | a new app token expires at `now + (expires_in or 3600)·1000` |
| MusicSearch.FetchedAppTokenLife | controllers/musicSearchController.js:14-17 | a fresh app token is reused exactly until 60 seconds before it expires |
| MusicSearch.AppTokenAfter | controllers/musicSearchController.js:13-42 | the cache after `getAppToken` is unchanged while its token is usable or when no token can be fetched; otherwise it holds the fetched token, expiring `(expires_in or 3600)·1000` ms after `now` |
| MusicSearch.AppTokenCache.constructor | controllers/musicSearchController.js:9-10 | no app token and `expiresAt` 0 at start |
| MusicSearch.AppTokenCache.Current | controllers/musicSearchController.js:9-10 | the cached token and its expiry |
| MusicSearch.AppTokenCache.GetAppToken | controllers/musicSearchController.js:13-43 | a cached token is reused exactly when present and `now < expiresAt − 60000`; otherwise missing credentials or a failed call fail and change nothing, and a success caches the new token |
| MusicSearch.PickImage | controllers/musicSearchController.js:47-51 | the first image at least 300 high, else the first image, else none exactly when there are no images |
| MusicSearch.MappedUri | controllers/musicSearchController.js:55 | `trackUri` is the item's `uri` when truthy, else `spotify:track:<id>` when the id is truthy, and null exactly when neither is |
| MusicSearch.MapTrack | controllers/musicSearchController.js:46-64 | `trackUri` is the uri, else `spotify:track:<id>`, else null; a missing title or album is ""; artists are joined with ", "; `imageUrl` is the url of the picked image when it has one, else ""; `previewUrl` is the track's when truthy, else null; `explicit` is the truthiness of the flag |
| MusicSearch.MappedUriAccepted | controllers/musicSearchController.js:55 | a URI built from a bare id is one the request handler accepts unchanged |
| MusicSearch.MapTracks | controllers/musicSearchController.js:109 | the items keep the order and number of the tracks |
| MusicSearch.QueryText | controllers/musicSearchController.js:73 | the query text is the given query trimmed, and "" when absent |
| MusicSearch.MarketCode | controllers/musicSearchController.js:81-83 | a market code that is sent is upper-case and non-empty |
| MusicSearch.MarketCodeValue | controllers/musicSearchController.js:81-83 | the market sent is the value trimmed and upper-cased |
| MusicSearch.MarketCodeBlank | controllers/musicSearchController.js:81-83 | no market is sent exactly when the text trims to "" |
| MusicSearch.Market | controllers/musicSearchController.js:81-83 | the query's value decides when given (even empty); only a missing one falls back to the setting; with neither there is no market |
| MusicSearch.BuildSearch | controllers/musicSearchController.js:72-92 | no search exactly when the trimmed query is empty; otherwise `limit` is `PageLimit(limit, 10, 25)` (default 10, above 25 gives 25, below 0 gives 1) and `offset` is `Offset(offset)` (default and negatives give 0), with the market |
| MusicSearch.SearchResult | controllers/musicSearchController.js:98-110 | an error status is passed through; a success maps every track and reports `total`, or 0 when missing |
| MusicSearch.SendSearch | controllers/musicSearchController.js:85-110 | without a query 400 and the cache is untouched; without a token no search is sent; otherwise the request is sent and answered as `SearchResult` says; with a request the cache is kept while usable or when no token can be fetched, and holds the fetched token otherwise |
| MusicSearch.SearchTracks | controllers/musicSearchController.js:71-115 | 400 exactly for an empty trimmed query; the search sent is `BuildSearch` of the parameters; with a query the cache is kept while usable or when no token can be fetched, and holds the fetched token otherwise |
| PromocionModel.IndexOfPromo | controllers/promocionController.js:70 | `findById` finds a promotion exactly when one has the id |
| PromocionModel.PromocionStore.constructor | models/Promociones.js:4-16 | the promotion collection starts empty |
| PromocionController.ParseBoolean | controllers/promocionController.js:3-8 | undefined stays undefined, booleans pass through, anything else is true exactly when its lower-cased string is "true" or "1" |
| PromocionController.ParseBooleanOfWord | controllers/promocionController.js:3-8 | `String(b)` parses back to `b` |
| PromocionController.ParseBooleanOfNumber | controllers/promocionController.js:3-8 | a number is true exactly when it is 1, and null is false |
| PromocionController.ParseBooleanIgnoresCase | controllers/promocionController.js:6 | upper-casing a string does not change the result |
| PromocionController.DateOrNone | controllers/promocionController.js:22-23 | a truthy date is kept, otherwise left unset |
| PromocionController.NewPromocion | controllers/promocionController.js:17-25 | trimmed texts, `descripcion` only when truthy, `activa` true only when absent and otherwise parsed, `orden` 0 unless a number, dates only when truthy, both timestamps now |
| PromocionController.CrearPromocion | controllers/promocionController.js:11-31 | 400 exactly without a truthy `titulo` or `imagenUrl`; a schema failure (500) changes nothing; otherwise exactly one new promotion is added |
| PromocionController.AddPromoKeepsIds | models/Promociones.js:4-16 | adding a promotion with an unused id keeps ids unique |
| PromocionController.CreatedActiveByDefault | controllers/promocionController.js:21-23 | a promotion created without `activa` or dates is active at every time |
| PromocionController.BuildFilter | controllers/promocionController.js:35-47 | `activeNow` forces `activa = true` and the date window; otherwise `activa` filters when given |
| PromocionController.ActiveNowFilter | controllers/promocionController.js:40-47 | with `activeNow` a promotion matches exactly when active, started (or no start) and not ended (or no end) |
| PromocionController.PromoLeIsPreorder | controllers/promocionController.js:53 | `orden` ascending then `createdAt` descending is a total preorder |
| PromocionController.Selection | controllers/promocionController.js:52 | `find(filter)` returns exactly the matching promotions |
| PromocionController.ListarPromociones | controllers/promocionController.js:33-66 | `page` and `limit` are `PageNumber(page)` and `PageLimit(limit, 50, 100)`; `total` counts the matches; the items are exactly the page window of the matches sorted by `orden`, newest first among equals |
| PromocionController.ActiveNowListing | controllers/promocionController.js:40-47 | with `activeNow` every item is active now and the `activa` parameter is ignored |
| PromocionController.ListUnfiltered | controllers/promocionController.js:33-61 | without filters `total` is the number of promotions |
| PromocionController.ObtenerPromocion | controllers/promocionController.js:68-77 | 404 exactly for an unknown id, otherwise a stored promotion with that id |
| PromocionController.DatePatch | controllers/promocionController.js:87-88 | an absent date keeps the stored one, a falsy one clears it, a date replaces it |
| PromocionController.TextPatch | controllers/promocionController.js:83-85 | an absent text keeps the stored one; a present one is stored as `String(v).trim()` |
| PromocionController.TextPatchNull | controllers/promocionController.js:83 | a `null` text is stored as "null" |
| PromocionController.DescripcionPatch | controllers/promocionController.js:84 | an absent `descripcion` keeps the stored one; a present one is stored as `String(v).trim()`, even when empty |
| PromocionController.FlagPatch | controllers/promocionController.js:86 | an absent `activa` keeps the stored one, a present one is parsed |
| PromocionController.NumberPatch | controllers/promocionController.js:89 | an absent `orden` keeps the stored one; a present one is replaced by `Number(v)`: a number itself, `null` 0, a boolean 1 or 0, a string its numeral value |
| PromocionController.Patched | controllers/promocionController.js:81-91 | each field is its patch from the body (absent keeps, texts trimmed, a falsy date becomes null, `activa` parsed, `orden` converted); id and creation time kept; `updatedAt` stamped |
| PromocionController.PatchEmpty | controllers/promocionController.js:81-91 | an empty body only stamps `updatedAt` |
| PromocionController.PatchIdempotent | controllers/promocionController.js:81-91 | applying the same update twice equals applying it once |
| PromocionController.PatchClearsWindow | controllers/promocionController.js:86-88 | clearing both dates of an active promotion makes it active at every time |
| PromocionController.ActualizarPromocion | controllers/promocionController.js:79-98 | a body whose `orden` is not a number fails (500) before the lookup; 404 for an unknown id; otherwise only that promotion changes, to its patched form |
| PromocionController.EliminarPromocion | controllers/promocionController.js:100-109 | 404 exactly for an unknown id; otherwise exactly that promotion is removed |
| Strings.TrimStart | controllers/songRequestsController.js:29 | removes exactly the leading whitespace |
| Strings.TrimEnd | controllers/songRequestsController.js:29 | removes exactly the trailing whitespace |
| Strings.Trim | controllers/songRequestsController.js:29 | the result has no whitespace at either end and is no longer than the input |
| Strings.TrimIsInfix | controllers/songRequestsController.js:29 | the trimmed string is the infix of the input that starts where the leading whitespace ends |
| Strings.TrimDropsOnlyWhitespace | controllers/songRequestsController.js:29 | every character of the input before or after that infix is whitespace |
| Strings.TrimOfTrimmed | controllers/songRequestsController.js:29 | trimming a trimmed string changes nothing |
| Strings.TrimIdempotent | controllers/songRequestsController.js:182-183 | trimming twice equals trimming once |
| Strings.ContainsAt | jobs/spotifyAutoCleanup.js:57 | `includes` holds when the text occurs at some position |
| Strings.LowerAscii | controllers/promocionController.js:6 | `toLowerCase` maps each character to its lower case |
| Strings.UpperAscii | controllers/musicSearchController.js:83 | `toUpperCase` maps each character to its upper case |
| Strings.LowerOfUpper | controllers/promocionController.js:6 | lower-casing an upper-cased string equals lower-casing the original |
| Strings.SplitChar | controllers/songRequestsController.js:236 | `split` on one character yields at least one piece, none containing it |
| Strings.SplitCharNone | controllers/songRequestsController.js:236 | a string without the separator splits into itself |
| Strings.SplitCharCons | controllers/songRequestsController.js:236 | a separator splits off the piece before it |
| Strings.SplitCharJoin | controllers/songRequestsController.js:236 | joining the pieces with the separator gives the string back |
| Strings.SplitWhitespace | controllers/spotifyAuthController.js:43 | `split(/\s+/)` yields at least one piece, none containing whitespace |
| Strings.CollapseWord | controllers/spotifyAuthController.js:43 | a whitespace-free prefix passes through run-collapsing unchanged |
| Strings.SplitWhitespaceJoin | controllers/spotifyAuthController.js:43 | the pieces joined with one space are the input with each whitespace run collapsed to one space |
| Strings.NonEmpty | controllers/spotifyAuthController.js:44 | `filter(Boolean)` keeps every non-empty piece and nothing else |
| Strings.NonEmptyIsFilter | controllers/spotifyAuthController.js:44 | `filter(Boolean)` is the order-keeping filter on non-empty strings |
| Strings.WordsCons | controllers/spotifyAuthController.js:43-44 | the words of a string are its first word, then the words after the following whitespace |
| Strings.WordsAfterSpace | controllers/spotifyAuthController.js:43-44 | a word, one space and a string starting on a word: the word comes first |
| Strings.WordsOfJoin | controllers/spotifyAuthController.js:43-45 | splitting words joined with single spaces gives back those words |
| Strings.TextLeTotal | controllers/songRequestsController.js:252 | any two strings are ordered by code point one way or the other |
| Strings.TextLeTrans | controllers/songRequestsController.js:252 | the code-point order on strings is transitive |
| Strings.JoinWordsSingleSpaced | controllers/spotifyAuthController.js:45 | non-empty words without whitespace joined with " " are single-spaced |
| Strings.SplitJoinSingleSpaced | controllers/spotifyAuthController.js:42-45 | a single-spaced string splits and joins back to itself |
| Js.OrElse | controllers/sessionController.js:146 | `a \|\| b` is `a` when truthy and otherwise `b` |
| Js.ToStr | controllers/promocionController.js:18 | `String(v)`: a string itself, "undefined", "null", "true"/"false", and a number's decimal numeral |
| Js.IntToString | controllers/musicSearchController.js:89-90 | `String(n)` of an integer is non-empty, starts with `-` exactly when `n` is negative, and is otherwise made of digits |
| Js.StringToInt | controllers/promocionController.js:89 | `Number(s)` of a string: the empty string is 0 and a string of decimal digits is their value |
| Js.ToNumber | controllers/songRequestsController.js:297 | `Number(v)`: undefined is NaN, null is 0, a boolean is 1 or 0, a number is itself, and a string is its numeral value |
| Js.NatToString | controllers/mesaController.js:13 | a natural number's decimal digits, without a leading zero |
| Js.DigitsOfNatToString | controllers/mesaController.js:13 | the decimal digits of `n` read back as `n` |
| Js.NumberOfNatString | controllers/mesaController.js:13 | `Number` of a non-negative integer's decimal string is that integer |
| Js.NumberOfNegatedDigits | controllers/mesaController.js:13 | `Number("-" + digits)` is the negated value of the digits |
| Js.NegativeNumeral | controllers/mesaController.js:13 | a negative integer prints as "-" followed by its magnitude |
| Js.NumberOfNegativeString | controllers/mesaController.js:13 | `Number` of a negative integer's decimal string is that integer |
| Js.NumberOfString | controllers/mesaController.js:13 | `Number(String(n)) == n` for every integer |
| Js.IntToStringIsOne | controllers/promocionController.js:7 | an integer prints as "1" exactly when it is 1 |
| Collections.Filter | controllers/songRequestsController.js:251-252 | a query keeps exactly the matching elements, as a sub-multiset, and all of them when all match |
| Collections.FilterAppend | controllers/songRequestsController.js:251-252 | filtering a concatenation is the concatenation of the filtered parts, so matches keep their relative order |
| Collections.FilterKeepsOrder | controllers/songRequestsController.js:251-252 | filtering a sorted sequence leaves it sorted |
| Collections.Count | controllers/songRequestsController.js:253 | `countDocuments` is zero exactly when nothing matches |
| Collections.FilterCount | controllers/songRequestsController.js:251-253 | `total` equals the number of elements `find` returns |
| Collections.CountAppend | controllers/songRequestsController.js:180-191 | an insert raises a count by one exactly when the new element matches |
| Collections.Any | jobs/spotifyAutoCleanup.js:45 | some element matches exactly when one does at some position |
| Collections.AnyCons | jobs/spotifyAutoCleanup.js:45 | an element matches exactly when the first one or one of the rest does |
| Collections.Insert | controllers/mesaController.js:46 | inserting into a sorted sequence keeps it sorted and adds exactly that element |
| Collections.SortBy | controllers/mesaController.js:46 | `sort` returns a sorted permutation |
| Collections.SortedHead | controllers/mesaController.js:46 | the head of a sorted sequence precedes every later element |
| Collections.SortedCons | controllers/mesaController.js:46 | an element that precedes a sorted sequence can go in front of it |
| Paging.PageNumber | controllers/songRequestsController.js:248 | `Math.max(1, parseInt(page) \|\| 1)`: at least 1, 1 by default and when negative, the number when positive |
| Paging.PageLimit | controllers/songRequestsController.js:249 | `Math.min(max, Math.max(1, parseInt(limit) \|\| default))`: within [1,max], the default when missing or 0, clamped otherwise |
| Paging.Offset | controllers/musicSearchController.js:78 | `Math.max(0, parseInt(offset) \|\| 0)`: the number when non-negative, else 0 |
| Paging.Page | controllers/songRequestsController.js:252 | `skip((page-1)·limit).limit(limit)`: at most `limit` elements, taken consecutively from the skip position |
| Paging.PageWithin | controllers/songRequestsController.js:252 | a page holds only elements of the listing |
| Paging.PageKeepsOrder | controllers/songRequestsController.js:252 | a page of a sorted listing is sorted |
| Paging.FirstPageIsAll | controllers/songRequestsController.js:252 | when everything fits, the first page is the whole listing |

## Left out

- HTTP and Express plumbing are not modelled: response bodies and messages, HTML pages, redirect URLs, routers and `index.js`. Replies are datatypes with a `Code()` where the status matters.
- MongoDB query execution is not modelled. Collections are in-memory sequences, and queries are filters and counts over them.
- Concurrency is not modelled. The duplicate-key recovery in `startOrGetSession` and `crearMesa` (error code 11000) exists only for concurrent inserts. The model states the uniqueness invariants instead of the race.
- Calls to the streaming service are inputs, not code: the token calls, the search request, the player's status and the enqueue POST.
- `spotifyPlaybackController` is left out because it only forwards to the Web API.
- The cleanup job's `setInterval` loop, `start()` and all parsing of environment variables are left out. Thresholds are the `Limits` and `SessionConfig` records with the source's defaults.
- Randomness (`genState`, `crypto.randomUUID`, ObjectId generation) is left out. Fresh values are parameters.
- URL parsing in `normalizeTrackUri` follows the WHATWG URL Standard only for `http`/`https` input. The parser covers:
  - C0 and space stripping, and tab and newline removal;
  - an authority with a non-empty host and a digit-only port;
  - `\` read as `/`;
  - percent-encoding of path characters in UTF-8;
  - `.` and `..` segments.

  It does not cover IDNA or host canonicalisation, IPv6 literals, or other schemes.
- Non-integer numbers are not modelled. `JsValue.Num` holds integers, so `Number.isInteger` and `Number.isFinite` questions about fractions, NaN and Infinity do not arise. `Number()` of a string is modelled for optionally signed decimal integers with surrounding whitespace; other numeric forms (hex, exponents, fractions) count as not a number.
- Invalid date strings (`new Date("garbage")`) are not modelled. Dates are integer milliseconds or absent.
- ObjectId cast errors on malformed ids (answered 500) are not modelled. An id is an opaque value that either is stored or is not.
- The `Session` schema declares neither `lastActivityAt` nor `closedReason`, so Mongoose's strict mode would not persist them. The model keeps both fields, as the handlers use them.
- SongRequestsController.Votar: the schema's `min: 0` on `votes` is not enforced, because `findByIdAndUpdate` does not run validators. Votes are an unbounded integer.
- SongRequestsController.Order: sorting by `_id`, `updatedAt` or `requestedBy.mesaId` is not modelled, because the model's ids are opaque and it keeps no `updatedAt` for requests; such a sort, like one by a name the record does not have, leaves every request tied. Among requests with equal keys the model's order is that of its insertion sort, while the database's is unspecified.
- Strings.Trim: its own contract states only that the result is trimmed and no longer than the input. Which characters it keeps is stated by the separate lemmas `Strings.TrimIsInfix` and `Strings.TrimDropsOnlyWhitespace`, because as postconditions they make every proof that trims run out of resources.
- MusicSearch.MarketCode: its own contract describes the shape of a code that is sent. Its value (`MusicSearch.MarketCodeValue`) and when none is sent (`MusicSearch.MarketCodeBlank`) are separate lemmas, for the same cost reason.
- Strings.SplitWhitespace: its own contract states only the shape of the pieces. That the pieces joined with one space give the input with each whitespace run collapsed is the separate lemma `Strings.SplitWhitespaceJoin`, because as a postcondition it makes every proof that splits a string run out of resources.
- Strings.NonEmpty: its own contract states which pieces are kept; that it keeps their order is the separate lemma `Strings.NonEmptyIsFilter`, for the same cost reason.
- One clock value per request: the source reads `Date.now()` several times while handling one request (`crearSolicitud`, `startOrGetSession`, `ping`, `closeSession`, `requireActiveSession` and the expiry checks). The model uses a single `now` for all of them, in SongRequestsController.Admit, SongRequestsController.CrearSolicitud, SessionController.StartOrGetSession, SessionController.Ping, SessionController.CloseSession and SessionGuard.RequireActiveSession. A tick between two reads can change an outcome; for example, with `SESSION_IDLE_MINUTES=0` a session with no stamps is idle-expired once the second read is later than the first.
- `toLowerCase`, `toUpperCase` and the `/i` regex flag are modelled for ASCII letters only.
- Mongoose's `maxlength` counts UTF-16 code units; the model counts characters.
- AutoCleanup.Remaining: the fuzzy delete first collects matching `_id`s and then deletes by id. It is modelled as deleting the matches directly, which is the same because ids are unique.
- MusicSearch.AppTokenCache.GetAppToken: the source reads `Date.now()` a second time before storing the expiry. The model uses the same `now` for both reads.
- SpotifyAuth.AuthState.GetAccessToken: the source reads the clock at controllers/spotifyAuthController.js:123 to test the cached token, and again at controllers/spotifyAuthController.js:111, after the refresh call returns, to compute the new `expiresAt`. The model uses the same `now` for both reads, so a refreshed token's expiry does not include the time the call took.
- SpotifyAuth.AuthState.RefreshAccessToken: the new `expiresAt` is computed from the `now` it is given, not from a clock read after the call returns (controllers/spotifyAuthController.js:111).
- PromocionController.ListarPromociones: promotions with equal `orden` and equal `createdAt` keep the order of the model's insertion sort. The database's `.sort({ orden: 1, createdAt: -1 })` (controllers/promocionController.js:53) leaves their order unspecified.
- `updatedAt` timestamps are modelled only for promotions. The other collections do not depend on them.
- SongRequestsController.InsertUnderQuotas: requires a non-negative duplicate window (`antiDupWindowMin >= 0`). A negative setting would put the window's start in the future.
- SongRequestsController.AdmittedStaysWithinLimits: requires a non-negative duplicate window, for the same reason as `InsertUnderQuotas`.
- PromocionController.Patched: the update object that `actualizarPromocion` builds field by field is modelled as a function on the stored value, not as an object built in place.
- SessionController.CloseAndSave: always frees the table. `setMesaLibreSiNoHaySesiones` frees it only when no active session remains, and under the one-active-per-table invariant none does (proved as `SessionModel.CloseLeavesNoActive`).
- Bebida and categoria CRUD, `models/SpotifyQueue.js` and the QR code are not part of this model.

=== FILE: auto_cleanup.dfy ===
/** The playback-change cleanup job: a text normaliser, the sweeps that delete requests for
    a track that has finished playing, and one polling step over a cached last track. */
module AutoCleanup {
  import opened Strings
  import opened Js
  import opened SongRequestModel
  import Collections

  /** The characters `norm` keeps: `[a-z0-9]`. */
  predicate IsWordChar(c: char) {
    IsAsciiLower(c) || IsDigit(c)
  }

  /** Only word characters and single spaces between them, no space doubled. */
  predicate Clean(t: string) {
    && (forall i :: 0 <= i < |t| ==> IsWordChar(t[i]) || t[i] == ' ')
    && (forall i, j :: 0 <= i < |t| && 0 <= j < |t| && j == i + 1 ==> !(t[i] == ' ' && t[j] == ' '))
  }

  /** What `norm` produces: clean, and no space at either end. */
  predicate Normalized(t: string) {
    Clean(t) && (t == [] || (t[0] != ' ' && t[|t| - 1] != ' '))
  }

  /** Length of the run of non-word characters that starts `s`. */
  function SeparatorRun(s: string): (k: nat)
    ensures k <= |s|
    ensures forall j :: 0 <= j < k ==> !IsWordChar(s[j])
    ensures k < |s| ==> IsWordChar(s[k])
  {
    if s == [] || IsWordChar(s[0]) then 0 else 1 + SeparatorRun(s[1..])
  }

  /** `replace(/[^a-z0-9]+/gi, " ")` on a lower-cased string: every maximal run of other
      characters becomes one space. */
  function Squash(s: string): (r: string)
    ensures Clean(r)
    ensures s != [] && IsWordChar(s[0]) ==> r != [] && r[0] == s[0]
    ensures s != [] && !IsWordChar(s[0]) ==> r != [] && r[0] == ' '
    decreases |s|
  {
    if s == [] then []
    else if IsWordChar(s[0]) then [s[0]] + Squash(s[1..])
    else [' '] + Squash(s[SeparatorRun(s)..])
  }

  /** Every infix of a clean string is clean. */
  lemma CleanInfix(t: string, i: nat, j: nat)
    requires Clean(t) && i <= j <= |t|
    ensures Clean(t[i..j])
  {
    var u := t[i..j];
    forall k, m | 0 <= k < |u| && 0 <= m < |u| && m == k + 1 ensures !(u[k] == ' ' && u[m] == ' ') {
      assert u[k] == t[i + k] && u[m] == t[i + m];
    }
  }

  /** Trimming a clean string leaves it normalised. */
  lemma TrimClean(t: string)
    requires Clean(t)
    ensures Normalized(Trim(t))
  {
    var k := |t| - |TrimStart(t)|;
    var r := Trim(t);
    TrimIsInfix(t);
    CleanInfix(t, k, k + |r|);
    assert Trimmed(r);
  }

  /** `norm(s) = String(s).toLowerCase().replace(/[^a-z0-9]+/gi, " ").trim()` on a string:
      only `a-z`, `0-9` and single inner spaces remain. */
  function Norm(s: string): (r: string)
    ensures Normalized(r)
  {
    var t := Squash(LowerAscii(s));
    TrimClean(t);
    Trim(t)
  }

  /** `norm` on any value: the default parameter turns `undefined` into "", everything
      else goes through `String`. */
  function NormValue(v: JsValue): (r: string)
    ensures Normalized(r)
    ensures v.Str? ==> r == Norm(v.s)
    ensures v == Undefined ==> r == []
  {
    if v == Undefined then Norm([]) else Norm(ToStr(v))
  }

  /** A clean string has nothing left to squash. */
  lemma {:induction false} SquashOfClean(t: string)
    requires Clean(t)
    ensures Squash(t) == t
    decreases |t|
  {
    if t != [] {
      CleanInfix(t, 1, |t|);
      SquashOfClean(t[1..]);
      if !IsWordChar(t[0]) {
        assert SeparatorRun(t) == 1 by {
          assert |t| > 1 ==> t[1] != ' ';
        }
      }
    }
  }

  /** `norm` leaves its own output alone. */
  lemma NormOfNormalized(t: string)
    requires Normalized(t)
    ensures Norm(t) == t
  {
    assert LowerAscii(t) == t;
    SquashOfClean(t);
    TrimOfTrimmed(t);
  }

  /** `norm` is idempotent. */
  lemma NormIdempotent(s: string)
    ensures Norm(Norm(s)) == Norm(s)
  {
    NormOfNormalized(Norm(s));
  }

  /** `norm` does not see letter case. */
  lemma NormIgnoresCase(s: string)
    ensures Norm(UpperAscii(s)) == Norm(s)
  {
    LowerOfUpper(s);
  }

  /** The two `deleteMany` filters of the job. */
  datatype Sweep =
    | ExactUri(uri: string)
      /** Normalised previous title and artist of the text fallback. */
    | Fuzzy(rt: string, ra: string)

  /** `rt && (nt.includes(rt) || rt.includes(nt))` */
  predicate TitleMatches(rt: string, nt: string) {
    rt != [] && (Contains(nt, rt) || Contains(rt, nt))
  }

  /** `!ra || na.includes(ra) || ra.includes(na)` */
  predicate ArtistMatches(ra: string, na: string) {
    ra == [] || Contains(na, ra) || Contains(ra, na)
  }

  /** Whether a sweep deletes a request: the exact one matches `trackUri` whatever the status;
      the fallback takes only queued, approved, playing and done requests whose normalised
      title and artist match. Deleting the matches by `_id` is the same as deleting the
      matches, since ids are unique. */
  predicate Swept(q: Sweep, x: SongRequest)
    ensures q.ExactUri? ==> (Swept(q, x) <==> x.trackUri == q.uri)
    ensures q.Fuzzy? && Swept(q, x) ==> x.status != Rejected
  {
    match q
    case ExactUri(uri) => x.trackUri == uri
    case Fuzzy(rt, ra) =>
      x.status != Rejected && TitleMatches(rt, Norm(x.title)) && ArtistMatches(ra, Norm(x.artist))
  }

  /** `Swept` as a predicate value. */
  function SweptBy(q: Sweep): SongRequest -> bool {
    x => Swept(q, x)
  }

  /** `deletedCount > 0` */
  predicate AnySwept(rs: seq<SongRequest>, q: Sweep) {
    Collections.Any(rs, SweptBy(q))
  }

  /** A sweep deletes something from a non-empty collection when it deletes the head or
      something from the tail. */
  lemma AnySweptCons(rs: seq<SongRequest>, q: Sweep)
    requires rs != []
    ensures AnySwept(rs, q) <==> Swept(q, rs[0]) || AnySwept(rs[1..], q)
  {
    Collections.AnyCons(rs, SweptBy(q));
  }

  /** The collection after `deleteMany` with the sweep's filter: the others, in order. */
  function Remaining(rs: seq<SongRequest>, q: Sweep): (r: seq<SongRequest>)
    ensures |r| <= |rs|
    ensures forall x :: x in r ==> x in rs && !Swept(q, x)
    ensures forall x :: x in rs && !Swept(q, x) ==> x in r
    ensures multiset(r) <= multiset(rs)
    ensures r == rs <==> !AnySwept(rs, q)
  {
    if rs == [] then []
    else
      var tail := Remaining(rs[1..], q);
      RemainingStep(rs, q, tail);
      if Swept(q, rs[0]) then tail else [rs[0]] + tail
  }

  /** One step of `Remaining`: the head stays in front of what remains of the tail unless the
      sweep takes it. */
  lemma RemainingStep(rs: seq<SongRequest>, q: Sweep, tail: seq<SongRequest>)
    requires rs != []
    requires |tail| <= |rs[1..]|
    requires forall x :: x in tail ==> x in rs[1..] && !Swept(q, x)
    requires forall x :: x in rs[1..] && !Swept(q, x) ==> x in tail
    requires multiset(tail) <= multiset(rs[1..])
    requires tail == rs[1..] <==> !AnySwept(rs[1..], q)
    ensures var r := if Swept(q, rs[0]) then tail else [rs[0]] + tail;
      && |r| <= |rs|
      && (forall x :: x in r ==> x in rs && !Swept(q, x))
      && (forall x :: x in rs && !Swept(q, x) ==> x in r)
      && multiset(r) <= multiset(rs)
      && (r == rs <==> !AnySwept(rs, q))
  {
    assert rs == [rs[0]] + rs[1..];
    AnySweptCons(rs, q);
  }

  /** The tail of a collection with unique ids has unique ids, none of them the head's. */
  lemma UniqueTail(rs: seq<SongRequest>)
    requires RequestIdsUnique(rs) && rs != []
    ensures RequestIdsUnique(rs[1..])
    ensures forall y :: y in rs[1..] ==> y.id != rs[0].id
  {
    var tail := rs[1..];
    forall i, j | 0 <= i < j < |tail| ensures tail[i].id != tail[j].id {
      assert tail[i] == rs[i + 1] && tail[j] == rs[j + 1];
    }
    forall y | y in tail ensures y.id != rs[0].id {
      var k :| 0 <= k < |tail| && tail[k] == y;
      assert rs[k + 1] == y;
    }
  }

  /** A request whose id is not among unique ones can go in front of them. */
  lemma UniqueCons(x: SongRequest, rs: seq<SongRequest>)
    requires RequestIdsUnique(rs)
    requires forall y :: y in rs ==> y.id != x.id
    ensures RequestIdsUnique([x] + rs)
  {
    var r := [x] + rs;
    forall i, j | 0 <= i < j < |r| ensures r[i].id != r[j].id {
      assert r[j] == rs[j - 1] && rs[j - 1] in rs;
      if i > 0 {
        assert r[i] == rs[i - 1];
      }
    }
  }

  /** Deleting keeps the remaining ids unique. */
  lemma {:induction false} RemainingKeepsIds(rs: seq<SongRequest>, q: Sweep)
    requires RequestIdsUnique(rs)
    ensures RequestIdsUnique(Remaining(rs, q))
  {
    if rs != [] {
      UniqueTail(rs);
      RemainingKeepsIds(rs[1..], q);
      if !Swept(q, rs[0]) {
        UniqueCons(rs[0], Remaining(rs[1..], q));
      }
    }
  }

  /** What one change of track does to the collection: every request for the previous track
      goes; only when there was none, and only with the fallback enabled, the text sweep
      runs instead. */
  function Cleaned(rs: seq<SongRequest>, lastUri: string, lastTitle: JsValue, lastArtist: JsValue,
                   fallback: bool): (r: seq<SongRequest>)
    ensures multiset(r) <= multiset(rs)
    ensures forall x :: x in r ==> x.trackUri != lastUri
    ensures AnySwept(rs, ExactUri(lastUri)) || !fallback ==>
      forall x :: x in rs ==> (x in r <==> x.trackUri != lastUri)
    ensures !AnySwept(rs, ExactUri(lastUri)) && fallback ==>
      forall x :: x in rs ==> (x in r <==> !Swept(Fuzzy(NormValue(lastTitle), NormValue(lastArtist)), x))
  {
    var exact := Remaining(rs, ExactUri(lastUri));
    if AnySwept(rs, ExactUri(lastUri)) || !fallback then exact
    else Remaining(rs, Fuzzy(NormValue(lastTitle), NormValue(lastArtist)))
  }

  /** A change of track never deletes a rejected request for another track. */
  lemma CleanedKeepsRejected(rs: seq<SongRequest>, lastUri: string, lastTitle: JsValue,
                             lastArtist: JsValue, fallback: bool, x: SongRequest)
    requires x in rs && x.status == Rejected && x.trackUri != lastUri
    ensures x in Cleaned(rs, lastUri, lastTitle, lastArtist, fallback)
  {
  }

  /** The fallback needs a previous title: with an empty normalised title it deletes nothing. */
  lemma FuzzyNeedsTitle(rs: seq<SongRequest>, lastUri: string, lastTitle: JsValue,
                        lastArtist: JsValue, fallback: bool)
    requires NormValue(lastTitle) == []
    requires !AnySwept(rs, ExactUri(lastUri))
    ensures Cleaned(rs, lastUri, lastTitle, lastArtist, fallback) == rs
  {
  }

  /** The track reported by the player's status: `item.uri`, `item.name` and the artists'
      names. */
  datatype PlaybackItem = PlaybackItem(uri: Option<string>, name: JsValue, artistNames: seq<string>)

  /** The job's state object: the last track seen, and whether the text fallback is on. */
  class CleanupState {
    var lastUri: Option<string>
    var lastTitle: JsValue
    var lastArtist: JsValue
    const fallbackText: bool

    constructor (fallbackText: bool)
      ensures lastUri == None && lastTitle == Null && lastArtist == Null
      ensures this.fallbackText == fallbackText
    {
      lastUri := None;
      lastTitle := Null;
      lastArtist := Null;
      this.fallbackText := fallbackText;
    }
  }

  /** `tick`. `item` is the current track, `None` when the status call fails or reports no
      item; `storeFails` says the database calls of the cleanup throw, which the job
      swallows. */
  method Tick(state: CleanupState, store: RequestStore, item: Option<PlaybackItem>, storeFails: bool)
    requires store.Valid()
    modifies state, store
    ensures store.Valid()
    ensures item.None? ==>
      && state.lastUri == old(state.lastUri) && state.lastTitle == old(state.lastTitle)
      && state.lastArtist == old(state.lastArtist) && store.items == old(store.items)
    ensures item.Some? && !Present(old(state.lastUri)) ==>
      && state.lastUri == item.value.uri && state.lastTitle == item.value.name
      && state.lastArtist == Str(Join(item.value.artistNames, ", "))
      && store.items == old(store.items)
    ensures item.Some? && Present(old(state.lastUri)) && !(Present(item.value.uri) && item.value.uri != old(state.lastUri)) ==>
      && state.lastUri == old(state.lastUri) && state.lastTitle == old(state.lastTitle)
      && state.lastArtist == old(state.lastArtist) && store.items == old(store.items)
    ensures item.Some? && Present(old(state.lastUri)) && Present(item.value.uri) && item.value.uri != old(state.lastUri) ==>
      && state.lastUri == item.value.uri && state.lastTitle == item.value.name
      && state.lastArtist == Str(Join(item.value.artistNames, ", "))
      && store.items == if storeFails then old(store.items)
                        else Cleaned(old(store.items), old(state.lastUri).value, old(state.lastTitle),
                                     old(state.lastArtist), state.fallbackText)
  {
    if item.None? {
      return;
    }
    var nowUri := item.value.uri;
    var nowTitle := item.value.name;
    var nowArtist := Str(Join(item.value.artistNames, ", "));
    if !Present(state.lastUri) {
      state.lastUri, state.lastTitle, state.lastArtist := nowUri, nowTitle, nowArtist;
      return;
    }
    if Present(nowUri) && nowUri != state.lastUri {
      if !storeFails {
        var exact := ExactUri(state.lastUri.value);
        RemainingKeepsIds(store.items, exact);
        if AnySwept(store.items, exact) || !state.fallbackText {
          store.items := Remaining(store.items, exact);
        } else {
          var fuzzy := Fuzzy(NormValue(state.lastTitle), NormValue(state.lastArtist));
          RemainingKeepsIds(store.items, fuzzy);
          store.items := Remaining(store.items, fuzzy);
        }
      }
      state.lastUri, state.lastTitle, state.lastArtist := nowUri, nowTitle, nowArtist;
    }
  }
}

=== FILE: collections.dfy ===
/** The collection queries the controllers hand to the database, on in-memory sequences:
    filtering (`find` / `deleteMany`), counting (`countDocuments`), sorting (`sort`) and
    paging (`skip` / `limit`). */
module Collections {

  /** The elements of `s` that satisfy `p`, in their original order. */
  function Filter<T>(s: seq<T>, p: T -> bool): (r: seq<T>)
    ensures |r| <= |s|
    ensures forall x :: x in r ==> x in s && p(x)
    ensures forall x :: x in s && p(x) ==> x in r
    ensures multiset(r) <= multiset(s)
    ensures (forall x :: x in s ==> p(x)) ==> r == s
  {
    if s == [] then []
    else
      assert s == [s[0]] + s[1..];
      if p(s[0]) then [s[0]] + Filter(s[1..], p) else Filter(s[1..], p)
  }

  /** Filtering a sequence with a first element decides that element and filters the rest. */
  lemma FilterCons<T>(x: T, s: seq<T>, p: T -> bool)
    ensures Filter([x] + s, p) == if p(x) then [x] + Filter(s, p) else Filter(s, p)
  {
    assert ([x] + s)[0] == x && ([x] + s)[1..] == s;
  }

  lemma AppendAssoc<T>(x: seq<T>, y: seq<T>, z: seq<T>)
    ensures x + (y + z) == (x + y) + z
  {
  }

  /** Filtering a concatenation filters each part and keeps the parts in order, so the
      selected elements keep their relative order. */
  lemma {:induction false} FilterAppend<T>(a: seq<T>, b: seq<T>, p: T -> bool)
    ensures Filter(a + b, p) == Filter(a, p) + Filter(b, p)
  {
    if a == [] {
      assert a + b == b;
    } else {
      var x, rest := a[0], a[1..];
      assert a == [x] + rest;
      AppendAssoc([x], rest, b);
      FilterCons(x, rest + b, p);
      FilterCons(x, rest, p);
      FilterAppend(rest, b, p);
      if p(x) {
        AppendAssoc([x], Filter(rest, p), Filter(b, p));
      }
    }
  }

  /** Filtering keeps the order of a sorted sequence. */
  lemma {:induction false} FilterKeepsOrder<T>(s: seq<T>, p: T -> bool, le: (T, T) -> bool)
    requires SortedBy(s, le)
    ensures SortedBy(Filter(s, p), le)
  {
    if s != [] {
      assert SortedBy(s[1..], le) by {
        forall i, j | 0 <= i < j < |s[1..]| ensures le(s[1..][i], s[1..][j]) {
          assert s[1..][i] == s[i + 1] && s[1..][j] == s[j + 1];
        }
      }
      FilterKeepsOrder(s[1..], p, le);
      if p(s[0]) {
        var t := Filter(s[1..], p);
        forall k | 0 <= k < |t| ensures le(s[0], t[k]) {
          assert t[k] in s[1..];
          SortedHead(s, t[k], le);
        }
        SortedCons(s[0], t, le);
      }
    }
  }

  /** Number of elements of `s` that satisfy `p`. */
  function Count<T>(s: seq<T>, p: T -> bool): (n: nat)
    ensures n <= |s|
    ensures n == 0 <==> forall x :: x in s ==> !p(x)
  {
    if s == [] then 0 else (if p(s[0]) then 1 else 0) + Count(s[1..], p)
  }

  /** Filtering keeps exactly `Count` elements. */
  lemma {:induction false} FilterCount<T>(s: seq<T>, p: T -> bool)
    ensures |Filter(s, p)| == Count(s, p)
  {
    if s != [] { FilterCount(s[1..], p); }
  }

  /** Appending an element raises the count by one exactly when it satisfies the predicate. */
  lemma {:induction false} CountAppend<T>(s: seq<T>, x: T, p: T -> bool)
    ensures Count(s + [x], p) == Count(s, p) + (if p(x) then 1 else 0)
  {
    if s != [] {
      assert (s + [x])[1..] == s[1..] + [x];
      CountAppend(s[1..], x, p);
    }
  }

  /** Some element of `s` satisfies `p`. */
  predicate Any<T>(s: seq<T>, p: T -> bool) {
    exists i :: 0 <= i < |s| && p(s[i])
  }

  /** Some element satisfies `p` when the head does or some element of the tail does. */
  lemma AnyCons<T>(s: seq<T>, p: T -> bool)
    requires s != []
    ensures Any(s, p) <==> p(s[0]) || Any(s[1..], p)
  {
    if Any(s[1..], p) {
      var i :| 0 <= i < |s[1..]| && p(s[1..][i]);
      assert s[i + 1] == s[1..][i];
    }
    if Any(s, p) && !p(s[0]) {
      var i :| 0 <= i < |s| && p(s[i]);
      assert s[1..][i - 1] == s[i];
    }
  }

  /** `le` is total and transitive, so sorting by it is well defined up to ties. */
  ghost predicate TotalPreorder<T(!new)>(le: (T, T) -> bool) {
    && (forall a, b :: le(a, b) || le(b, a))
    && (forall a, b, c :: le(a, b) && le(b, c) ==> le(a, c))
  }

  predicate SortedBy<T>(s: seq<T>, le: (T, T) -> bool) {
    forall i, j :: 0 <= i < j < |s| ==> le(s[i], s[j])
  }

  lemma SortedHead<T>(s: seq<T>, y: T, le: (T, T) -> bool)
    requires SortedBy(s, le) && s != [] && y in s[1..]
    ensures le(s[0], y)
  {
    var j :| 0 <= j < |s[1..]| && s[1..][j] == y;
    assert s[j + 1] == y;
  }

  /** An element no greater than any of a sorted sequence can go in front of it. */
  lemma SortedCons<T>(y: T, t: seq<T>, le: (T, T) -> bool)
    requires SortedBy(t, le)
    requires forall k :: 0 <= k < |t| ==> le(y, t[k])
    ensures SortedBy([y] + t, le)
  {
    var r := [y] + t;
    forall i, j | 0 <= i < j < |r| ensures le(r[i], r[j]) {
      assert r[j] == t[j - 1];
      if i > 0 {
        assert r[i] == t[i - 1];
      }
    }
  }

  function Insert<T(!new)>(x: T, s: seq<T>, le: (T, T) -> bool): (r: seq<T>)
    requires TotalPreorder(le) && SortedBy(s, le)
    ensures SortedBy(r, le)
    ensures multiset(r) == multiset(s) + multiset{x}
  {
    if s == [] then [x]
    else if le(x, s[0]) then
      assert forall k :: 0 <= k < |s| ==> le(x, s[k]) by {
        forall k | 0 < k < |s| ensures le(x, s[k]) {
          assert le(s[0], s[k]);
        }
      }
      SortedCons(x, s, le);
      [x] + s
    else
      var t := Insert(x, s[1..], le);
      assert s == [s[0]] + s[1..];
      assert le(s[0], x);
      forall k | 0 <= k < |t| ensures le(s[0], t[k]) {
        assert t[k] in multiset(t);
        if t[k] != x {
          assert t[k] in multiset(s[1..]);
          SortedHead(s, t[k], le);
        }
      }
      SortedCons(s[0], t, le);
      [s[0]] + t
  }

  /** `find(...).sort(...)`: the same elements, ordered by `le`. */
  function SortBy<T(!new)>(s: seq<T>, le: (T, T) -> bool): (r: seq<T>)
    requires TotalPreorder(le)
    ensures SortedBy(r, le)
    ensures multiset(r) == multiset(s)
  {
    if s == [] then []
    else
      assert s == [s[0]] + s[1..];
      Insert(s[0], SortBy(s[1..], le), le)
  }
}

/** Query-string pagination: `Math.max(1, parseInt(page) || 1)`,
    `Math.min(max, Math.max(1, parseInt(limit) || default))` and `skip((page - 1) * limit)`.
    A raw parameter is `parseInt`'s result, `None` for NaN. */
module Paging {
  import opened Js
  import opened Collections

  /** `parseInt(x, 10) || default`: NaN and 0 both fall back to the default. */
  function OrDefault(raw: Option<int>, default: int): int {
    if raw.None? || raw.value == 0 then default else raw.value
  }

  function PageNumber(raw: Option<int>): (p: int)
    ensures p >= 1
    ensures raw.None? || raw == Some(0) ==> p == 1
    ensures raw.Some? && raw.value >= 1 ==> p == raw.value
    ensures raw.Some? && raw.value < 0 ==> p == 1
  {
    var v := OrDefault(raw, 1);
    if v < 1 then 1 else v
  }

  function PageLimit(raw: Option<int>, default: int, max: int): (l: int)
    requires 1 <= default <= max
    ensures 1 <= l <= max
    ensures raw.None? || raw == Some(0) ==> l == default
    ensures raw.Some? && 1 <= raw.value <= max ==> l == raw.value
    ensures raw.Some? && raw.value > max ==> l == max
    ensures raw.Some? && raw.value < 0 ==> l == 1
  {
    var v := OrDefault(raw, default);
    if v > max then max else if v < 1 then 1 else v
  }

  /** `Math.max(0, parseInt(x) || 0)` */
  function Offset(raw: Option<int>): (o: nat)
    ensures raw.Some? && raw.value >= 0 ==> o == raw.value
    ensures raw.None? || raw.value <= 0 ==> o == 0
  {
    var v := OrDefault(raw, 0);
    if v < 0 then 0 else v
  }

  /** The items of page `page` when pages hold `limit` items. */
  function Page<T>(s: seq<T>, page: int, limit: int): (r: seq<T>)
    requires page >= 1 && limit >= 1
    ensures |r| <= limit
    ensures var skip := (page - 1) * limit;
      forall i :: 0 <= i < |r| ==> skip + i < |s| && r[i] == s[skip + i]
    ensures var skip := (page - 1) * limit;
      |r| == if skip >= |s| then 0 else if |s| - skip < limit then |s| - skip else limit
  {
    var skip := (page - 1) * limit;
    if skip >= |s| then [] else if |s| - skip < limit then s[skip..] else s[skip..skip + limit]
  }

  /** A page holds items of the sequence only. */
  lemma PageWithin<T>(s: seq<T>, page: int, limit: int)
    requires page >= 1 && limit >= 1
    ensures forall x :: x in Page(s, page, limit) ==> x in s
  {
    var r := Page(s, page, limit);
    var skip := (page - 1) * limit;
    forall x | x in r ensures x in s {
      var i :| 0 <= i < |r| && r[i] == x;
      assert s[skip + i] == x;
    }
  }

  /** A page of a sorted sequence is sorted. */
  lemma PageKeepsOrder<T>(s: seq<T>, page: int, limit: int, le: (T, T) -> bool)
    requires page >= 1 && limit >= 1 && SortedBy(s, le)
    ensures SortedBy(Page(s, page, limit), le)
  {
    var r := Page(s, page, limit);
    var skip := (page - 1) * limit;
    forall i, j | 0 <= i < j < |r| ensures le(r[i], r[j]) {
      assert r[i] == s[skip + i] && r[j] == s[skip + j];
    }
  }

  /** The first page of a sequence no longer than the limit is the whole sequence. */
  lemma FirstPageIsAll<T>(s: seq<T>, limit: int)
    requires limit >= 1
    ensures |s| <= limit ==> Page(s, 1, limit) == s
  {
  }
}

=== FILE: js.dfy ===
/** JavaScript values as the request bodies and query strings deliver them, their
    truthiness, and the integer part of `Number(...)` / `String(...)`. */
module Js {
  import opened Strings

  datatype Option<+T> = None | Some(value: T) {
    function GetOr(default: T): T {
      match this
      case Some(v) => v
      case None => default
    }
  }

  /** A value read from a JSON body or query string. Numbers are integers in this model. */
  datatype JsValue = Undefined | Null | Bool(b: bool) | Num(n: int) | Str(s: string)

  /** `!!v` */
  predicate Truthy(v: JsValue) {
    match v
    case Undefined => false
    case Null => false
    case Bool(b) => b
    case Num(n) => n != 0
    case Str(s) => s != []
  }

  /** Truthiness of an optional string field: absent or empty is falsy. */
  predicate Present(s: Option<string>) {
    s.Some? && s.value != []
  }

  /** `a || b` on optional strings: the first operand when it is truthy, else the second. */
  function OrElse(a: Option<string>, b: Option<string>): (r: Option<string>)
    ensures Present(r) <==> Present(a) || Present(b)
    ensures Present(a) ==> r == a
    ensures !Present(a) ==> r == b
  {
    if Present(a) then a else b
  }

  function DigitChar(d: nat): char
    requires d < 10
  {
    ('0' as int + d) as char
  }

  /** `String(n)` for a natural number: its shortest decimal numeral. */
  function NatToString(n: nat): (r: string)
    ensures r != [] && forall i :: 0 <= i < |r| ==> IsDigit(r[i])
    ensures r[0] == '0' ==> n == 0
  {
    if n < 10 then [DigitChar(n)] else NatToString(n / 10) + [DigitChar(n % 10)]
  }

  /** `String(n)` for an integer. */
  function IntToString(n: int): (r: string)
    ensures r != [] && (r[0] == '-' <==> n < 0)
    ensures n >= 0 ==> AllDigits(r)
    ensures n < 0 ==> AllDigits(r[1..])
  {
    if n < 0 then "-" + NatToString(-n) else NatToString(n)
  }

  /** `String(v)` */
  function ToStr(v: JsValue): (r: string)
    ensures v.Str? ==> r == v.s
    ensures v.Undefined? ==> r == "undefined"
    ensures v.Null? ==> r == "null"
    ensures v.Bool? ==> r == (if v.b then "true" else "false")
    ensures v.Num? ==> r == IntToString(v.n)
    ensures Truthy(v) && !v.Str? ==> r != []
  {
    match v
    case Undefined => "undefined"
    case Null => "null"
    case Bool(b) => if b then "true" else "false"
    case Num(n) => IntToString(n)
    case Str(s) => s
  }

  predicate AllDigits(s: string) {
    forall i :: 0 <= i < |s| ==> IsDigit(s[i])
  }

  /** The value of a numeral of decimal digits. */
  function DigitsValue(s: string): nat
    requires AllDigits(s)
  {
    if s == [] then 0 else DigitsValue(s[..|s| - 1]) * 10 + (s[|s| - 1] as int - '0' as int)
  }

  /** The value of an optionally signed decimal numeral, 0 for the empty string, `None` for
      anything else. */
  function NumeralValue(t: string): Option<int> {
    if t == [] then Some(0)
    else if t[0] == '-' && |t| > 1 && AllDigits(t[1..]) then Some(-(DigitsValue(t[1..]) as int))
    else if t[0] == '+' && |t| > 1 && AllDigits(t[1..]) then Some(DigitsValue(t[1..]))
    else if AllDigits(t) then Some(DigitsValue(t))
    else None
  }

  /** `Number(s)` for a string that spells a decimal integer: surrounding whitespace is
      ignored, the empty string is 0, an optional sign may precede the digits. `None` is NaN
      (and every other numeric literal form, which this model does not read). */
  function StringToInt(s: string): (r: Option<int>)
    ensures s == [] ==> r == Some(0)
    ensures s != [] && AllDigits(s) ==> r == Some(DigitsValue(s))
  {
    assert s != [] && AllDigits(s) ==> Trimmed(s);
    TrimOfTrimmed(if s != [] && AllDigits(s) then s else []);
    NumeralValue(Trim(s))
  }

  /** `Number(v)` when it is an integer; `None` stands for NaN. */
  function ToNumber(v: JsValue): (r: Option<int>)
    ensures v.Undefined? ==> r.None?
    ensures v.Null? ==> r == Some(0)
    ensures v.Bool? ==> r == Some(if v.b then 1 else 0)
    ensures v.Num? ==> r == Some(v.n)
    ensures v.Str? ==> r == StringToInt(v.s)
  {
    match v
    case Undefined => None
    case Null => Some(0)
    case Bool(b) => Some(if b then 1 else 0)
    case Num(n) => Some(n)
    case Str(s) => StringToInt(s)
  }

  lemma {:induction false} DigitsOfNatToString(n: nat)
    ensures DigitsValue(NatToString(n)) == n
  {
    if n >= 10 {
      var r := NatToString(n);
      DigitsOfNatToString(n / 10);
      assert r[..|r| - 1] == NatToString(n / 10);
    }
  }

  /** `Number` reads back the numeral of a natural number. */
  lemma NumberOfNatString(n: int)
    requires n >= 0
    ensures StringToInt(IntToString(n)) == Some(n)
  {
    var r := IntToString(n);
    assert Trimmed(r) by { assert IsDigit(r[0]) && IsDigit(r[|r| - 1]); }
    TrimOfTrimmed(r);
    DigitsOfNatToString(n);
    assert IsDigit(r[0]);
  }

  /** A minus sign before digits of value `m`, with nothing around them, reads as `-m`. */
  lemma NumberOfNegatedDigits(r: string, d: string, m: nat)
    requires r == "-" + d && d != [] && AllDigits(d) && Trimmed(r) && DigitsValue(d) == m
    ensures StringToInt(r) == Some(-(m as int))
  {
    TrimOfTrimmed(r);
    assert r[0] == '-' && r[1..] == d;
  }

  /** The numeral of a negative number: a minus sign before the digits of its magnitude, and
      no whitespace at either end. */
  lemma NegativeNumeral(n: int)
    requires n < 0
    ensures IntToString(n) == "-" + NatToString(-n)
    ensures Trimmed(IntToString(n))
  {
    var d := NatToString(-n);
    var r := "-" + d;
    assert r[|r| - 1] == d[|d| - 1];
  }

  /** `Number` reads back the numeral of a negative number. */
  lemma NumberOfNegativeString(n: int)
    requires n < 0
    ensures StringToInt(IntToString(n)) == Some(n)
  {
    var d := NatToString(-n);
    DigitsOfNatToString(-n);
    NegativeNumeral(n);
    NumberOfNegatedDigits(IntToString(n), d, -n);
  }

  /** `Number(String(n)) === n` for every integer. */
  lemma NumberOfString(n: int)
    ensures StringToInt(IntToString(n)) == Some(n)
  {
    if n < 0 {
      NumberOfNegativeString(n);
    } else {
      NumberOfNatString(n);
    }
  }

  /** The only integer whose string is "1" is 1. */
  lemma IntToStringIsOne(n: int)
    ensures IntToString(n) == "1" <==> n == 1
  {
    if IntToString(n) == "1" {
      NumberOfString(n);
      NumberOfString(1);
    }
  }
}

=== FILE: mesa_controller.dfy ===
/** The table handlers: creation with a validated, unique `numero`, the listing ordered
    by `numero`, and the lookup by id. */
module MesaController {
  import opened Js
  import opened Collections
  import opened MesaModel

  /** Outcome of validating the `numero` of the request body. */
  datatype NumeroCheck = NumeroMissing | NumeroNotPositive | NumeroOk(n: int)

  /** A value `Number()` turns into a positive integer: `Number.isInteger(n) && n > 0`. */
  predicate PositiveInteger(v: JsValue) {
    ToNumber(v).Some? && ToNumber(v).value > 0
  }

  /** `undefined`, `null` and `""` are missing; every other value must convert to a
      positive integer. */
  function CheckNumero(v: JsValue): (r: NumeroCheck)
    ensures r.NumeroMissing? <==> v == Undefined || v == Null || v == Str("")
    ensures r.NumeroOk? <==> v != Str("") && PositiveInteger(v)
    ensures r.NumeroOk? ==> r.n > 0 && ToNumber(v) == Some(r.n)
  {
    if v == Undefined || v == Null || v == Str("") then NumeroMissing
    else
      var n := ToNumber(v);
      if n.None? || n.value <= 0 then NumeroNotPositive else NumeroOk(n.value)
  }

  /** Every positive integer is accepted, whether it arrives as a JSON number or as its
      decimal string; zero and negative numbers are refused. */
  lemma CheckNumeroOfInt(n: int)
    ensures CheckNumero(Num(n)) == (if n > 0 then NumeroOk(n) else NumeroNotPositive)
    ensures n > 0 ==> CheckNumero(Str(IntToString(n))) == NumeroOk(n)
  {
    if n > 0 {
      var s := IntToString(n);
      NumberOfString(n);
      assert ToNumber(Str(s)) == Some(n);
      assert s == NatToString(n) && s != [];
    }
  }

  datatype CreateMesaReply = MesaRequired | MesaNotPositive | MesaExists | MesaCreated(mesa: Mesa) {
    function Code(): int {
      match this
      case MesaRequired => 400
      case MesaNotPositive => 400
      case MesaExists => 400
      case MesaCreated(_) => 201
    }
  }

  /** `crearMesa`. `id` is the id the database gives the new table. */
  method CrearMesa(store: MesaStore, numero: JsValue, id: MesaId) returns (reply: CreateMesaReply)
    requires store.Valid() && !HasMesa(store.mesas, id)
    modifies store
    ensures store.Valid()
    ensures reply.MesaRequired? <==> CheckNumero(numero).NumeroMissing?
    ensures reply.MesaNotPositive? <==> CheckNumero(numero).NumeroNotPositive?
    ensures reply.MesaExists? <==>
      CheckNumero(numero).NumeroOk? && HasNumero(old(store.mesas), CheckNumero(numero).n)
    ensures !reply.MesaCreated? ==> store.mesas == old(store.mesas)
    ensures reply.MesaCreated? ==>
      && reply.mesa == NewMesa(id, CheckNumero(numero).n)
      && store.mesas == old(store.mesas) + [reply.mesa]
  {
    var check := CheckNumero(numero);
    if check.NumeroMissing? {
      return MesaRequired;
    }
    if check.NumeroNotPositive? {
      return MesaNotPositive;
    }
    if HasNumero(store.mesas, check.n) {
      return MesaExists;
    }
    var m := NewMesa(id, check.n);
    AddMesaKeepsKeys(store.mesas, m);
    store.mesas := store.mesas + [m];
    reply := MesaCreated(m);
  }

  /** A table with a fresh id and an unused number keeps both unique indexes. */
  lemma AddMesaKeepsKeys(ms: seq<Mesa>, m: Mesa)
    requires MesaIdsUnique(ms) && NumerosUnique(ms)
    requires !HasMesa(ms, m.id) && !HasNumero(ms, m.numero)
    ensures MesaIdsUnique(ms + [m]) && NumerosUnique(ms + [m])
  {
    var ms' := ms + [m];
    forall i, j | 0 <= i < j < |ms'| ensures ms'[i].id != ms'[j].id && ms'[i].numero != ms'[j].numero {
      if j == |ms| { assert ms'[i] == ms[i]; }
    }
  }

  /** The order of `sort({ numero: 1 })`. */
  predicate NumeroLe(a: Mesa, b: Mesa) {
    a.numero <= b.numero
  }

  /** `obtenerMesas`: every table, ascending by `numero`. */
  function ObtenerMesas(ms: seq<Mesa>): (r: seq<Mesa>)
    ensures SortedBy(r, NumeroLe)
    ensures multiset(r) == multiset(ms)
  {
    SortBy(ms, NumeroLe)
  }

  /** A value that occurs at two positions occurs twice in the multiset. */
  lemma RepeatedTwice<T>(s: seq<T>, i: nat, j: nat)
    requires i < j < |s|
    ensures s[i] == s[j] ==> multiset(s)[s[i]] >= 2
  {
    assert s == s[..j] + [s[j]] + s[j + 1..];
    assert s[..j][i] == s[i];
    assert s[i] in multiset(s[..j]);
  }

  /** Two different positions hold different numbers. */
  lemma NumerosDiffer(ms: seq<Mesa>, a: nat, b: nat)
    requires NumerosUnique(ms) && a < |ms| && b < |ms| && a != b
    ensures ms[a].numero != ms[b].numero
  {
    if a > b {
      assert ms[b].numero != ms[a].numero;
    }
  }

  /** Under the unique index on `numero`, no table is stored twice. */
  lemma {:induction false} UniqueNumerosOnce(ms: seq<Mesa>, x: Mesa)
    requires NumerosUnique(ms)
    ensures multiset(ms)[x] <= 1
  {
    if ms != [] {
      var tail := ms[1..];
      assert ms == [ms[0]] + tail;
      assert NumerosUnique(tail) by {
        forall i, j | 0 <= i < j < |tail| ensures tail[i].numero != tail[j].numero {
          assert tail[i] == ms[i + 1] && tail[j] == ms[j + 1];
        }
      }
      UniqueNumerosOnce(tail, x);
      if x == ms[0] {
        forall k | 0 <= k < |tail| ensures tail[k] != x {
          assert tail[k] == ms[k + 1];
        }
        assert x !in tail;
      }
    }
  }

  /** Since `numero` is unique, the listing is strictly ascending: each table once, and
      no two with the same number. */
  lemma ObtenerMesasStrict(ms: seq<Mesa>)
    requires NumerosUnique(ms)
    ensures var r := ObtenerMesas(ms);
      forall i, j :: 0 <= i < j < |r| ==> r[i].numero < r[j].numero
  {
    var r := ObtenerMesas(ms);
    forall i, j | 0 <= i < j < |r| ensures r[i].numero < r[j].numero {
      assert NumeroLe(r[i], r[j]);
      RepeatedTwice(r, i, j);
      UniqueNumerosOnce(ms, r[i]);
      assert r[i] != r[j];
      assert r[i] in multiset(ms) && r[j] in multiset(ms);
      var a :| 0 <= a < |ms| && ms[a] == r[i];
      var b :| 0 <= b < |ms| && ms[b] == r[j];
      NumerosDiffer(ms, a, b);
    }
  }

  datatype MesaReply = MesaNotFound | MesaFound(mesa: Mesa) {
    function Code(): int {
      match this
      case MesaNotFound => 404
      case MesaFound(_) => 200
    }
  }

  /** `obtenerMesaPorId`: the table with that id, or 404. */
  function ObtenerMesaPorId(ms: seq<Mesa>, id: MesaId): (r: MesaReply)
    ensures r.MesaNotFound? <==> !HasMesa(ms, id)
    ensures r.MesaFound? ==> r.mesa in ms && r.mesa.id == id
  {
    var k := IndexOfMesa(ms, id);
    if k.None? then MesaNotFound else MesaFound(ms[k.value])
  }

  /** With unique ids, the table found is the only one with that id. */
  lemma ObtenerMesaPorIdUnique(ms: seq<Mesa>, id: MesaId, i: nat)
    requires MesaIdsUnique(ms) && i < |ms| && ms[i].id == id
    ensures ObtenerMesaPorId(ms, id) == MesaFound(ms[i])
  {
    forall j | 0 <= j < |ms| && j != i ensures ms[j].id != id {
      if j < i { assert ms[j].id != ms[i].id; }
      else { assert ms[i].id != ms[j].id; }
    }
  }
}

=== FILE: mesa_model.dfy ===
/** The table (`Mesa`) record and its collection. */
module MesaModel {
  import opened Js

  /** A table's database id. */
  type MesaId = nat

  /** Occupancy of a table: `libre`, `ocupada` or `reservada`. */
  datatype Estado = Libre | Ocupada | Reservada

  /** `numero` is required and unique; `qrCode` is optional; `estado` defaults to `libre`. */
  datatype Mesa = Mesa(id: MesaId, numero: int, qrCode: Option<string>, estado: Estado)

  /** A table as `Mesa.create({ numero })` stores it: schema defaults for the other fields. */
  function NewMesa(id: MesaId, numero: int): (m: Mesa)
    ensures m.id == id && m.numero == numero
    ensures m.estado == Libre && m.qrCode == None
  {
    Mesa(id, numero, None, Libre)
  }

  predicate MesaIdsUnique(ms: seq<Mesa>) {
    forall i, j :: 0 <= i < j < |ms| ==> ms[i].id != ms[j].id
  }

  /** The unique index on `numero`. */
  predicate NumerosUnique(ms: seq<Mesa>) {
    forall i, j :: 0 <= i < j < |ms| ==> ms[i].numero != ms[j].numero
  }

  predicate HasMesa(ms: seq<Mesa>, id: MesaId) {
    exists i :: 0 <= i < |ms| && ms[i].id == id
  }

  /** `Mesa.findById(id)`: position of the table with that id. */
  function IndexOfMesa(ms: seq<Mesa>, id: MesaId): (r: Option<nat>)
    ensures r.Some? ==> r.value < |ms| && ms[r.value].id == id
    ensures r.None? <==> !HasMesa(ms, id)
  {
    if ms == [] then None
    else if ms[0].id == id then Some(0)
    else
      var r := IndexOfMesa(ms[1..], id);
      assert forall i :: 1 <= i < |ms| ==> ms[i] == ms[1..][i - 1];
      if r.None? then None else Some(r.value + 1)
  }

  /** `Mesa.findOne({ numero })` finds something. */
  predicate HasNumero(ms: seq<Mesa>, numero: int) {
    exists i :: 0 <= i < |ms| && ms[i].numero == numero
  }

  /** `Mesa.findByIdAndUpdate(id, { estado })`: the table with that id takes the new state;
      nothing else changes, and an unknown id changes nothing. */
  function SetEstado(ms: seq<Mesa>, id: MesaId, e: Estado): (r: seq<Mesa>)
    ensures |r| == |ms|
    ensures forall i :: 0 <= i < |ms| ==>
      r[i] == if ms[i].id == id then ms[i].(estado := e) else ms[i]
  {
    seq(|ms|, i requires 0 <= i < |ms| => if ms[i].id == id then ms[i].(estado := e) else ms[i])
  }

  /** Two successive state writes to the same table leave only the second. */
  lemma SetEstadoTwice(ms: seq<Mesa>, id: MesaId, e1: Estado, e2: Estado)
    ensures SetEstado(SetEstado(ms, id, e1), id, e2) == SetEstado(ms, id, e2)
  {
  }

  /** The table collection. */
  class MesaStore {
    var mesas: seq<Mesa>

    ghost predicate Valid()
      reads this
    {
      MesaIdsUnique(mesas) && NumerosUnique(mesas)
    }

    constructor ()
      ensures mesas == [] && Valid()
    {
      mesas := [];
    }
  }

  /** Writing the occupancy state keeps ids and numbers as they were. */
  lemma SetEstadoKeepsKeys(ms: seq<Mesa>, id: MesaId, e: Estado)
    ensures MesaIdsUnique(ms) ==> MesaIdsUnique(SetEstado(ms, id, e))
    ensures NumerosUnique(ms) ==> NumerosUnique(SetEstado(ms, id, e))
  {
  }
}

=== FILE: music_search.dfy ===
/** The track search: the cached client-credentials token (section 4.4 of RFC 6749), the
    validation and clamping of the query, and the mapping of each track found to the shape
    the front end shows. */
module MusicSearch {
  import opened Strings
  import opened Js
  import opened Paging
  import opened TrackUri
  import opened SpotifyAuth

  /** `_appToken` and `_expiresAt` (milliseconds, 0 when unset). */
  datatype AppToken = AppToken(token: Option<string>, expiresAt: int)

  /** The margin before the expiry at which the cached token is no longer used. */
  const AppTokenMarginMs := 60000

  /** `_appToken && now < _expiresAt - 60_000` */
  predicate AppTokenUsable(a: AppToken, now: int) {
    Present(a.token) && now < a.expiresAt - AppTokenMarginMs
  }

  /** The cache after a token response: `expires_in || 3600` seconds from `now`. */
  function FetchedAppToken(data: TokenResponse, now: int): (a: AppToken)
    ensures a.token == data.accessToken
    ensures a.expiresAt == now + LifetimeSeconds(data.expiresIn) * 1000
  {
    AppToken(data.accessToken, now + LifetimeSeconds(data.expiresIn) * 1000)
  }

  /** A fetched token is reused exactly until one minute before its lifetime ends. */
  lemma FetchedAppTokenLife(data: TokenResponse, now: int, later: int)
    requires Present(data.accessToken)
    ensures AppTokenUsable(FetchedAppToken(data, now), later) <==>
      later < now + LifetimeSeconds(data.expiresIn) * 1000 - AppTokenMarginMs
  {
  }

  /** `getAppToken` returns rather than throws: the cached token is still usable, or the
      credentials are set and the token request succeeds. */
  predicate AppTokenAvailable(a: AppToken, credentials: bool, call: TokenCall, now: int) {
    AppTokenUsable(a, now) || (credentials && call.CallOk?)
  }

  /** The cache after `getAppToken`: kept while usable or when no token can be fetched,
      otherwise the fetched token. */
  function AppTokenAfter(a: AppToken, credentials: bool, call: TokenCall, now: int): (r: AppToken)
    ensures AppTokenUsable(a, now) ==> r == a
    ensures !AppTokenAvailable(a, credentials, call, now) ==> r == a
    ensures !AppTokenUsable(a, now) && credentials && call.CallOk? ==>
      r.token == call.data.accessToken && r.expiresAt == now + LifetimeSeconds(call.data.expiresIn) * 1000
  {
    if AppTokenUsable(a, now) || !(credentials && call.CallOk?) then a else FetchedAppToken(call.data, now)
  }

  /** The module-level token cache of the search controller. */
  class AppTokenCache {
    var appToken: Option<string>
    var expiresAt: int

    constructor ()
      ensures Current() == AppToken(None, 0)
    {
      appToken, expiresAt := None, 0;
    }

    function Current(): (a: AppToken)
      reads this
      ensures a.token == appToken && a.expiresAt == expiresAt
    {
      AppToken(appToken, expiresAt)
    }

    /** `getAppToken`. `credentials` says the client id and secret are set; `call` is the
        outcome of the token request. */
    method GetAppToken(credentials: bool, call: TokenCall, now: int) returns (r: TokenResult)
      modifies this
      ensures r.Token? <==> AppTokenAvailable(old(Current()), credentials, call, now)
      ensures AppTokenUsable(old(Current()), now) ==> r == Token(old(appToken)) && Current() == old(Current())
      ensures !AppTokenUsable(old(Current()), now) ==>
        && (r.Token? <==> credentials && call.CallOk?)
        && Current() == (if r.Token? then FetchedAppToken(call.data, now) else old(Current()))
        && (r.Token? ==> r.token == appToken)
    {
      if AppTokenUsable(Current(), now) {
        return Token(appToken);
      }
      if !credentials || call.CallFailed? {
        return TokenError;
      }
      var fetched := FetchedAppToken(call.data, now);
      appToken, expiresAt := fetched.token, fetched.expiresAt;
      r := Token(appToken);
    }
  }

  /** One album image: `url` and `height`, each possibly missing. */
  datatype Image = Image(url: Option<string>, height: Option<int>)

  /** A track object of the search response, reduced to what `mapTrack` reads. */
  datatype SpotifyTrack = SpotifyTrack(
    id: Option<string>,
    uri: Option<string>,
    name: Option<string>,
    artistNames: seq<string>,
    albumName: Option<string>,
    images: seq<Image>,
    durationMs: Option<int>,
    previewUrl: Option<string>,
    explicit: JsValue)

  /** `i.height >= 300`; a missing height compares false. */
  predicate Large(i: Image) {
    i.height.Some? && i.height.value >= 300
  }

  /** `images.find((i) => i.height >= 300) || images[0] || null`, as a position. */
  function PickImage(images: seq<Image>): (r: Option<nat>)
    ensures r.Some? ==> r.value < |images|
    ensures r.Some? && Large(images[r.value]) ==> forall j :: 0 <= j < r.value ==> !Large(images[j])
    ensures r.Some? && !Large(images[r.value]) ==> r.value == 0 && forall j :: 0 <= j < |images| ==> !Large(images[j])
    ensures r.None? <==> images == []
  {
    var k := FirstLarge(images);
    if k < |images| then Some(k) else if images == [] then None else Some(0)
  }

  /** Position of the first large image, `|images|` when there is none. */
  function FirstLarge(images: seq<Image>): (k: nat)
    ensures k <= |images|
    ensures forall j :: 0 <= j < k ==> !Large(images[j])
    ensures k < |images| ==> Large(images[k])
  {
    if images == [] || Large(images[0]) then 0 else 1 + FirstLarge(images[1..])
  }

  /** The item `mapTrack` returns. */
  datatype MappedTrack = MappedTrack(
    trackId: Option<string>,
    trackUri: Option<string>,
    title: string,
    artist: string,
    album: string,
    imageUrl: string,
    durationMs: Option<int>,
    previewUrl: Option<string>,
    explicit: bool)

  /** `item.uri`, else `spotify:track:<id>` when there is an id, else `null`. */
  function MappedUri(t: SpotifyTrack): (r: Option<string>)
    ensures Present(t.uri) ==> r == t.uri
    ensures !Present(t.uri) && Present(t.id) ==> r == Some(TrackPrefix + t.id.value)
    ensures r.None? <==> !Present(t.uri) && !Present(t.id)
  {
    if Present(t.uri) then t.uri
    else if Present(t.id) then Some(TrackPrefix + t.id.value)
    else None
  }

  /** `mapTrack`: falsy strings become "" or `null` as the source says, the artists are
      joined with ", ", the image is the one `PickImage` chooses. */
  function MapTrack(t: SpotifyTrack): (m: MappedTrack)
    ensures m.trackId == (if Present(t.id) then t.id else None)
    ensures m.trackUri == MappedUri(t)
    ensures m.title == (if Present(t.name) then t.name.value else [])
    ensures m.artist == Join(t.artistNames, ", ")
    ensures m.album == (if Present(t.albumName) then t.albumName.value else [])
    ensures m.imageUrl != [] ==>
      PickImage(t.images).Some? && t.images[PickImage(t.images).value].url == Some(m.imageUrl)
    ensures t.images == [] ==> m.imageUrl == []
    ensures PickImage(t.images).Some? && Present(t.images[PickImage(t.images).value].url) ==>
      Some(m.imageUrl) == t.images[PickImage(t.images).value].url
    ensures PickImage(t.images).Some? && !Present(t.images[PickImage(t.images).value].url) ==>
      m.imageUrl == []
    ensures m.previewUrl.Some? <==> Present(t.previewUrl)
    ensures m.previewUrl.Some? ==> m.previewUrl == t.previewUrl
    ensures m.durationMs == t.durationMs
    ensures m.explicit <==> Truthy(t.explicit)
  {
    var k := PickImage(t.images);
    var url := if k.Some? && Present(t.images[k.value].url) then t.images[k.value].url.value else [];
    MappedTrack(
      if Present(t.id) then t.id else None,
      MappedUri(t),
      if Present(t.name) then t.name.value else [],
      Join(t.artistNames, ", "),
      if Present(t.albumName) then t.albumName.value else [],
      url,
      t.durationMs,
      if Present(t.previewUrl) then t.previewUrl else None,
      Truthy(t.explicit))
  }

  /** A URI built from an alphanumeric id is one the song request handler accepts as it is. */
  lemma MappedUriAccepted(t: SpotifyTrack)
    requires !Present(t.uri) && t.id.Some? && BareId(t.id.value)
    ensures MappedUri(t).Some?
    ensures NormalizeTrackUri(Str(MappedUri(t).value)) == MappedUri(t)
  {
    var id := t.id.value;
    assert !IsJsWhitespace(id[|id| - 1]);
    PrefixedShape(id);
    NormalizeOfPrefixed(TrackPrefix + id);
  }

  /** `tracks.map(mapTrack)`: one item per track, in order. */
  function MapTracks(ts: seq<SpotifyTrack>): (r: seq<MappedTrack>)
    ensures |r| == |ts|
    ensures forall i :: 0 <= i < |ts| ==> r[i] == MapTrack(ts[i])
  {
    seq(|ts|, i requires 0 <= i < |ts| => MapTrack(ts[i]))
  }

  /** The parameters of the search request sent to the Web API. */
  datatype SearchRequest = SearchRequest(q: string, limit: int, offset: int, market: Option<string>)

  /** `String(req.query?.q || "").trim()` */
  function QueryText(q: Option<string>): (r: string)
    ensures Trimmed(r)
    ensures Present(q) ==> r == Trim(q.value)
    ensures !Present(q) ==> r == []
  {
    Trim(if Present(q) then q.value else [])
  }

  /** `String(x).trim().toUpperCase()`, sent only when non-empty. */
  function MarketCode(raw: string): (r: Option<string>)
    ensures r.Some? ==> r.value != [] && forall i :: 0 <= i < |r.value| ==> !IsAsciiLower(r.value[i])
  {
    var m := UpperAscii(Trim(raw));
    if m == [] then None else Some(m)
  }

  /** The market sent is the trimmed value, upper-cased. */
  lemma MarketCodeValue(raw: string)
    ensures MarketCode(raw).Some? ==> MarketCode(raw).value == UpperAscii(Trim(raw))
  {
  }

  /** No market is sent exactly when the value is blank once trimmed. */
  lemma MarketCodeBlank(raw: string)
    ensures MarketCode(raw).None? <==> Trim(raw) == []
  {
  }

  /** `String(req.query?.market ?? process.env.SPOTIFY_SEARCH_MARKET ?? "").trim().toUpperCase()`,
      sent only when non-empty. Only a missing query value falls back to the environment:
      an empty one does not. */
  function Market(query: Option<string>, env: Option<string>): (r: Option<string>)
    ensures r.Some? ==> r.value != [] && forall i :: 0 <= i < |r.value| ==> !IsAsciiLower(r.value[i])
    ensures query.Some? ==> r == MarketCode(query.value)
    ensures query.None? && env.Some? ==> r == MarketCode(env.value)
    ensures query.None? && env.None? ==> r.None?
  {
    MarketCode(if query.Some? then query.value else if env.Some? then env.value else [])
  }

  /** The request `searchTracks` sends, or `None` for the 400 on an empty query. `limit` and
      `offset` are `parseInt`'s results, `None` for NaN. */
  function BuildSearch(q: Option<string>, limit: Option<int>, offset: Option<int>,
                       market: Option<string>, envMarket: Option<string>): (r: Option<SearchRequest>)
    ensures r.None? <==> QueryText(q) == []
    ensures r.Some? ==>
      && r.value.q == QueryText(q) && r.value.q != [] && Trimmed(r.value.q)
      && 1 <= r.value.limit <= 25 && r.value.offset >= 0
      && (limit.None? || limit == Some(0) ==> r.value.limit == 10)
      && (limit.Some? && 1 <= limit.value <= 25 ==> r.value.limit == limit.value)
      && (limit.Some? && limit.value > 25 ==> r.value.limit == 25)
      && (limit.Some? && limit.value < 0 ==> r.value.limit == 1)
      && (offset.Some? && offset.value >= 0 ==> r.value.offset == offset.value)
      && (offset.None? || offset.value < 0 ==> r.value.offset == 0)
      && r.value.limit == PageLimit(limit, 10, 25) && r.value.offset == Offset(offset)
      && r.value.market == Market(market, envMarket)
  {
    var text := QueryText(q);
    if text == [] then None
    else Some(SearchRequest(text, PageLimit(limit, 10, 25), Offset(offset), Market(market, envMarket)))
  }

  /** The outcome of the search call: a non-2xx status, or the tracks and `total` found. */
  datatype SearchCall = SearchFailed(status: int) | SearchOk(tracks: seq<SpotifyTrack>, total: Option<int>)

  datatype SearchReply = MissingQuery | NoToken | SpotifyError(status: int) | Results(total: int, items: seq<MappedTrack>) {
    function Code(): int {
      match this
      case MissingQuery => 400
      case NoToken => 500
      case SpotifyError(status) => status
      case Results(_, _) => 200
    }
  }

  /** The reply once the request has been sent with a token. */
  function SearchResult(search: SearchCall): (reply: SearchReply)
    ensures reply.Results? <==> search.SearchOk?
    ensures reply.Results? ==>
      && reply.items == MapTracks(search.tracks)
      && reply.total == (if search.total.Some? then search.total.value else 0)
    ensures reply.SpotifyError? <==> search.SearchFailed?
    ensures reply.SpotifyError? ==> reply.status == search.status
  {
    match search
    case SearchFailed(status) => SpotifyError(status)
    case SearchOk(tracks, total) => Results(if total.Some? then total.value else 0, MapTracks(tracks))
  }

  /** The part of `searchTracks` after validation: no request when the query was missing,
      otherwise the app token and then the call. */
  method SendSearch(cache: AppTokenCache, request: Option<SearchRequest>, credentials: bool,
                    tokenCall: TokenCall, search: SearchCall, now: int)
    returns (reply: SearchReply, sent: Option<SearchRequest>)
    modifies cache
    ensures reply.MissingQuery? <==> request.None?
    ensures request.None? ==> cache.Current() == old(cache.Current())
    ensures reply.NoToken? || reply.MissingQuery? <==> sent.None?
    ensures reply.NoToken? <==> request.Some? && !AppTokenAvailable(old(cache.Current()), credentials, tokenCall, now)
    ensures sent.Some? ==> sent == request && reply == SearchResult(search)
    ensures request.Some? ==> cache.Current() == AppTokenAfter(old(cache.Current()), credentials, tokenCall, now)
  {
    if request.None? {
      reply, sent := MissingQuery, None;
    } else {
      var token := cache.GetAppToken(credentials, tokenCall, now);
      if token.TokenError? {
        reply, sent := NoToken, None;
      } else {
        reply, sent := SearchResult(search), request;
      }
    }
  }

  /** `searchTracks`: validation first, then the app token, then the call. */
  method SearchTracks(cache: AppTokenCache, q: Option<string>, limit: Option<int>, offset: Option<int>,
                      market: Option<string>, envMarket: Option<string>, credentials: bool,
                      tokenCall: TokenCall, search: SearchCall, now: int)
    returns (reply: SearchReply, sent: Option<SearchRequest>)
    modifies cache
    ensures reply.MissingQuery? <==> QueryText(q) == []
    ensures reply.MissingQuery? ==> cache.Current() == old(cache.Current())
    ensures reply.NoToken? || reply.MissingQuery? <==> sent.None?
    ensures reply.NoToken? <==> QueryText(q) != [] && !AppTokenAvailable(old(cache.Current()), credentials, tokenCall, now)
    ensures sent.Some? ==> sent == BuildSearch(q, limit, offset, market, envMarket) && reply == SearchResult(search)
    ensures QueryText(q) != [] ==> cache.Current() == AppTokenAfter(old(cache.Current()), credentials, tokenCall, now)
  {
    var request := BuildSearch(q, limit, offset, market, envMarket);
    reply, sent := SendSearch(cache, request, credentials, tokenCall, search, now);
  }
}

=== FILE: promociones.dfy ===
/** The promotion (`Promocion`) record and its collection. */
module PromocionModel {
  import opened Js

  /** A promotion's database id. */
  type PromoId = nat

  /** `maxlength` of `titulo` and of `descripcion`. */
  const MaxTituloLength := 120
  const MaxDescripcionLength := 400

  /** One stored promotion. Dates are milliseconds since the epoch, `None` when unset or
      null; `createdAt` and `updatedAt` are the schema's timestamps. */
  datatype Promocion = Promocion(
    id: PromoId,
    titulo: string,
    descripcion: Option<string>,
    imagenUrl: string,
    activa: bool,
    inicia: Option<int>,
    termina: Option<int>,
    orden: int,
    createdAt: int,
    updatedAt: int)

  /** What the schema validators check when a promotion is created: the required strings are
      non-empty and both texts respect their maximum length. */
  predicate SchemaValid(p: Promocion) {
    && p.titulo != [] && |p.titulo| <= MaxTituloLength
    && p.imagenUrl != []
    && (p.descripcion.Some? ==> |p.descripcion.value| <= MaxDescripcionLength)
  }

  predicate PromoIdsUnique(ps: seq<Promocion>) {
    forall i, j :: 0 <= i < j < |ps| ==> ps[i].id != ps[j].id
  }

  predicate HasPromo(ps: seq<Promocion>, id: PromoId) {
    exists i :: 0 <= i < |ps| && ps[i].id == id
  }

  /** `Promocion.findById(id)`: position of the promotion with that id. */
  function IndexOfPromo(ps: seq<Promocion>, id: PromoId): (r: Option<nat>)
    ensures r.Some? ==> r.value < |ps| && ps[r.value].id == id
    ensures r.None? <==> !HasPromo(ps, id)
  {
    if ps == [] then None
    else if ps[0].id == id then Some(0)
    else
      var r := IndexOfPromo(ps[1..], id);
      assert forall i :: 1 <= i < |ps| ==> ps[i] == ps[1..][i - 1];
      if r.None? then None else Some(r.value + 1)
  }

  /** The promotion collection. */
  class PromocionStore {
    var items: seq<Promocion>

    ghost predicate Valid()
      reads this
    {
      PromoIdsUnique(items)
    }

    constructor ()
      ensures items == [] && Valid()
    {
      items := [];
    }
  }
}

/** The promotion handlers: creation with defaults, the listing with its "active now" window,
    pagination and order, the partial update, lookup and deletion. */
module PromocionController {
  import opened Strings
  import opened Js
  import opened Collections
  import opened Paging
  import opened PromocionModel

  /** `parseBoolean`: `undefined` stays undefined, a boolean is kept, and any other value is
      true exactly when its lower-cased string is `"true"` or `"1"`. */
  function ParseBoolean(v: JsValue): (r: Option<bool>)
    ensures r.None? <==> v == Undefined
    ensures v.Bool? ==> r == Some(v.b)
    ensures v.Str? ==> r == Some(LowerAscii(v.s) == "true" || LowerAscii(v.s) == "1")
  {
    if v == Undefined then None
    else if v.Bool? then Some(v.b)
    else
      var s := LowerAscii(ToStr(v));
      Some(s == "true" || s == "1")
  }

  /** The strings `"true"` and `"false"` read back as the booleans they spell. */
  lemma ParseBooleanOfWord(b: bool)
    ensures ParseBoolean(Str(ToStr(Bool(b)))) == Some(b)
  {
    if b {
      assert LowerAscii("true") == "true";
    } else {
      var s := LowerAscii("false");
      assert |s| == 5;
    }
  }

  /** A number is true only when it is 1; `null` is false. */
  lemma ParseBooleanOfNumber(n: int)
    ensures ParseBoolean(Num(n)) == Some(n == 1)
    ensures ParseBoolean(Null) == Some(false)
  {
    var s := IntToString(n);
    assert forall i :: 0 <= i < |s| ==> !IsAsciiUpper(s[i]) by {
      if n < 0 {
        assert forall i :: 1 <= i < |s| ==> s[i] == NatToString(-n)[i - 1];
      }
    }
    assert LowerAscii(s) == s;
    if |s| == 4 {
      assert s[0] == '-' || IsDigit(s[0]);
      assert s != "true";
    }
    IntToStringIsOne(n);
    var t := LowerAscii("null");
    assert t == "null";
  }

  /** The case of the letters does not matter. */
  lemma ParseBooleanIgnoresCase(s: string)
    ensures ParseBoolean(Str(UpperAscii(s))) == ParseBoolean(Str(s))
  {
    LowerOfUpper(s);
  }

  // ---------------------------------------------------------------- creation

  /** A date field of a body: absent, present but falsy, or a value `new Date(...)` turns into
      the instant `ms`. */
  datatype DateField = NoDate | FalsyDate | DateAt(ms: int)

  /** `x ? new Date(x) : undefined` */
  function DateOrNone(d: DateField): (r: Option<int>)
    ensures r.Some? <==> d.DateAt?
    ensures d.DateAt? ==> r == Some(d.ms)
  {
    if d.DateAt? then Some(d.ms) else None
  }

  /** The body of `crearPromocion`. */
  datatype CreateBody = CreateBody(
    titulo: JsValue,
    descripcion: JsValue,
    imagenUrl: JsValue,
    activa: JsValue,
    inicia: DateField,
    termina: DateField,
    orden: JsValue)

  /** The document `Promocion.create` receives: trimmed texts, a description only when one is
      given, `activa` true only when the field is absent (`null` parses to false), the dates
      when given, and `orden` 0 unless it is a number. */
  function NewPromocion(id: PromoId, b: CreateBody, now: int): (p: Promocion)
    ensures p.id == id && p.createdAt == now && p.updatedAt == now
    ensures p.titulo == Trim(ToStr(b.titulo)) && p.imagenUrl == Trim(ToStr(b.imagenUrl))
    ensures p.descripcion == (if Truthy(b.descripcion) then Some(Trim(ToStr(b.descripcion))) else None)
    ensures b.activa == Undefined ==> p.activa
    ensures b.activa != Undefined ==> Some(p.activa) == ParseBoolean(b.activa)
    ensures p.inicia == DateOrNone(b.inicia) && p.termina == DateOrNone(b.termina)
    ensures p.orden == (if b.orden.Num? then b.orden.n else 0)
  {
    Promocion(
      id,
      Trim(ToStr(b.titulo)),
      if Truthy(b.descripcion) then Some(Trim(ToStr(b.descripcion))) else None,
      Trim(ToStr(b.imagenUrl)),
      ParseBoolean(b.activa).GetOr(true),
      DateOrNone(b.inicia),
      DateOrNone(b.termina),
      if b.orden.Num? then b.orden.n else 0,
      now,
      now)
  }

  datatype CreateReply = FieldsRequired | CreateInvalid | PromoCreated(promo: Promocion) {
    function Code(): int {
      match this
      case FieldsRequired => 400
      case CreateInvalid => 500
      case PromoCreated(_) => 201
    }
  }

  /** `crearPromocion`. `id` is the id the database gives the new promotion. A title or image
      made of blanks passes the handler's check but not the schema's, and so does a text over
      its maximum length: both end in the 500 of the catch block. */
  method CrearPromocion(store: PromocionStore, b: CreateBody, id: PromoId, now: int) returns (reply: CreateReply)
    requires store.Valid() && !HasPromo(store.items, id)
    modifies store
    ensures store.Valid()
    ensures reply.FieldsRequired? <==> !Truthy(b.titulo) || !Truthy(b.imagenUrl)
    ensures reply.CreateInvalid? <==>
      Truthy(b.titulo) && Truthy(b.imagenUrl) && !SchemaValid(NewPromocion(id, b, now))
    ensures !reply.PromoCreated? ==> store.items == old(store.items)
    ensures reply.PromoCreated? ==>
      && reply.promo == NewPromocion(id, b, now) && SchemaValid(reply.promo)
      && store.items == old(store.items) + [reply.promo]
  {
    if !Truthy(b.titulo) || !Truthy(b.imagenUrl) {
      return FieldsRequired;
    }
    var p := NewPromocion(id, b, now);
    if !SchemaValid(p) {
      return CreateInvalid;
    }
    AddPromoKeepsIds(store.items, p);
    store.items := store.items + [p];
    reply := PromoCreated(p);
  }

  lemma AddPromoKeepsIds(ps: seq<Promocion>, p: Promocion)
    requires PromoIdsUnique(ps) && !HasPromo(ps, p.id)
    ensures PromoIdsUnique(ps + [p])
  {
    var ps' := ps + [p];
    forall i, j | 0 <= i < j < |ps'| ensures ps'[i].id != ps'[j].id {
      if j == |ps| { assert ps'[i] == ps[i]; }
    }
  }

  // ---------------------------------------------------------------- listing

  /** The promotion is switched on and `now` lies inside its dates; a missing date does not
      limit the window. */
  predicate ActiveAt(p: Promocion, now: int) {
    && p.activa
    && (p.inicia.None? || p.inicia.value <= now)
    && (p.termina.None? || now <= p.termina.value)
  }

  /** A promotion created without `activa` and without dates is active at every moment. */
  lemma CreatedActiveByDefault(id: PromoId, b: CreateBody, now: int, t: int)
    requires b.activa == Undefined && !b.inicia.DateAt? && !b.termina.DateAt?
    ensures ActiveAt(NewPromocion(id, b, now), t)
  {
  }

  /** The query string of `listarPromociones`. `limit` and `page` are `parseInt`'s results
      (`None` for NaN). */
  datatype ListQuery = ListQuery(activeNow: JsValue, activa: JsValue, limit: Option<int>, page: Option<int>)

  /** The filter object: an optional value for `activa`, and whether the `$and` date window
      is present. */
  datatype PromoFilter = PromoFilter(activa: Option<bool>, window: bool)

  /** Lines building `filter`: `activa` when it parses, overridden by `true` when `activeNow`
      parses true, which also adds the window. */
  function BuildFilter(q: ListQuery): (f: PromoFilter)
    ensures f.window <==> ParseBoolean(q.activeNow) == Some(true)
    ensures f.window ==> f.activa == Some(true)
    ensures !f.window ==> f.activa == ParseBoolean(q.activa)
  {
    var window := ParseBoolean(q.activeNow) == Some(true);
    PromoFilter(if window then Some(true) else ParseBoolean(q.activa), window)
  }

  /** What `find(filter)` selects: the `activa` equality, and the two `$or` clauses of the
      window, where an absent and a null date both count as no bound. */
  predicate Matches(f: PromoFilter, now: int, p: Promocion) {
    && (f.activa.None? || p.activa == f.activa.value)
    && (f.window ==> (p.inicia.None? || p.inicia.value <= now) && (p.termina.None? || p.termina.value >= now))
  }

  /** With `activeNow`, the filter selects exactly the promotions active at that moment,
      whatever `activa` says. */
  lemma ActiveNowFilter(q: ListQuery, now: int, p: Promocion)
    requires ParseBoolean(q.activeNow) == Some(true)
    ensures Matches(BuildFilter(q), now, p) <==> ActiveAt(p, now)
  {
  }

  /** `sort({ orden: 1, createdAt: -1 })` */
  predicate PromoLe(a: Promocion, b: Promocion) {
    a.orden < b.orden || (a.orden == b.orden && b.createdAt <= a.createdAt)
  }

  lemma PromoLeIsPreorder()
    ensures TotalPreorder(PromoLe)
  {
  }

  /** The matching promotions in stored order. */
  function Selection(ps: seq<Promocion>, f: PromoFilter, now: int): (r: seq<Promocion>)
    ensures forall x :: x in r <==> x in ps && Matches(f, now, x)
    ensures (forall x :: x in ps ==> Matches(f, now, x)) ==> r == ps
  {
    Filter(ps, (x: Promocion) => Matches(f, now, x))
  }

  datatype ListReply = ListReply(total: nat, page: int, limit: int, items: seq<Promocion>)

  /** `listarPromociones` at clock time `now`: one page of the matching promotions by
      `orden`, newest first among equals, and how many match in all. */
  function ListarPromociones(ps: seq<Promocion>, q: ListQuery, now: int): (r: ListReply)
    ensures r.page == PageNumber(q.page) && r.limit == PageLimit(q.limit, 50, 100)
    ensures r.page >= 1 && 1 <= r.limit <= 100
    ensures q.page.None? ==> r.page == 1
    ensures q.limit.None? ==> r.limit == 50
    ensures q.limit.Some? && 1 <= q.limit.value <= 100 ==> r.limit == q.limit.value
    ensures r.total == |Selection(ps, BuildFilter(q), now)| && |r.items| <= r.limit
    ensures forall x :: x in r.items ==> x in ps && Matches(BuildFilter(q), now, x)
    ensures SortedBy(r.items, PromoLe)
    ensures r.page == 1 && r.total <= r.limit ==>
      multiset(r.items) == multiset(Selection(ps, BuildFilter(q), now))
    ensures TotalPreorder(PromoLe)
    ensures r.items == Page(SortBy(Selection(ps, BuildFilter(q), now), PromoLe), r.page, r.limit)
  {
    var selected := Selection(ps, BuildFilter(q), now);
    PromoLeIsPreorder();
    var sorted := SortBy(selected, PromoLe);
    var page := PageNumber(q.page);
    var limit := PageLimit(q.limit, 50, 100);
    PageKeepsOrder(sorted, page, limit, PromoLe);
    PageWithin(sorted, page, limit);
    forall x | x in sorted ensures x in selected {
      assert x in multiset(sorted);
    }
    FirstPageIsAll(sorted, limit);
    ListReply(|selected|, page, limit, Page(sorted, page, limit))
  }

  /** With `activeNow`, every promotion listed is active at that moment, and the `activa`
      parameter makes no difference. */
  lemma ActiveNowListing(ps: seq<Promocion>, q: ListQuery, now: int, a: JsValue)
    requires ParseBoolean(q.activeNow) == Some(true)
    ensures forall x :: x in ListarPromociones(ps, q, now).items ==> ActiveAt(x, now)
    ensures ListarPromociones(ps, q.(activa := a), now) == ListarPromociones(ps, q, now)
  {
    assert BuildFilter(q.(activa := a)) == BuildFilter(q);
  }

  /** Without `activa` and without `activeNow`, every promotion is counted. */
  lemma ListUnfiltered(ps: seq<Promocion>, q: ListQuery, now: int)
    requires q.activa == Undefined && q.activeNow == Undefined
    ensures ListarPromociones(ps, q, now).total == |ps|
  {
    assert forall x :: x in ps ==> Matches(BuildFilter(q), now, x);
  }

  // ---------------------------------------------------------------- lookup

  datatype PromoReply = PromoNotFound | PromoFound(promo: Promocion) {
    function Code(): int {
      if PromoNotFound? then 404 else 200
    }
  }

  /** `obtenerPromocion`: the promotion with that id, or 404. */
  function ObtenerPromocion(ps: seq<Promocion>, id: PromoId): (r: PromoReply)
    ensures r.PromoNotFound? <==> !HasPromo(ps, id)
    ensures r.PromoFound? ==> r.promo in ps && r.promo.id == id
  {
    var k := IndexOfPromo(ps, id);
    if k.None? then PromoNotFound else PromoFound(ps[k.value])
  }

  // ---------------------------------------------------------------- update

  /** The body of `actualizarPromocion`; `Undefined` and `NoDate` leave the field alone. */
  datatype UpdateBody = UpdateBody(
    titulo: JsValue,
    descripcion: JsValue,
    imagenUrl: JsValue,
    activa: JsValue,
    inicia: DateField,
    termina: DateField,
    orden: JsValue)

  /** The update casts: a given `orden` must be a number, or the cast to `Number` fails. */
  predicate UpdateCasts(b: UpdateBody) {
    b.orden == Undefined || ToNumber(b.orden).Some?
  }

  /** `b.x ? new Date(b.x) : null`, applied only when the field is given. */
  function DatePatch(old_: Option<int>, d: DateField): (r: Option<int>)
    ensures d == NoDate ==> r == old_
    ensures d == FalsyDate ==> r == None
    ensures d.DateAt? ==> r == Some(d.ms)
  {
    match d
    case NoDate => old_
    case FalsyDate => None
    case DateAt(ms) => Some(ms)
  }

  /** `String(v).trim()` for a text field the body gives; the stored text otherwise. */
  function TextPatch(stored: string, v: JsValue): (r: string)
    ensures v == Undefined ==> r == stored
    ensures v != Undefined ==> Trimmed(r) && r == Trim(ToStr(v))
    ensures v.Str? ==> r == Trim(v.s)
  {
    if v == Undefined then stored else Trim(ToStr(v))
  }

  /** A `null` text is stored as the string "null". */
  lemma TextPatchNull(stored: string)
    ensures TextPatch(stored, Null) == "null"
  {
    TrimOfTrimmed("null");
  }

  /** The optional description: given, it is stored trimmed even when empty. */
  function DescripcionPatch(stored: Option<string>, v: JsValue): (r: Option<string>)
    ensures v == Undefined ==> r == stored
    ensures v != Undefined ==> r.Some? && Trimmed(r.value)
    ensures v != Undefined ==> r == Some(Trim(ToStr(v)))
    ensures v.Str? ==> r == Some(Trim(v.s))
  {
    if v == Undefined then stored else Some(Trim(ToStr(v)))
  }

  /** `parseBoolean(b.activa)` when the body gives it. */
  function FlagPatch(stored: bool, v: JsValue): (r: bool)
    ensures v == Undefined ==> r == stored
    ensures v != Undefined ==> Some(r) == ParseBoolean(v)
  {
    if v == Undefined then stored else ParseBoolean(v).value
  }

  /** `Number(b.orden)` when the body gives it. */
  function NumberPatch(stored: int, v: JsValue): (r: int)
    requires v == Undefined || ToNumber(v).Some?
    ensures v == Undefined ==> r == stored
    ensures v != Undefined ==> r == ToNumber(v).value
    ensures v.Num? ==> r == v.n
    ensures v.Null? ==> r == 0
    ensures v.Bool? ==> r == (if v.b then 1 else 0)
    ensures v.Str? ==> Some(r) == StringToInt(v.s)
  {
    if v == Undefined then stored else ToNumber(v).value
  }

  /** The `update` object applied with `findByIdAndUpdate(id, update, { new: true })`: each
      field given in the body is replaced (texts converted with `String` and trimmed, so
      `null` becomes "null"), the others are kept, and the timestamp is refreshed. No schema
      validator runs on an update. */
  function Patched(p: Promocion, b: UpdateBody, now: int): (r: Promocion)
    requires UpdateCasts(b)
    ensures r.id == p.id && r.createdAt == p.createdAt && r.updatedAt == now
    ensures r.titulo == TextPatch(p.titulo, b.titulo) && r.imagenUrl == TextPatch(p.imagenUrl, b.imagenUrl)
    ensures r.descripcion == DescripcionPatch(p.descripcion, b.descripcion)
    ensures r.activa == FlagPatch(p.activa, b.activa) && r.orden == NumberPatch(p.orden, b.orden)
    ensures r.inicia == DatePatch(p.inicia, b.inicia) && r.termina == DatePatch(p.termina, b.termina)
    ensures r.(titulo := p.titulo, descripcion := p.descripcion, imagenUrl := p.imagenUrl,
               activa := p.activa, inicia := p.inicia, termina := p.termina, orden := p.orden,
               updatedAt := p.updatedAt) == p
  {
    p.(
      titulo := TextPatch(p.titulo, b.titulo),
      descripcion := DescripcionPatch(p.descripcion, b.descripcion),
      imagenUrl := TextPatch(p.imagenUrl, b.imagenUrl),
      activa := FlagPatch(p.activa, b.activa),
      inicia := DatePatch(p.inicia, b.inicia),
      termina := DatePatch(p.termina, b.termina),
      orden := NumberPatch(p.orden, b.orden),
      updatedAt := now)
  }

  /** An empty body changes nothing but the update timestamp. */
  lemma PatchEmpty(p: Promocion, now: int)
    ensures Patched(p, UpdateBody(Undefined, Undefined, Undefined, Undefined, NoDate, NoDate, Undefined), now)
      == p.(updatedAt := now)
  {
  }

  /** Sending the same update twice leaves the promotion as one update does. */
  lemma {:induction false} PatchIdempotent(p: Promocion, b: UpdateBody, now: int)
    requires UpdateCasts(b)
    ensures Patched(Patched(p, b, now), b, now) == Patched(p, b, now)
  {
    var once := Patched(p, b, now);
    var twice := Patched(once, b, now);
    assert twice.titulo == once.titulo;
    assert twice.descripcion == once.descripcion;
    assert twice.imagenUrl == once.imagenUrl;
  }

  /** Clearing both dates of an active promotion leaves it active at every moment. */
  lemma PatchClearsWindow(p: Promocion, b: UpdateBody, now: int, t: int)
    requires UpdateCasts(b) && b.inicia == FalsyDate && b.termina == FalsyDate
    requires b.activa == Bool(true) || (b.activa == Undefined && p.activa)
    ensures ActiveAt(Patched(p, b, now), t)
  {
  }

  datatype UpdateReply = UpdateFailed | UpdateNotFound | PromoUpdated(promo: Promocion) {
    function Code(): int {
      match this
      case UpdateFailed => 500
      case UpdateNotFound => 404
      case PromoUpdated(_) => 200
    }
  }

  /** `actualizarPromocion` at clock time `now`: a failed cast fails the whole query before any
      lookup; otherwise the promotion with that id is replaced by its patched version. */
  method ActualizarPromocion(store: PromocionStore, id: PromoId, b: UpdateBody, now: int)
    returns (reply: UpdateReply)
    requires store.Valid()
    modifies store
    ensures store.Valid()
    ensures reply.UpdateFailed? <==> !UpdateCasts(b)
    ensures reply.UpdateNotFound? <==> UpdateCasts(b) && !HasPromo(old(store.items), id)
    ensures !reply.PromoUpdated? ==> store.items == old(store.items)
    ensures reply.PromoUpdated? ==>
      var k := IndexOfPromo(old(store.items), id).value;
      && reply.promo == Patched(old(store.items)[k], b, now)
      && store.items == old(store.items)[k := reply.promo]
  {
    if !UpdateCasts(b) {
      return UpdateFailed;
    }
    var k := IndexOfPromo(store.items, id);
    if k.None? {
      return UpdateNotFound;
    }
    var patched := Patched(store.items[k.value], b, now);
    store.items := store.items[k.value := patched];
    reply := PromoUpdated(patched);
  }

  // ---------------------------------------------------------------- deletion

  /** `eliminarPromocion`: `findByIdAndDelete(id)`. Exactly the promotion with that id
      leaves the collection, and the others keep their order. */
  method EliminarPromocion(store: PromocionStore, id: PromoId) returns (found: bool)
    requires store.Valid()
    modifies store
    ensures store.Valid()
    ensures found <==> HasPromo(old(store.items), id)
    ensures !found ==> store.items == old(store.items)
    ensures found ==>
      var k := IndexOfPromo(old(store.items), id).value;
      store.items == old(store.items)[..k] + old(store.items)[k + 1..]
    ensures !HasPromo(store.items, id)
  {
    var k := IndexOfPromo(store.items, id);
    if k.None? {
      return false;
    }
    var ps := store.items;
    var i := k.value;
    store.items := ps[..i] + ps[i + 1..];
    forall j | 0 <= j < |store.items| ensures store.items[j].id != id {
      if j < i { assert store.items[j] == ps[j]; }
      else { assert store.items[j] == ps[j + 1]; }
    }
    found := true;
  }
}

=== FILE: session_controller.dfy ===
/** Customer sessions with lazy expiry: a session is checked for idle and absolute expiry
    whenever it is looked up, closed when it has expired, and otherwise has its activity
    refreshed. The table's `estado` follows: `ocupada` while a session lives, `libre` once
    none is active. */
module SessionController {
  import opened Js
  import opened MesaModel
  import opened SessionModel

  /** `SESSION_IDLE_MINUTES` and `SESSION_ABSOLUTE_MAX_MINUTES` (0 disables the absolute limit). */
  datatype SessionConfig = SessionConfig(idleMinutes: int, absoluteMinutes: int)

  const DefaultConfig: SessionConfig := SessionConfig(5, 0)

  /** Minutes to milliseconds. */
  function Ms(m: int): int {
    m * 60 * 1000
  }

  /** `session.lastActivityAt || session.startedAt || Date.now()` */
  function LastActivity(s: Session, now: int): (r: int)
    ensures s.lastActivityAt.Some? ==> r == s.lastActivityAt.value
    ensures s.lastActivityAt.None? && s.startedAt.Some? ==> r == s.startedAt.value
    ensures s.lastActivityAt.None? && s.startedAt.None? ==> r == now
  {
    if s.lastActivityAt.Some? then s.lastActivityAt.value
    else if s.startedAt.Some? then s.startedAt.value
    else now
  }

  /** `session.startedAt || Date.now()` */
  function StartOf(s: Session, now: int): int {
    if s.startedAt.Some? then s.startedAt.value else now
  }

  predicate ExpiredByIdle(cfg: SessionConfig, s: Session, now: int)
    ensures ExpiredByIdle(cfg, s, now) && cfg.idleMinutes >= 0 ==>
      (s.lastActivityAt.Some? || s.startedAt.Some?) && LastActivity(s, now) < now
  {
    now - LastActivity(s, now) > Ms(cfg.idleMinutes)
  }

  predicate ExpiredByAbsolute(cfg: SessionConfig, s: Session, now: int)
    ensures ExpiredByAbsolute(cfg, s, now) ==> cfg.absoluteMinutes != 0
    ensures ExpiredByAbsolute(cfg, s, now) && cfg.absoluteMinutes > 0 ==>
      s.startedAt.Some? && s.startedAt.value < now
  {
    cfg.absoluteMinutes != 0 && now - StartOf(s, now) > Ms(cfg.absoluteMinutes)
  }

  /** The reason a looked-up session is closed with, if any: idle is checked first. */
  function Expiry(cfg: SessionConfig, s: Session, now: int): (r: Option<CloseReason>)
    ensures r == Some(Idle) <==> ExpiredByIdle(cfg, s, now)
    ensures r == Some(Absolute) <==> !ExpiredByIdle(cfg, s, now) && ExpiredByAbsolute(cfg, s, now)
    ensures r.None? <==> !ExpiredByIdle(cfg, s, now) && !ExpiredByAbsolute(cfg, s, now)
    ensures r != Some(Manual)
  {
    if ExpiredByIdle(cfg, s, now) then Some(Idle)
    else if ExpiredByAbsolute(cfg, s, now) then Some(Absolute)
    else None
  }

  /** Idle expiry measures from the last activity, falling back to the start; a session with
      neither stamp is measured from the clock itself, which is the same `now` here, so it is
      not idle-expired. */
  lemma IdleExpiryStamps(cfg: SessionConfig, s: Session, now: int)
    requires cfg.idleMinutes >= 0
    ensures s.lastActivityAt.Some? ==>
      (ExpiredByIdle(cfg, s, now) <==> now - s.lastActivityAt.value > cfg.idleMinutes * 60000)
    ensures s.lastActivityAt.None? && s.startedAt.Some? ==>
      (ExpiredByIdle(cfg, s, now) <==> now - s.startedAt.value > cfg.idleMinutes * 60000)
    ensures s.lastActivityAt.None? && s.startedAt.None? ==> !ExpiredByIdle(cfg, s, now)
  {
  }

  /** With `absoluteMinutes == 0` no session ever expires by age. */
  lemma AbsoluteDisabled(cfg: SessionConfig, s: Session, now: int)
    requires cfg.absoluteMinutes == 0
    ensures !ExpiredByAbsolute(cfg, s, now)
    ensures Expiry(cfg, s, now) == (if ExpiredByIdle(cfg, s, now) then Some(Idle) else None)
  {
  }

  /** A session past both limits is closed as idle. */
  lemma IdleWins(cfg: SessionConfig, s: Session, now: int)
    requires ExpiredByIdle(cfg, s, now) && ExpiredByAbsolute(cfg, s, now)
    ensures Expiry(cfg, s, now) == Some(Idle)
  {
  }

  /** Once expired, a session stays expired as time passes. */
  lemma ExpiryIsMonotone(cfg: SessionConfig, s: Session, now: int, later: int)
    requires s.startedAt.Some? && now <= later
    ensures ExpiredByIdle(cfg, s, now) ==> ExpiredByIdle(cfg, s, later)
    ensures ExpiredByAbsolute(cfg, s, now) ==> ExpiredByAbsolute(cfg, s, later)
    ensures Expiry(cfg, s, now).Some? ==> Expiry(cfg, s, later).Some?
  {
  }

  /** A session touched at `now` stays clear of idle expiry exactly up to
      `now + idleMinutes * 60000`, the `until` that a ping reports. */
  lemma TouchedIdleBoundary(cfg: SessionConfig, s: Session, now: int, t: int)
    ensures ExpiredByIdle(cfg, Touched(s, now), t) <==> t > now + Ms(cfg.idleMinutes)
  {
  }

  /** `closeAndSave` then `setMesaLibreSiNoHaySesiones`: session `i` is closed with `reason`,
      and its table is set `libre` when no active session of it remains, which under the
      one-active-per-table index is always. */
  method CloseAndSave(mesas: MesaStore, store: SessionStore, i: nat, reason: CloseReason, now: int)
    requires store.Valid() && i < |store.sessions| && store.sessions[i].active
    modifies mesas, store
    ensures store.Valid()
    ensures store.sessions == old(store.sessions)[i := Closed(old(store.sessions)[i], reason, now)]
    ensures !HasActive(store.sessions, old(store.sessions)[i].mesa)
    ensures mesas.mesas == SetEstado(old(mesas.mesas), old(store.sessions)[i].mesa, Libre)
  {
    var s := store.sessions[i];
    CloseLeavesNoActive(store.sessions, i, reason, now);
    store.sessions := store.sessions[i := Closed(s, reason, now)];
    var stillActive := FindActiveByMesa(store.sessions, s.mesa);
    if stillActive.None? {
      mesas.mesas := SetEstado(mesas.mesas, s.mesa, Libre);
    }
  }

  datatype StartReply = MissingMesaId | MesaNotFound | Started(session: Session, reused: bool) {
    function Code(): int {
      if MissingMesaId? then 400 else if MesaNotFound? then 404 else 201
    }
  }

  /** `startOrGetSession`: reuse the table's live session, or close an expired one and open a
      new session with the fresh id `freshId` (the `crypto.randomUUID()` value). */
  method StartOrGetSession(mesas: MesaStore, store: SessionStore, mesaId: Option<MesaId>,
                           cfg: SessionConfig, now: int, freshId: string)
    returns (reply: StartReply)
    requires store.Valid()
    requires freshId != [] && !UsesSessionId(store.sessions, freshId)
    modifies mesas, store
    ensures store.Valid()
    ensures reply.MissingMesaId? <==> mesaId.None?
    ensures reply.MesaNotFound? <==> mesaId.Some? && !HasMesa(old(mesas.mesas), mesaId.value)
    ensures !reply.Started? ==> store.sessions == old(store.sessions) && mesas.mesas == old(mesas.mesas)
    ensures reply.Started? ==>
      var m := mesaId.value;
      && reply.session.active && reply.session.mesa == m && reply.session.lastActivityAt == Some(now)
      && FindActiveByMesa(store.sessions, m).Some?
      && store.sessions[FindActiveByMesa(store.sessions, m).value] == reply.session
      && mesas.mesas == SetEstado(old(mesas.mesas), m, Ocupada)
    ensures reply.Started? ==>
      var k := FindActiveByMesa(old(store.sessions), mesaId.value);
      reply.reused <==> k.Some? && Expiry(cfg, old(store.sessions)[k.value], now).None?
    ensures reply.Started? && reply.reused ==>
      var k := FindActiveByMesa(old(store.sessions), mesaId.value).value;
      && reply.session == Touched(old(store.sessions)[k], now)
      && store.sessions == old(store.sessions)[k := reply.session]
    ensures reply.Started? && !reply.reused ==>
      var k := FindActiveByMesa(old(store.sessions), mesaId.value);
      && reply.session == NewSession(mesaId.value, freshId, now)
      && (k.None? ==> store.sessions == old(store.sessions) + [reply.session])
      && (k.Some? ==>
            var expired := old(store.sessions)[k.value];
            store.sessions == old(store.sessions)[k.value := Closed(expired, Expiry(cfg, expired, now).value, now)]
                              + [reply.session])
  {
    if mesaId.None? {
      return MissingMesaId;
    }
    var m := mesaId.value;
    if IndexOfMesa(mesas.mesas, m).None? {
      return MesaNotFound;
    }
    var k := FindActiveByMesa(store.sessions, m);
    if k.Some? {
      var s := store.sessions[k.value];
      var verdict := Expiry(cfg, s, now);
      if verdict.None? {
        var t := Touched(s, now);
        TouchKeepsWellFormed(store.sessions, k.value, now);
        store.sessions := store.sessions[k.value := t];
        OnlyActiveOf(store.sessions, m, k.value);
        mesas.mesas := SetEstado(mesas.mesas, m, Ocupada);
        return Started(t, true);
      }
      CloseKeepsIds(store.sessions, k.value, verdict.value, now, freshId);
      CloseAndSave(mesas, store, k.value, verdict.value, now);
    }
    var created := NewSession(m, freshId, now);
    AddActiveKeepsIndex(store.sessions, created);
    store.sessions := store.sessions + [created];
    OnlyActiveOf(store.sessions, m, |store.sessions| - 1);
    SetEstadoTwice(old(mesas.mesas), m, Libre, Ocupada);
    mesas.mesas := SetEstado(mesas.mesas, m, Ocupada);
    reply := Started(created, false);
  }

  datatype LookupReply = NoActiveSession | SessionExpired(reason: CloseReason) | ActiveSession(session: Session) {
    function Code(): int {
      if ActiveSession? then 200 else 404
    }
  }

  /** `getActiveByMesa`: the table's active session, refreshed; an expired one is closed and
      answered with 404 `SESSION_EXPIRED`. */
  method GetActiveByMesa(mesas: MesaStore, store: SessionStore, m: MesaId, cfg: SessionConfig, now: int)
    returns (reply: LookupReply)
    requires store.Valid()
    modifies mesas, store
    ensures store.Valid()
    ensures var k := FindActiveByMesa(old(store.sessions), m);
      && (reply.NoActiveSession? <==> k.None?)
      && (reply.NoActiveSession? ==> store.sessions == old(store.sessions) && mesas.mesas == old(mesas.mesas))
      && (reply.SessionExpired? ==>
            && k.Some? && Expiry(cfg, old(store.sessions)[k.value], now) == Some(reply.reason)
            && store.sessions == old(store.sessions)[k.value := Closed(old(store.sessions)[k.value], reply.reason, now)]
            && !HasActive(store.sessions, m)
            && mesas.mesas == SetEstado(old(mesas.mesas), m, Libre))
      && (reply.ActiveSession? ==>
            && k.Some? && Expiry(cfg, old(store.sessions)[k.value], now).None?
            && reply.session == Touched(old(store.sessions)[k.value], now)
            && store.sessions == old(store.sessions)[k.value := reply.session]
            && mesas.mesas == SetEstado(old(mesas.mesas), m, Ocupada))
  {
    var k := FindActiveByMesa(store.sessions, m);
    if k.None? {
      return NoActiveSession;
    }
    var s := store.sessions[k.value];
    var verdict := Expiry(cfg, s, now);
    if verdict.Some? {
      CloseAndSave(mesas, store, k.value, verdict.value, now);
      return SessionExpired(verdict.value);
    }
    var t := Touched(s, now);
    TouchKeepsWellFormed(store.sessions, k.value, now);
    store.sessions := store.sessions[k.value := t];
    mesas.mesas := SetEstado(mesas.mesas, m, Ocupada);
    reply := ActiveSession(t);
  }

  datatype CloseReply = SessionNotFound | SessionClosed(session: Session) {
    function Code(): int {
      if SessionNotFound? then 404 else 200
    }
  }

  /** `closeSession`: closes the active session with that id, reason `manual`. */
  method CloseSession(mesas: MesaStore, store: SessionStore, sid: string, now: int)
    returns (reply: CloseReply)
    requires store.Valid()
    modifies mesas, store
    ensures store.Valid()
    ensures var k := FindActiveById(old(store.sessions), sid);
      && (reply.SessionNotFound? <==> k.None?)
      && (reply.SessionNotFound? ==> store.sessions == old(store.sessions) && mesas.mesas == old(mesas.mesas))
      && (reply.SessionClosed? ==>
            && k.Some?
            && reply.session == Closed(old(store.sessions)[k.value], Manual, now)
            && store.sessions == old(store.sessions)[k.value := reply.session]
            && mesas.mesas == SetEstado(old(mesas.mesas), reply.session.mesa, Libre))
    ensures reply.SessionClosed? ==> FindActiveById(store.sessions, sid).None?
  {
    var k := FindActiveById(store.sessions, sid);
    if k.None? {
      return SessionNotFound;
    }
    ClosedIdNotActive(store.sessions, sid, Manual, now);
    CloseAndSave(mesas, store, k.value, Manual, now);
    reply := SessionClosed(store.sessions[k.value]);
  }

  datatype PingReply = MissingSessionId | NotActive | PingExpired(reason: CloseReason) | Alive(until: int) {
    function Code(): int {
      match this
      case MissingSessionId => 400
      case NotActive => 404
      case PingExpired(_) => 410
      case Alive(_) => 200
    }
  }

  /** `ping`: the session id comes from the path, else from the body. A live session is
      refreshed and the reply says until when it stays live without another ping. */
  method Ping(mesas: MesaStore, store: SessionStore, fromPath: Option<string>, fromBody: Option<string>,
              cfg: SessionConfig, now: int)
    returns (reply: PingReply)
    requires store.Valid()
    modifies mesas, store
    ensures store.Valid()
    ensures reply.MissingSessionId? <==> !Present(fromPath) && !Present(fromBody)
    ensures reply.MissingSessionId? || reply.NotActive? ==>
      store.sessions == old(store.sessions) && mesas.mesas == old(mesas.mesas)
    ensures Present(OrElse(fromPath, fromBody)) ==>
      var k := FindActiveById(old(store.sessions), OrElse(fromPath, fromBody).value);
      && (reply.NotActive? <==> k.None?)
      && (reply.PingExpired? ==>
            && k.Some? && Expiry(cfg, old(store.sessions)[k.value], now) == Some(reply.reason)
            && store.sessions == old(store.sessions)[k.value := Closed(old(store.sessions)[k.value], reply.reason, now)]
            && mesas.mesas == SetEstado(old(mesas.mesas), old(store.sessions)[k.value].mesa, Libre))
      && (reply.Alive? ==>
            && k.Some? && Expiry(cfg, old(store.sessions)[k.value], now).None?
            && reply.until == now + Ms(cfg.idleMinutes)
            && store.sessions == old(store.sessions)[k.value := Touched(old(store.sessions)[k.value], now)]
            && mesas.mesas == SetEstado(old(mesas.mesas), old(store.sessions)[k.value].mesa, Ocupada))
  {
    var sid := OrElse(fromPath, fromBody);
    if !Present(sid) {
      return MissingSessionId;
    }
    var k := FindActiveById(store.sessions, sid.value);
    if k.None? {
      return NotActive;
    }
    var s := store.sessions[k.value];
    var verdict := Expiry(cfg, s, now);
    if verdict.Some? {
      CloseAndSave(mesas, store, k.value, verdict.value, now);
      return PingExpired(verdict.value);
    }
    var t := Touched(s, now);
    TouchKeepsWellFormed(store.sessions, k.value, now);
    store.sessions := store.sessions[k.value := t];
    mesas.mesas := SetEstado(mesas.mesas, s.mesa, Ocupada);
    reply := Alive(t.lastActivityAt.value + Ms(cfg.idleMinutes));
  }
}

=== FILE: session_guard.dfy ===
/** The middleware that admits a request only with a live session. It shares the
    controller's expiry predicates. It closes expired sessions itself, and it never touches
    the table collection, so it takes no `MesaStore`. */
module SessionGuard {
  import opened Js
  import opened SessionModel
  import opened SessionController

  /** `req.headers["x-session-id"] || req.body?.sessionId || req.query?.sessionId` */
  function SessionIdFrom(header: Option<string>, body: Option<string>, query: Option<string>): (r: Option<string>)
    ensures Present(r) <==> Present(header) || Present(body) || Present(query)
    ensures Present(header) ==> r == header
    ensures !Present(header) && Present(body) ==> r == body
    ensures !Present(header) && !Present(body) && Present(query) ==> r == query
  {
    OrElse(OrElse(header, body), query)
  }

  datatype GuardReply = NoSession | SessionInvalid | GuardExpired(reason: CloseReason) | Proceed(session: Session) {
    function Code(): int {
      match this
      case NoSession => 401
      case SessionInvalid => 403
      case GuardExpired(_) => 410
      case Proceed(_) => 200
    }
  }

  /** `requireActiveSession`: only `Proceed` lets the request through to its handler. */
  method RequireActiveSession(store: SessionStore, header: Option<string>, body: Option<string>,
                              query: Option<string>, cfg: SessionConfig, now: int)
    returns (reply: GuardReply)
    requires store.Valid()
    modifies store
    ensures store.Valid()
    ensures reply.NoSession? <==> !Present(SessionIdFrom(header, body, query))
    ensures reply.NoSession? || reply.SessionInvalid? ==> store.sessions == old(store.sessions)
    ensures Present(SessionIdFrom(header, body, query)) ==>
      var k := FindActiveById(old(store.sessions), SessionIdFrom(header, body, query).value);
      && (reply.SessionInvalid? <==> k.None?)
      && (reply.GuardExpired? ==>
            && k.Some? && Expiry(cfg, old(store.sessions)[k.value], now) == Some(reply.reason)
            && store.sessions == old(store.sessions)[k.value := Closed(old(store.sessions)[k.value], reply.reason, now)])
      && (reply.Proceed? ==>
            && k.Some? && Expiry(cfg, old(store.sessions)[k.value], now).None?
            && reply.session == Touched(old(store.sessions)[k.value], now)
            && store.sessions == old(store.sessions)[k.value := reply.session])
  {
    var sid := SessionIdFrom(header, body, query);
    if !Present(sid) {
      return NoSession;
    }
    var k := FindActiveById(store.sessions, sid.value);
    if k.None? {
      return SessionInvalid;
    }
    var s := store.sessions[k.value];
    var verdict := Expiry(cfg, s, now);
    if verdict.Some? {
      CloseLeavesNoActive(store.sessions, k.value, verdict.value, now);
      store.sessions := store.sessions[k.value := Closed(s, verdict.value, now)];
      return GuardExpired(verdict.value);
    }
    var t := Touched(s, now);
    TouchKeepsWellFormed(store.sessions, k.value, now);
    store.sessions := store.sessions[k.value := t];
    reply := Proceed(t);
  }
}

=== FILE: session_model.dfy ===
/** The customer session record and its collection, with the partial unique index on
    `{ mesa, active }` (active sessions only) as an invariant. */
module SessionModel {
  import opened Js
  import opened MesaModel

  /** Why a session was closed. */
  datatype CloseReason = Manual | Idle | Absolute

  /** `lastActivityAt` and `closedReason` are the fields the controllers write; timestamps
      are milliseconds since the epoch, `None` when unset. */
  datatype Session = Session(
    mesa: MesaId,
    sessionId: string,
    active: bool,
    startedAt: Option<int>,
    lastActivityAt: Option<int>,
    closedAt: Option<int>,
    closedReason: Option<CloseReason>)

  /** A session as the controller creates it: active, both activity stamps at `now`, and the
      schema default `closedAt = null`. */
  function NewSession(mesa: MesaId, sessionId: string, now: int): (s: Session)
    ensures s.mesa == mesa && s.sessionId == sessionId
    ensures s.active && s.startedAt == Some(now) && s.lastActivityAt == Some(now)
    ensures s.closedAt == None && s.closedReason == None
  {
    Session(mesa, sessionId, true, Some(now), Some(now), None, None)
  }

  /** `session.active = false; session.closedAt = now; session.closedReason = reason` */
  function Closed(s: Session, reason: CloseReason, now: int): (c: Session)
    ensures !c.active && c.closedAt == Some(now) && c.closedReason == Some(reason)
    ensures c.mesa == s.mesa && c.sessionId == s.sessionId
    ensures c.startedAt == s.startedAt && c.lastActivityAt == s.lastActivityAt
  {
    s.(active := false, closedAt := Some(now), closedReason := Some(reason))
  }

  /** `session.lastActivityAt = now` */
  function Touched(s: Session, now: int): (t: Session)
    ensures t.lastActivityAt == Some(now)
    ensures t == s.(lastActivityAt := Some(now))
  {
    s.(lastActivityAt := Some(now))
  }

  /** The partial unique index: each table has at most one session with `active = true`. */
  predicate OneActivePerMesa(ss: seq<Session>) {
    forall i, j :: 0 <= i < j < |ss| && ss[i].active && ss[j].active ==> ss[i].mesa != ss[j].mesa
  }

  /** The unique index on `sessionId`, which is also required (non-empty). */
  predicate SessionIdsUnique(ss: seq<Session>) {
    && (forall i :: 0 <= i < |ss| ==> ss[i].sessionId != [])
    && (forall i, j :: 0 <= i < j < |ss| ==> ss[i].sessionId != ss[j].sessionId)
  }

  predicate WellFormed(ss: seq<Session>) {
    OneActivePerMesa(ss) && SessionIdsUnique(ss)
  }

  predicate HasActive(ss: seq<Session>, m: MesaId) {
    exists i :: 0 <= i < |ss| && ss[i].active && ss[i].mesa == m
  }

  predicate UsesSessionId(ss: seq<Session>, sid: string) {
    exists i :: 0 <= i < |ss| && ss[i].sessionId == sid
  }

  /** `Session.findOne({ mesa: m, active: true })` */
  function FindActiveByMesa(ss: seq<Session>, m: MesaId): (r: Option<nat>)
    ensures r.Some? ==> r.value < |ss| && ss[r.value].active && ss[r.value].mesa == m
    ensures r.None? <==> !HasActive(ss, m)
  {
    if ss == [] then None
    else if ss[0].active && ss[0].mesa == m then Some(0)
    else
      var r := FindActiveByMesa(ss[1..], m);
      assert forall i :: 1 <= i < |ss| ==> ss[i] == ss[1..][i - 1];
      if r.None? then None else Some(r.value + 1)
  }

  /** `Session.findOne({ sessionId: sid, active: true })` */
  function FindActiveById(ss: seq<Session>, sid: string): (r: Option<nat>)
    ensures r.Some? ==> r.value < |ss| && ss[r.value].active && ss[r.value].sessionId == sid
    ensures r.None? <==> !exists i :: 0 <= i < |ss| && ss[i].active && ss[i].sessionId == sid
  {
    if ss == [] then None
    else if ss[0].active && ss[0].sessionId == sid then Some(0)
    else
      var r := FindActiveById(ss[1..], sid);
      assert forall i :: 1 <= i < |ss| ==> ss[i] == ss[1..][i - 1];
      if r.None? then None else Some(r.value + 1)
  }

  /** Under the index, the active session found for a table is the only one. */
  lemma ActiveIsUnique(ss: seq<Session>, m: MesaId)
    requires OneActivePerMesa(ss) && FindActiveByMesa(ss, m).Some?
    ensures var i := FindActiveByMesa(ss, m).value;
      forall j :: 0 <= j < |ss| && j != i && ss[j].active ==> ss[j].mesa != m
  {
  }

  /** Closing the table's only active session leaves the table without one, and the index
      and the session ids still hold. */
  lemma {:induction false} CloseLeavesNoActive(ss: seq<Session>, i: nat, reason: CloseReason, now: int)
    requires WellFormed(ss) && i < |ss| && ss[i].active
    ensures WellFormed(ss[i := Closed(ss[i], reason, now)])
    ensures !HasActive(ss[i := Closed(ss[i], reason, now)], ss[i].mesa)
  {
    var ss' := ss[i := Closed(ss[i], reason, now)];
    forall j | 0 <= j < |ss'| && ss'[j].active ensures ss'[j].mesa != ss[i].mesa {
      if j < i { assert ss[j].mesa != ss[i].mesa; }
      else if j > i { assert ss[i].mesa != ss[j].mesa; }
    }
  }

  /** A new active session keeps the index when its table has none, and keeps the ids
      unique when its id is fresh. */
  lemma AddActiveKeepsIndex(ss: seq<Session>, s: Session)
    requires WellFormed(ss) && !HasActive(ss, s.mesa)
    requires s.sessionId != [] && !UsesSessionId(ss, s.sessionId)
    ensures WellFormed(ss + [s])
  {
    var ss' := ss + [s];
    forall i, j | 0 <= i < j < |ss'| && ss'[i].active && ss'[j].active
      ensures ss'[i].mesa != ss'[j].mesa
    {
      if j == |ss| { assert ss'[i] == ss[i]; }
    }
    forall i, j | 0 <= i < j < |ss'| ensures ss'[i].sessionId != ss'[j].sessionId {
      if j == |ss| { assert ss'[i] == ss[i]; }
    }
  }

  /** Refreshing activity changes neither `active`, `mesa` nor `sessionId`, so both indexes hold. */
  lemma TouchKeepsWellFormed(ss: seq<Session>, i: nat, now: int)
    requires WellFormed(ss) && i < |ss|
    ensures WellFormed(ss[i := Touched(ss[i], now)])
  {
  }

  /** Under the index, an active session of table `m` is the one the lookup finds. */
  lemma OnlyActiveOf(ss: seq<Session>, m: MesaId, i: nat)
    requires OneActivePerMesa(ss) && i < |ss| && ss[i].active && ss[i].mesa == m
    ensures FindActiveByMesa(ss, m) == Some(i)
  {
    assert HasActive(ss, m);
    forall j | 0 <= j < |ss| && j != i && ss[j].active ensures ss[j].mesa != m {
      if j < i {
        assert ss[j].mesa != ss[i].mesa;
      } else {
        assert ss[i].mesa != ss[j].mesa;
      }
    }
  }

  /** Under the unique `sessionId` index, once the active session with an id is closed, no
      active session has that id any more. */
  lemma ClosedIdNotActive(ss: seq<Session>, sid: string, reason: CloseReason, now: int)
    requires WellFormed(ss) && FindActiveById(ss, sid).Some?
    ensures var k := FindActiveById(ss, sid).value;
      FindActiveById(ss[k := Closed(ss[k], reason, now)], sid).None?
  {
    var k := FindActiveById(ss, sid).value;
    var ss' := ss[k := Closed(ss[k], reason, now)];
    forall j | 0 <= j < |ss'| && ss'[j].active ensures ss'[j].sessionId != sid {
      if j < k { assert ss[j].sessionId != ss[k].sessionId; }
      else if j > k { assert ss[k].sessionId != ss[j].sessionId; }
    }
  }

  /** Closing a session keeps every session id, so an id unused before is still unused. */
  lemma CloseKeepsIds(ss: seq<Session>, i: nat, reason: CloseReason, now: int, sid: string)
    requires i < |ss| && !UsesSessionId(ss, sid)
    ensures !UsesSessionId(ss[i := Closed(ss[i], reason, now)], sid)
  {
  }

  /** Any number of closed sessions may share a table: the index constrains active ones only. */
  lemma ClosedSessionsMayShareMesa(m: MesaId, now: int)
    ensures var a := Closed(NewSession(m, "a", now), Idle, now);
      var b := Closed(NewSession(m, "b", now), Manual, now);
      WellFormed([a, b]) && a.mesa == b.mesa
  {
  }

  /** The session collection. */
  class SessionStore {
    var sessions: seq<Session>

    ghost predicate Valid()
      reads this
    {
      WellFormed(sessions)
    }

    constructor ()
      ensures sessions == [] && Valid()
    {
      sessions := [];
    }
  }
}

=== FILE: settings.dfy ===
/** The settings collection, which holds (at most usefully) one record naming the bar's
    preferred playback device, and the two handlers that read and upsert it. */
module SettingsController {
  import opened Js

  datatype Settings = Settings(preferredDeviceId: Option<string>, preferredDeviceName: Option<string>)

  /** The settings collection; `findOne({})` reads its first record. */
  class SettingsStore {
    var records: seq<Settings>

    constructor ()
      ensures records == []
    {
      records := [];
    }
  }

  /** `Settings.findOne({})`, answered as `s || {}`: `None` is the empty settings object. */
  function GetSettings(records: seq<Settings>): (r: Option<Settings>)
    ensures r.None? <==> records == []
    ensures r.Some? ==> r.value == records[0]
  {
    if records == [] then None else Some(records[0])
  }

  /** `settings?.preferredDeviceId` when it is truthy: the device the admission chain needs. */
  function PreferredDevice(records: seq<Settings>): (r: Option<string>)
    ensures r.Some? <==> records != [] && Present(records[0].preferredDeviceId)
    ensures r.Some? ==> r.value != [] && r.value == records[0].preferredDeviceId.value
  {
    var s := GetSettings(records);
    if s.Some? && Present(s.value.preferredDeviceId) then s.value.preferredDeviceId else None
  }

  datatype DeviceReply = MissingDeviceId | DeviceSaved(settings: Settings) {
    function Code(): int {
      if MissingDeviceId? then 400 else 200
    }
  }

  /** `findOneAndUpdate({}, { preferredDeviceId, preferredDeviceName: deviceName || null },
      { upsert: true })`: creates the record when there is none, otherwise overwrites the
      first one. */
  method SetPreferredDevice(store: SettingsStore, deviceId: Option<string>, deviceName: Option<string>)
    returns (reply: DeviceReply)
    modifies store
    ensures reply.MissingDeviceId? <==> !Present(deviceId)
    ensures reply.MissingDeviceId? ==> store.records == old(store.records)
    ensures reply.DeviceSaved? ==>
      && reply.settings.preferredDeviceId == deviceId
      && reply.settings.preferredDeviceName == (if Present(deviceName) then deviceName else None)
      && |store.records| == (if old(store.records) == [] then 1 else |old(store.records)|)
      && store.records[0] == reply.settings
      && (old(store.records) != [] ==> store.records[1..] == old(store.records)[1..])
      && PreferredDevice(store.records) == deviceId
  {
    if !Present(deviceId) {
      return MissingDeviceId;
    }
    var s := Settings(deviceId, if Present(deviceName) then deviceName else None);
    if store.records == [] {
      store.records := [s];
    } else {
      store.records := store.records[0 := s];
    }
    reply := DeviceSaved(s);
  }
}

=== FILE: song_request_model.dfy ===
/** The song request record, its status enumeration, schema defaults and bounds, and the
    request collection. */
module SongRequestModel {
  import opened Strings
  import opened Js
  import opened MesaModel

  /** The `status` enumeration. */
  datatype Status = Queued | Approved | Playing | Rejected | Done

  function StatusName(s: Status): string {
    match s
    case Queued => "queued"
    case Approved => "approved"
    case Playing => "playing"
    case Rejected => "rejected"
    case Done => "done"
  }

  /** The schema's `enum` check: the status a string names, if any. */
  function ParseStatus(name: string): (r: Option<Status>)
    ensures r.Some? ==> StatusName(r.value) == name
  {
    if name == "queued" then Some(Queued)
    else if name == "approved" then Some(Approved)
    else if name == "playing" then Some(Playing)
    else if name == "rejected" then Some(Rejected)
    else if name == "done" then Some(Done)
    else None
  }

  /** Every status round-trips through its name. */
  lemma ParseStatusName(s: Status)
    ensures ParseStatus(StatusName(s)) == Some(s)
  {
  }

  type RequestId = nat

  /** `maxlength` of `title` and `artist`. */
  const MaxTextLength := 300

  /** One stored request. `requestedBy` is flattened into `sessionId` and `mesaId`;
      timestamps are milliseconds, `None` for null. */
  datatype SongRequest = SongRequest(
    id: RequestId,
    trackUri: string,
    title: string,
    artist: string,
    imageUrl: Option<string>,
    sessionId: string,
    mesaId: MesaId,
    status: Status,
    votes: int,
    createdAt: int,
    playedAt: Option<int>,
    rejectedReason: Option<string>,
    doneAt: Option<int>,
    expiresAt: Option<int>)

  /** A required, trimmed string of at most `MaxTextLength` characters. */
  predicate ValidText(s: string) {
    s != [] && Trimmed(s) && |s| <= MaxTextLength
  }

  /** What the schema validators check when a request is created. */
  predicate SchemaValid(r: SongRequest) {
    && r.trackUri != [] && Trimmed(r.trackUri)
    && ValidText(r.title) && ValidText(r.artist)
    && (r.imageUrl.Some? ==> Trimmed(r.imageUrl.value))
    && r.sessionId != []
    && r.votes >= 0
  }

  /** A request as created with `status` and `votes` given and every other field at its
      schema default. */
  function NewRequest(id: RequestId, trackUri: string, title: string, artist: string,
                      imageUrl: Option<string>, sessionId: string, mesaId: MesaId, now: int): (r: SongRequest)
    ensures r.id == id && r.trackUri == trackUri && r.title == title && r.artist == artist
    ensures r.imageUrl == imageUrl && r.sessionId == sessionId && r.mesaId == mesaId
    ensures r.status == Queued && r.votes == 0 && r.createdAt == now
    ensures r.playedAt == None && r.rejectedReason == None && r.doneAt == None && r.expiresAt == None
  {
    SongRequest(id, trackUri, title, artist, imageUrl, sessionId, mesaId, Queued, 0, now, None, None, None, None)
  }

  predicate RequestIdsUnique(rs: seq<SongRequest>) {
    forall i, j :: 0 <= i < j < |rs| ==> rs[i].id != rs[j].id
  }

  predicate UsesRequestId(rs: seq<SongRequest>, id: RequestId) {
    exists i :: 0 <= i < |rs| && rs[i].id == id
  }

  /** `SongRequest.findById(id)`: position of the request with that id. */
  function IndexOfRequest(rs: seq<SongRequest>, id: RequestId): (r: Option<nat>)
    ensures r.Some? ==> r.value < |rs| && rs[r.value].id == id
    ensures r.None? <==> !UsesRequestId(rs, id)
  {
    if rs == [] then None
    else if rs[0].id == id then Some(0)
    else
      var r := IndexOfRequest(rs[1..], id);
      assert forall i :: 1 <= i < |rs| ==> rs[i] == rs[1..][i - 1];
      if r.None? then None else Some(r.value + 1)
  }

  /** The request collection. */
  class RequestStore {
    var items: seq<SongRequest>

    ghost predicate Valid()
      reads this
    {
      RequestIdsUnique(items)
    }

    constructor ()
      ensures items == [] && Valid()
    {
      items := [];
    }
  }
}

=== FILE: song_requests_controller.dfy ===
/** The song request handlers: admission of a new request through an ordered chain of
    gates, the moderator's listing, status changes, votes and deletion. */
module SongRequestsController {
  import opened Strings
  import opened Js
  import opened Collections
  import opened Paging
  import opened MesaModel
  import opened SessionModel
  import opened SongRequestModel
  import opened SettingsController
  import opened TrackUri

  /** The admission thresholds, read from the environment at start-up. */
  datatype Limits = Limits(maxPerSession: int, maxPerHour: int, cooldownSeconds: int,
                           antiDupWindowMin: int, maxQueueSize: int)

  /** The defaults used when the environment sets nothing. */
  const DefaultLimits: Limits := Limits(5, 3, 120, 30, 30)

  const HourMs: int := 60 * 60 * 1000

  // ---------------------------------------------------------------- counting queries

  /** The filter documents the admission chain counts with. */
  datatype Query =
    | InGlobalQueue
    | ActiveOfSession(sid: string)
    | SessionSince(sid: string, since: int)
    | LiveDuplicate(sid: string, uri: string, since: int)

  predicate Matches(q: Query, r: SongRequest) {
    match q
    case InGlobalQueue => r.status == Queued || r.status == Approved
    case ActiveOfSession(sid) =>
      r.sessionId == sid && (r.status == Queued || r.status == Approved || r.status == Playing)
    case SessionSince(sid, since) => r.sessionId == sid && r.createdAt >= since
    case LiveDuplicate(sid, uri, since) =>
      && r.sessionId == sid && r.trackUri == uri && r.createdAt >= since
      && r.status != Rejected && r.status != Done
  }

  /** `countDocuments(q)`; `exists(q)` is a positive count. */
  function CountMatching(rs: seq<SongRequest>, q: Query): (n: nat)
    ensures n <= |rs|
    ensures n == 0 <==> forall i :: 0 <= i < |rs| ==> !Matches(q, rs[i])
  {
    if rs == [] then 0
    else
      var init := rs[..|rs| - 1];
      assert forall i :: 0 <= i < |init| ==> init[i] == rs[i];
      CountMatching(init, q) + (if Matches(q, rs[|rs| - 1]) then 1 else 0)
  }

  /** Inserting a request raises a count by one exactly when the request matches. */
  lemma CountMatchingAppend(rs: seq<SongRequest>, x: SongRequest, q: Query)
    ensures CountMatching(rs + [x], q) == CountMatching(rs, q) + (if Matches(q, x) then 1 else 0)
  {
    assert (rs + [x])[..|rs|] == rs;
  }

  /** `findOne({ "requestedBy.sessionId": sid }).sort({ createdAt: -1 })`, read for its
      `createdAt`: the latest creation time among the session's requests. */
  function LatestCreated(rs: seq<SongRequest>, sid: string): (r: Option<int>)
    ensures r.None? <==> forall i :: 0 <= i < |rs| ==> rs[i].sessionId != sid
    ensures r.Some? ==> exists i :: 0 <= i < |rs| && rs[i].sessionId == sid && rs[i].createdAt == r.value
    ensures r.Some? ==> forall i :: 0 <= i < |rs| && rs[i].sessionId == sid ==> rs[i].createdAt <= r.value
  {
    if rs == [] then None
    else
      var init := rs[..|rs| - 1];
      var last := rs[|rs| - 1];
      assert forall i :: 0 <= i < |init| ==> init[i] == rs[i];
      var r := LatestCreated(init, sid);
      if last.sessionId != sid then r
      else if r.Some? && r.value >= last.createdAt then r
      else Some(last.createdAt)
  }

  /** The cooldown gate: with `diffSec = Math.floor((now - last) / 1000)`, a request is held
      back while `diffSec < cooldownSeconds`, and the reply names the wait
      `cooldownSeconds - diffSec`. Dafny's `/` by a positive divisor rounds down, as
      `Math.floor` does, also for a `last` in the future. */
  function CooldownWait(cooldownSeconds: int, last: Option<int>, now: int): (w: Option<int>)
    ensures w.Some? <==> last.Some? && now - last.value < cooldownSeconds * 1000
    ensures w.Some? ==> w.value > 0
    ensures w.Some? && last.value <= now ==> w.value <= cooldownSeconds
  {
    if last.None? then None
    else
      var diffSec := (now - last.value) / 1000;
      if diffSec < cooldownSeconds then Some(cooldownSeconds - diffSec) else None
  }

  // ---------------------------------------------------------------- admission

  /** The fields of the request body `crearSolicitud` reads. */
  datatype Body = Body(
    sessionId: Option<string>,
    mesaId: Option<MesaId>,
    trackUri: JsValue,
    trackUrl: JsValue,
    trackId: JsValue,
    title: JsValue,
    artist: JsValue,
    imageUrl: JsValue)

  /** `normalizeTrackUri(trackUri) || normalizeTrackUri(trackUrl) || normalizeTrackUri(trackId)` */
  function ResolveTrack(b: Body): (r: Option<string>)
    ensures r.Some? ==> StartsWith(r.value, TrackPrefix) && Trimmed(r.value)
    ensures NormalizeTrackUri(b.trackUri).Some? ==> r == NormalizeTrackUri(b.trackUri)
    ensures NormalizeTrackUri(b.trackUri).None? && NormalizeTrackUri(b.trackUrl).Some? ==>
      r == NormalizeTrackUri(b.trackUrl)
    ensures NormalizeTrackUri(b.trackUri).None? && NormalizeTrackUri(b.trackUrl).None? ==>
      r == NormalizeTrackUri(b.trackId)
  {
    var a := NormalizeTrackUri(b.trackUri);
    var u := NormalizeTrackUri(b.trackUrl);
    var i := NormalizeTrackUri(b.trackId);
    if a.Some? then a else if u.Some? then u else i
  }

  /** `findActiveSession`: the active session with the body's `sessionId`, else the active
      session of the body's table. Expiry is not checked here. */
  function FindActiveSession(ss: seq<Session>, sessionId: Option<string>, mesaId: Option<MesaId>): (r: Option<nat>)
    ensures r.Some? ==> r.value < |ss| && ss[r.value].active
    ensures Present(sessionId) && FindActiveById(ss, sessionId.value).Some? ==>
      r == FindActiveById(ss, sessionId.value)
    ensures r.Some? && ss[r.value].sessionId != sessionId.GetOr([]) ==>
      mesaId.Some? && ss[r.value].mesa == mesaId.value
    ensures r.None? <==>
      && (!Present(sessionId) || FindActiveById(ss, sessionId.value).None?)
      && (mesaId.None? || !HasActive(ss, mesaId.value))
  {
    if Present(sessionId) && FindActiveById(ss, sessionId.value).Some? then
      FindActiveById(ss, sessionId.value)
    else if mesaId.Some? then FindActiveByMesa(ss, mesaId.value)
    else None
  }

  /** `String(v).trim()` */
  function TextField(v: JsValue): (r: string)
    ensures Trimmed(r)
    ensures v.Str? ==> r == Trim(v.s)
  {
    Trim(ToStr(v))
  }

  /** `imageUrl ? String(imageUrl).trim() : undefined` */
  function ImageField(v: JsValue): (r: Option<string>)
    ensures r.Some? <==> Truthy(v)
    ensures r.Some? ==> Trimmed(r.value) && r.value == Trim(ToStr(v))
  {
    if Truthy(v) then Some(TextField(v)) else None
  }

  /** Why a request was not admitted. `Invalid` is the schema's rejection of the insert
      (an empty title or artist after trimming, or one over 300 characters), which the
      handler answers with 500. */
  datatype Refusal =
    | BadTrack | MissingText | NoSessionFound
    | QueueFull | SessionQuota | HourlyLimit | CoolingDown(wait: int)
    | Duplicate | NoDevice | Invalid
  {
    function Code(): int {
      match this
      case BadTrack => 400
      case MissingText => 400
      case NoSessionFound => 404
      case QueueFull => 429
      case SessionQuota => 429
      case HourlyLimit => 429
      case CoolingDown(_) => 429
      case Duplicate => 409
      case NoDevice => 409
      case Invalid => 500
    }
  }

  datatype Admission = Refused(why: Refusal) | Admitted(record: SongRequest, device: string)

  /** The three quota gates all pass for session `sid`. */
  predicate UnderQuotas(rs: seq<SongRequest>, sid: string, lim: Limits, now: int) {
    && CountMatching(rs, InGlobalQueue) < lim.maxQueueSize
    && CountMatching(rs, ActiveOfSession(sid)) < lim.maxPerSession
    && CountMatching(rs, SessionSince(sid, now - HourMs)) < lim.maxPerHour
  }

  /** Start of the duplicate window. */
  function DupSince(lim: Limits, now: int): int {
    now - lim.antiDupWindowMin * 60 * 1000
  }

  /** The gates that follow the session lookup, for session `sid` and track `uri`, in their
      order: the first that fails gives the refusal, `None` when all pass. */
  function SessionGates(rs: seq<SongRequest>, sid: string, uri: string, settings: seq<Settings>,
                        lim: Limits, now: int): (r: Option<Refusal>)
    ensures r.Some? ==> r.value.Code() == 429 || r.value.Code() == 409
    ensures r.None? <==>
      && UnderQuotas(rs, sid, lim, now)
      && CooldownWait(lim.cooldownSeconds, LatestCreated(rs, sid), now).None?
      && CountMatching(rs, LiveDuplicate(sid, uri, DupSince(lim, now))) == 0
      && PreferredDevice(settings).Some?
  {
    var wait := CooldownWait(lim.cooldownSeconds, LatestCreated(rs, sid), now);
    if CountMatching(rs, InGlobalQueue) >= lim.maxQueueSize then Some(QueueFull)
    else if CountMatching(rs, ActiveOfSession(sid)) >= lim.maxPerSession then Some(SessionQuota)
    else if CountMatching(rs, SessionSince(sid, now - HourMs)) >= lim.maxPerHour then Some(HourlyLimit)
    else if wait.Some? then Some(CoolingDown(wait.value))
    else if CountMatching(rs, LiveDuplicate(sid, uri, DupSince(lim, now))) > 0 then Some(Duplicate)
    else if PreferredDevice(settings).None? then Some(NoDevice)
    else None
  }

  /** The session's gates run in the order of the handler and the first failing one
      decides: the global queue, the session's active quota, its hourly count, the cooldown
      (whose reported wait is always positive), the duplicate window and the preferred
      device. */
  lemma SessionGateOrder(rs: seq<SongRequest>, sid: string, uri: string, settings: seq<Settings>,
                         lim: Limits, now: int)
    ensures var r := SessionGates(rs, sid, uri, settings, lim, now);
      var queued := CountMatching(rs, InGlobalQueue);
      var active := CountMatching(rs, ActiveOfSession(sid));
      var lastHour := CountMatching(rs, SessionSince(sid, now - HourMs));
      var wait := CooldownWait(lim.cooldownSeconds, LatestCreated(rs, sid), now);
      var dups := CountMatching(rs, LiveDuplicate(sid, uri, DupSince(lim, now)));
      && (r == Some(QueueFull) <==> queued >= lim.maxQueueSize)
      && (r == Some(SessionQuota) <==> queued < lim.maxQueueSize && active >= lim.maxPerSession)
      && (r == Some(HourlyLimit) <==>
            queued < lim.maxQueueSize && active < lim.maxPerSession && lastHour >= lim.maxPerHour)
      && (r.Some? && r.value.CoolingDown? <==> UnderQuotas(rs, sid, lim, now) && wait.Some?)
      && (r.Some? && r.value.CoolingDown? ==> r.value.wait == wait.value > 0)
      && (r == Some(Duplicate) <==> UnderQuotas(rs, sid, lim, now) && wait.None? && dups > 0)
      && (r == Some(NoDevice) <==>
            UnderQuotas(rs, sid, lim, now) && wait.None? && dups == 0 && PreferredDevice(settings).None?)
  {
  }

  /** `crearSolicitud` up to the insert: the request's own checks, the session lookup, the
      session's gates and the schema's, the first failing one deciding the answer; otherwise
      the record to insert, with the id `id` the database assigns, and the device the enqueue
      call targets. */
  function Admit(rs: seq<SongRequest>, ss: seq<Session>, settings: seq<Settings>, b: Body,
                 lim: Limits, now: int, id: RequestId): (a: Admission)
    requires WellFormed(ss)
    ensures a.Admitted? ==>
      && ResolveTrack(b).Some? && Truthy(b.title) && Truthy(b.artist)
      && FindActiveSession(ss, b.sessionId, b.mesaId).Some?
      && var s := ss[FindActiveSession(ss, b.sessionId, b.mesaId).value];
      && SessionGates(rs, s.sessionId, ResolveTrack(b).value, settings, lim, now).None?
      && Some(a.device) == PreferredDevice(settings)
      && a.record == NewRequest(id, ResolveTrack(b).value, TextField(b.title), TextField(b.artist),
                                ImageField(b.imageUrl), s.sessionId, s.mesa, now)
      && SchemaValid(a.record)
  {
    var track := ResolveTrack(b);
    if track.None? then Refused(BadTrack)
    else if !Truthy(b.title) || !Truthy(b.artist) then Refused(MissingText)
    else
      var k := FindActiveSession(ss, b.sessionId, b.mesaId);
      if k.None? then Refused(NoSessionFound)
      else
        var s := ss[k.value];
        var gate := SessionGates(rs, s.sessionId, track.value, settings, lim, now);
        if gate.Some? then Refused(gate.value)
        else
          var title := TextField(b.title);
          var artist := TextField(b.artist);
          if !ValidText(title) || !ValidText(artist) then Refused(Invalid)
          else Admitted(NewRequest(id, track.value, title, artist, ImageField(b.imageUrl),
                                   s.sessionId, s.mesa, now), PreferredDevice(settings).value)
  }

  /** The request's own checks come first: a track none of the three fields names is
      refused with 400, then a missing title or artist with 400, then a body that names no
      active session with 404. Past them, the session's first failing gate decides, and the
      schema's check of the trimmed texts comes last. */
  lemma AdmitOrder(rs: seq<SongRequest>, ss: seq<Session>, settings: seq<Settings>, b: Body,
                   lim: Limits, now: int, id: RequestId)
    requires WellFormed(ss)
    ensures var a := Admit(rs, ss, settings, b, lim, now, id);
      var track := ResolveTrack(b);
      var texts := Truthy(b.title) && Truthy(b.artist);
      var k := FindActiveSession(ss, b.sessionId, b.mesaId);
      && (a == Refused(BadTrack) <==> track.None?)
      && (a == Refused(MissingText) <==> track.Some? && !texts)
      && (a == Refused(NoSessionFound) <==> track.Some? && texts && k.None?)
      && (track.Some? && texts && k.Some? ==>
            var gate := SessionGates(rs, ss[k.value].sessionId, track.value, settings, lim, now);
            && (gate.Some? ==> a == Refused(gate.value))
            && (gate.None? ==>
                  (a == Refused(Invalid) <==> !(ValidText(TextField(b.title)) && ValidText(TextField(b.artist))))))
  {
  }

  /** A request admitted under the quotas and outside the duplicate window, once inserted,
      keeps every limit the gates guard: the global queue, the session's active quota and its
      hourly count each grow by one and stay within their limits, and it is the session's
      only live request for that track inside the (non-negative) duplicate window. */
  lemma {:induction false} InsertUnderQuotas(rs: seq<SongRequest>, sid: string, uri: string,
      lim: Limits, now: int, rec: SongRequest)
    requires UnderQuotas(rs, sid, lim, now)
    requires CountMatching(rs, LiveDuplicate(sid, uri, DupSince(lim, now))) == 0
    requires rec.sessionId == sid && rec.trackUri == uri && rec.status == Queued && rec.createdAt == now
    requires lim.antiDupWindowMin >= 0
    ensures var rs' := rs + [rec];
      && CountMatching(rs', InGlobalQueue) == CountMatching(rs, InGlobalQueue) + 1 <= lim.maxQueueSize
      && CountMatching(rs', ActiveOfSession(sid)) == CountMatching(rs, ActiveOfSession(sid)) + 1 <= lim.maxPerSession
      && CountMatching(rs', SessionSince(sid, now - HourMs)) <= lim.maxPerHour
      && CountMatching(rs', LiveDuplicate(sid, uri, DupSince(lim, now))) == 1
  {
    CountMatchingAppend(rs, rec, InGlobalQueue);
    CountMatchingAppend(rs, rec, ActiveOfSession(sid));
    CountMatchingAppend(rs, rec, SessionSince(sid, now - HourMs));
    CountMatchingAppend(rs, rec, LiveDuplicate(sid, uri, DupSince(lim, now)));
  }

  /** Once a session has a request created at `now`, its gates refuse every request until
      the cooldown has run out, whatever the track. */
  lemma CooldownAfterInsert(rs: seq<SongRequest>, sid: string, settings: seq<Settings>, lim: Limits,
      now: int, rec: SongRequest, later: int, uri: string)
    requires rec.sessionId == sid && rec.createdAt == now
    requires now <= later < now + lim.cooldownSeconds * 1000
    ensures SessionGates(rs + [rec], sid, uri, settings, lim, later).Some?
  {
    var rs' := rs + [rec];
    assert rs'[|rs|] == rec;
    var last := LatestCreated(rs', sid);
    assert last.Some? && last.value >= now;
  }

  /** Once a session has a queued request for a track created at `now`, its gates refuse
      that track again until the duplicate window has passed, whatever the cooldown. */
  lemma DuplicateAfterInsert(rs: seq<SongRequest>, sid: string, uri: string, settings: seq<Settings>,
      lim: Limits, now: int, rec: SongRequest, later: int)
    requires rec.sessionId == sid && rec.trackUri == uri && rec.status == Queued && rec.createdAt == now
    requires now <= later <= now + lim.antiDupWindowMin * 60 * 1000
    ensures SessionGates(rs + [rec], sid, uri, settings, lim, later).Some?
  {
    var rs' := rs + [rec];
    assert Matches(LiveDuplicate(sid, uri, DupSince(lim, later)), rs'[|rs|]);
  }

  /** The same body sent again by the same session before the cooldown has run out is not
      admitted (`CooldownAfterInsert`). */
  lemma CooldownBlocksRepeat(rs: seq<SongRequest>, ss: seq<Session>, settings: seq<Settings>,
      b: Body, lim: Limits, now: int, id: RequestId, later: int, id2: RequestId)
    requires WellFormed(ss)
    requires Admit(rs, ss, settings, b, lim, now, id).Admitted?
    requires now <= later < now + lim.cooldownSeconds * 1000
    ensures !Admit(rs + [Admit(rs, ss, settings, b, lim, now, id).record], ss, settings, b, lim, later, id2).Admitted?
  {
    var rec := Admit(rs, ss, settings, b, lim, now, id).record;
    CooldownAfterInsert(rs, rec.sessionId, settings, lim, now, rec, later, rec.trackUri);
  }

  /** The same track requested again by the same session inside the duplicate window is not
      admitted, whatever the cooldown (`DuplicateAfterInsert`). */
  lemma DuplicateBlocksRepeat(rs: seq<SongRequest>, ss: seq<Session>, settings: seq<Settings>,
      b: Body, lim: Limits, now: int, id: RequestId, later: int, id2: RequestId)
    requires WellFormed(ss)
    requires Admit(rs, ss, settings, b, lim, now, id).Admitted?
    requires now <= later <= now + lim.antiDupWindowMin * 60 * 1000
    ensures !Admit(rs + [Admit(rs, ss, settings, b, lim, now, id).record], ss, settings, b, lim, later, id2).Admitted?
  {
    var rec := Admit(rs, ss, settings, b, lim, now, id).record;
    DuplicateAfterInsert(rs, rec.sessionId, rec.trackUri, settings, lim, now, rec, later);
  }

  /** An admitted request keeps the limits once inserted (`InsertUnderQuotas`). */
  lemma AdmittedStaysWithinLimits(rs: seq<SongRequest>, ss: seq<Session>,
      settings: seq<Settings>, b: Body, lim: Limits, now: int, id: RequestId)
    requires WellFormed(ss)
    requires Admit(rs, ss, settings, b, lim, now, id).Admitted?
    requires lim.antiDupWindowMin >= 0
    ensures var rec := Admit(rs, ss, settings, b, lim, now, id).record;
      var rs' := rs + [rec];
      && CountMatching(rs', InGlobalQueue) <= lim.maxQueueSize
      && CountMatching(rs', ActiveOfSession(rec.sessionId)) <= lim.maxPerSession
      && CountMatching(rs', SessionSince(rec.sessionId, now - HourMs)) <= lim.maxPerHour
      && CountMatching(rs', LiveDuplicate(rec.sessionId, rec.trackUri, DupSince(lim, now))) == 1
  {
    var rec := Admit(rs, ss, settings, b, lim, now, id).record;
    assert SessionGates(rs, rec.sessionId, rec.trackUri, settings, lim, now).None?;
    InsertUnderQuotas(rs, rec.sessionId, rec.trackUri, lim, now, rec);
  }

  /** Inserting a request with an unused id keeps the ids unique. */
  lemma AppendFreshId(rs: seq<SongRequest>, rec: SongRequest)
    requires RequestIdsUnique(rs) && !UsesRequestId(rs, rec.id)
    ensures RequestIdsUnique(rs + [rec])
  {
    var rs' := rs + [rec];
    forall i, j | 0 <= i < j < |rs'| ensures rs'[i].id != rs'[j].id {
      if j == |rs| { assert rs'[i] == rs[i]; }
    }
  }

  datatype CreateReply = CreateRefused(why: Refusal) | Created(request: SongRequest, enqueued: bool) {
    /** 201 when the track also reached the player's queue, 202 when only the record was saved. */
    function Code(): int {
      match this
      case CreateRefused(why) => why.Code()
      case Created(_, enqueued) => if enqueued then 201 else 202
    }
  }

  /** `crearSolicitud`. `id` is the id the database gives the new record, and `enqueued`
      is the outcome of the call that adds the track to the player's queue, which is
      outside this model; the record stays either way. */
  method CrearSolicitud(store: RequestStore, sessions: SessionStore, settings: SettingsStore, b: Body,
                        lim: Limits, now: int, id: RequestId, enqueued: bool)
    returns (reply: CreateReply)
    requires store.Valid() && sessions.Valid() && !UsesRequestId(store.items, id)
    modifies store
    ensures store.Valid()
    ensures var a := Admit(old(store.items), sessions.sessions, settings.records, b, lim, now, id);
      && (a.Refused? ==> reply == CreateRefused(a.why) && store.items == old(store.items))
      && (a.Admitted? ==> reply == Created(a.record, enqueued) && store.items == old(store.items) + [a.record])
  {
    var a := Admit(store.items, sessions.sessions, settings.records, b, lim, now, id);
    if a.Refused? {
      return CreateRefused(a.why);
    }
    AppendFreshId(store.items, a.record);
    store.items := store.items + [a.record];
    reply := Created(a.record, enqueued);
  }

  // ---------------------------------------------------------------- listing

  /** The fields the listing can sort on, by their paths in the stored document; `ByOther`
      is any other name. */
  datatype SortKey =
    | ByCreatedAt | ByVotes | ByTitle | ByArtist | ByTrackUri | ByStatus | BySession
    | ByImageUrl | ByRejectedReason | ByPlayedAt | ByDoneAt | ByExpiresAt
    | ByOther(field: string)

  /** The query string of `listarSolicitudes`. `limit` and `page` are `parseInt`'s results
      (`None` for NaN); `sort` is `None` when absent. */
  datatype ListQuery = ListQuery(
    status: Option<string>,
    sessionId: Option<string>,
    mesaId: Option<MesaId>,
    limit: Option<int>,
    page: Option<int>,
    sort: Option<string>)

  function TrimAll(parts: seq<string>): (r: seq<string>)
    ensures |r| == |parts|
    ensures forall k :: 0 <= k < |r| ==> r[k] == Trim(parts[k])
  {
    seq(|parts|, k requires 0 <= k < |parts| => Trim(parts[k]))
  }

  /** `String(status).split(",").map(s => s.trim()).filter(Boolean)`, or no list at all
      when `status` is absent or empty: a name is listed exactly when it is the non-empty
      trim of one of the comma-separated pieces. */
  function StatusList(raw: Option<string>): (r: seq<string>)
    ensures forall k :: 0 <= k < |r| ==> r[k] != [] && Trimmed(r[k])
    ensures !Present(raw) ==> r == []
    ensures Present(raw) ==>
      forall x :: x in r <==> x != [] && x in TrimAll(SplitChar(raw.value, ','))
  {
    if Present(raw) then NonEmpty(TrimAll(SplitChar(raw.value, ','))) else []
  }

  /** A word without commas or surrounding spaces lists itself alone. */
  lemma StatusListOfWord(name: string)
    requires name != [] && ',' !in name && Trimmed(name)
    ensures StatusList(Some(name)) == [name]
  {
    SplitCharNone(name, ',');
    TrimOfTrimmed(name);
    assert TrimAll([name]) == [name];
    assert NonEmpty([name]) == [name] + NonEmpty([]);
  }

  /** Every status name is such a word. */
  lemma StatusNameIsWord(st: Status)
    ensures var name := StatusName(st); name != [] && ',' !in name && Trimmed(name)
  {
    var name := StatusName(st);
    forall i | 0 <= i < |name| ensures name[i] != ',' {
    }
  }

  /** One status name lists that status alone. */
  lemma StatusListSingle(st: Status)
    ensures StatusList(Some(StatusName(st))) == [StatusName(st)]
  {
    StatusNameIsWord(st);
    StatusListOfWord(StatusName(st));
  }

  /** The filter object the handler builds: the status list (when non-empty), the session
      and the table. */
  predicate Listed(q: ListQuery, statuses: seq<string>, r: SongRequest) {
    && (statuses == [] || StatusName(r.status) in statuses)
    && (!Present(q.sessionId) || r.sessionId == q.sessionId.value)
    && (q.mesaId.None? || r.mesaId == q.mesaId.value)
  }

  /** The `sort` parameter's default. */
  const DefaultSort: string := "createdAt:asc"

  /** The sort key a field name selects; an empty name means `createdAt`. */
  function SortKeyOf(field: string): (k: SortKey)
    ensures k == ByCreatedAt <==> field == [] || field == "createdAt"
    ensures k == ByVotes <==> field == "votes"
    ensures k == ByTitle <==> field == "title"
    ensures k == BySession <==> field == "requestedBy.sessionId"
    ensures k == ByPlayedAt <==> field == "playedAt"
    ensures k.ByOther? ==> k.field == field
  {
    if field == [] || field == "createdAt" then ByCreatedAt
    else if field == "votes" then ByVotes
    else if field == "title" then ByTitle
    else if field == "artist" then ByArtist
    else if field == "trackUri" then ByTrackUri
    else if field == "status" then ByStatus
    else if field == "requestedBy.sessionId" then BySession
    else if field == "imageUrl" then ByImageUrl
    else if field == "rejectedReason" then ByRejectedReason
    else if field == "playedAt" then ByPlayedAt
    else if field == "doneAt" then ByDoneAt
    else if field == "expiresAt" then ByExpiresAt
    else ByOther(field)
  }

  /** `const [sortField, sortDirRaw] = String(sort).split(":")`: the first piece names the
      field, and the order is descending only when the second piece is `desc` in any ASCII
      case. */
  function ParseSort(sort: Option<string>): (r: (SortKey, bool))
    ensures ':' !in sort.GetOr(DefaultSort) ==> r == (SortKeyOf(sort.GetOr(DefaultSort)), false)
  {
    var text := sort.GetOr(DefaultSort);
    assert ':' !in text ==> SplitChar(text, ':') == [text] by {
      if ':' !in text {
        SplitCharNone(text, ':');
      }
    }
    var parts := SplitChar(text, ':');
    (SortKeyOf(parts[0]), |parts| >= 2 && LowerAscii(parts[1]) == "desc")
  }

  /** A field and a direction joined by one colon select that field and direction. */
  lemma ParseSortOf(field: string, dir: string)
    requires ':' !in field && ':' !in dir
    ensures ParseSort(Some(field + [':'] + dir)) == (SortKeyOf(field), LowerAscii(dir) == "desc")
  {
    SplitCharCons(field, ':', dir);
    SplitCharNone(dir, ':');
  }

  /** Without a `sort` parameter the listing is by creation time, oldest first. */
  lemma ParseSortDefault()
    ensures ParseSort(None) == (ByCreatedAt, false)
  {
    var field, dir := "createdAt", "asc";
    assert DefaultSort == field + [':'] + dir;
    assert ':' !in field && ':' !in dir;
    ParseSortOf(field, dir);
    assert |LowerAscii(dir)| == 3;
  }

  /** The value a sort compares, in this model's order: a missing or null value first, then
      numbers and dates, then strings. The database puts dates after strings, but no sortable
      field of a request holds both, so the two orders agree on every field. */
  datatype SortValue = Missing | Number(n: int) | Text(s: string)

  predicate ValueLe(a: SortValue, b: SortValue) {
    match a
    case Missing => true
    case Number(x) => b.Text? || (b.Number? && x <= b.n)
    case Text(x) => b.Text? && TextLe(x, b.s)
  }

  function DateValue(d: Option<int>): SortValue {
    if d.None? then Missing else Number(d.value)
  }

  function TextValue(t: Option<string>): SortValue {
    if t.None? then Missing else Text(t.value)
  }

  /** The value of the sorted field in a request; a field the record does not hold is
      missing in every request. */
  function SortValueOf(key: SortKey, r: SongRequest): SortValue {
    match key
    case ByCreatedAt => Number(r.createdAt)
    case ByVotes => Number(r.votes)
    case ByTitle => Text(r.title)
    case ByArtist => Text(r.artist)
    case ByTrackUri => Text(r.trackUri)
    case ByStatus => Text(StatusName(r.status))
    case BySession => Text(r.sessionId)
    case ByImageUrl => TextValue(r.imageUrl)
    case ByRejectedReason => TextValue(r.rejectedReason)
    case ByPlayedAt => DateValue(r.playedAt)
    case ByDoneAt => DateValue(r.doneAt)
    case ByExpiresAt => DateValue(r.expiresAt)
    case ByOther(_) => Missing
  }

  /** The order `sort({ [field]: dir })` puts results in: by the field's value, reversed
      for `desc`. */
  function Order(key: SortKey, desc: bool): (le: (SongRequest, SongRequest) -> bool)
    ensures forall x, y :: !desc ==> (le(x, y) <==> ValueLe(SortValueOf(key, x), SortValueOf(key, y)))
    ensures forall x, y :: desc ==> (le(x, y) <==> ValueLe(SortValueOf(key, y), SortValueOf(key, x)))
    ensures forall x, y :: SortValueOf(key, x) == SortValueOf(key, y) ==> le(x, y) && le(y, x)
  {
    assert forall v :: ValueLe(v, v) by {
      forall v ensures ValueLe(v, v) {
        ValueLeTotal(v, v);
      }
    }
    if desc then (x: SongRequest, y: SongRequest) => ValueLe(SortValueOf(key, y), SortValueOf(key, x))
    else (x: SongRequest, y: SongRequest) => ValueLe(SortValueOf(key, x), SortValueOf(key, y))
  }

  lemma ValueLeTotal(a: SortValue, b: SortValue)
    ensures ValueLe(a, b) || ValueLe(b, a)
  {
    if a.Text? && b.Text? {
      TextLeTotal(a.s, b.s);
    }
  }

  lemma ValueLeTrans(a: SortValue, b: SortValue, c: SortValue)
    requires ValueLe(a, b) && ValueLe(b, c)
    ensures ValueLe(a, c)
  {
    if a.Text? {
      TextLeTrans(a.s, b.s, c.s);
    }
  }

  /** Every order the listing uses is total and transitive. */
  lemma OrderIsPreorder(key: SortKey, desc: bool)
    ensures TotalPreorder(Order(key, desc))
  {
    var le := Order(key, desc);
    forall x: SongRequest, y: SongRequest ensures le(x, y) || le(y, x) {
      ValueLeTotal(SortValueOf(key, x), SortValueOf(key, y));
    }
    forall x: SongRequest, y: SongRequest, z: SongRequest | le(x, y) && le(y, z) ensures le(x, z) {
      var vx, vy, vz := SortValueOf(key, x), SortValueOf(key, y), SortValueOf(key, z);
      if desc {
        ValueLeTrans(vz, vy, vx);
      } else {
        ValueLeTrans(vx, vy, vz);
      }
    }
  }

  /** `find(filter)` with the listing's filter object: the matching requests in stored
      order. */
  function Selection(rs: seq<SongRequest>, q: ListQuery): (r: seq<SongRequest>)
    ensures |r| <= |rs|
    ensures forall x :: x in r <==> x in rs && Listed(q, StatusList(q.status), x)
    ensures (forall x :: x in rs ==> Listed(q, StatusList(q.status), x)) ==> r == rs
  {
    var statuses := StatusList(q.status);
    Filter(rs, (x: SongRequest) => Listed(q, statuses, x))
  }

  datatype ListReply = ListReply(total: nat, page: int, limit: int, items: seq<SongRequest>)

  /** `listarSolicitudes`: one page of the matching requests in the requested order, and how
      many match in all (`countDocuments` with the same filter). */
  function Listar(rs: seq<SongRequest>, q: ListQuery): (r: ListReply)
    ensures r.page == PageNumber(q.page) && r.limit == PageLimit(q.limit, 50, 100)
    ensures 1 <= r.limit <= 100 && r.page >= 1
    ensures q.limit.None? ==> r.limit == 50
    ensures q.page.None? ==> r.page == 1
    ensures r.total == |Selection(rs, q)| && |r.items| <= r.limit
    ensures forall x :: x in r.items ==> x in rs && Listed(q, StatusList(q.status), x)
    ensures SortedBy(r.items, Order(ParseSort(q.sort).0, ParseSort(q.sort).1))
    ensures r.page == 1 && r.total <= r.limit ==> multiset(r.items) == multiset(Selection(rs, q))
    ensures TotalPreorder(Order(ParseSort(q.sort).0, ParseSort(q.sort).1))
    ensures r.items == Page(SortBy(Selection(rs, q), Order(ParseSort(q.sort).0, ParseSort(q.sort).1)), r.page, r.limit)
  {
    var selected := Selection(rs, q);
    var (key, desc) := ParseSort(q.sort);
    OrderIsPreorder(key, desc);
    var sorted := SortBy(selected, Order(key, desc));
    var page := PageNumber(q.page);
    var limit := PageLimit(q.limit, 50, 100);
    PageKeepsOrder(sorted, page, limit, Order(key, desc));
    PageWithin(sorted, page, limit);
    forall x | x in sorted ensures x in selected {
      assert x in multiset(sorted);
    }
    FirstPageIsAll(sorted, limit);
    ListReply(|selected|, page, limit, Page(sorted, page, limit))
  }

  /** With no filter every request is counted. */
  lemma ListUnfiltered(rs: seq<SongRequest>, q: ListQuery)
    requires !Present(q.status) && !Present(q.sessionId) && q.mesaId.None?
    ensures Listar(rs, q).total == |rs|
  {
    assert forall x :: x in rs ==> Listed(q, StatusList(q.status), x);
  }

  // ---------------------------------------------------------------- moderation

  /** The statuses a moderator may set: `approved`, `rejected`, `playing`, `done`, given as
      a string. `queued` is not one of them. */
  function TargetStatus(v: JsValue): (r: Option<Status>)
    ensures r.Some? <==> v.Str? && (v.s == "approved" || v.s == "rejected" || v.s == "playing" || v.s == "done")
    ensures r.Some? ==> r.value != Queued && StatusName(r.value) == v.s
  {
    if v.Str? then
      var st := ParseStatus(v.s);
      if st.Some? && st.value != Queued then st else None
    else None
  }

  /** `reason ? String(reason).trim() : "—"` */
  function RejectReason(reason: JsValue): (r: string)
    ensures !Truthy(reason) ==> r == "—"
    ensures Truthy(reason) ==> Trimmed(r) && r == Trim(ToStr(reason))
  {
    if Truthy(reason) then TextField(reason) else "—"
  }

  /** The update document of `actualizarEstado` applied to a record: the status, `playedAt`
      for `playing` and the reason for `rejected`. No transition is forbidden. */
  function WithStatus(rec: SongRequest, st: Status, reason: JsValue, now: int): (r: SongRequest)
    ensures r.status == st
    ensures r.playedAt == (if st == Playing then Some(now) else rec.playedAt)
    ensures r.rejectedReason == (if st == Rejected then Some(RejectReason(reason)) else rec.rejectedReason)
    ensures r.(status := rec.status, playedAt := rec.playedAt, rejectedReason := rec.rejectedReason) == rec
  {
    var r := rec.(status := st);
    var r := if st == Playing then r.(playedAt := Some(now)) else r;
    if st == Rejected then r.(rejectedReason := Some(RejectReason(reason))) else r
  }

  datatype UpdateReply = InvalidStatus | RequestNotFound | RequestUpdated(request: SongRequest) {
    function Code(): int {
      match this
      case InvalidStatus => 400
      case RequestNotFound => 404
      case RequestUpdated(_) => 200
    }
  }

  /** `actualizarEstado`: the status is checked before the id is looked up. */
  method ActualizarEstado(store: RequestStore, id: RequestId, status: JsValue, reason: JsValue, now: int)
    returns (reply: UpdateReply)
    requires store.Valid()
    modifies store
    ensures store.Valid()
    ensures reply.InvalidStatus? <==> TargetStatus(status).None?
    ensures reply.RequestNotFound? <==> TargetStatus(status).Some? && !UsesRequestId(old(store.items), id)
    ensures !reply.RequestUpdated? ==> store.items == old(store.items)
    ensures reply.RequestUpdated? ==>
      var k := IndexOfRequest(old(store.items), id).value;
      && reply.request == WithStatus(old(store.items)[k], TargetStatus(status).value, reason, now)
      && store.items == old(store.items)[k := reply.request]
  {
    var st := TargetStatus(status);
    if st.None? {
      return InvalidStatus;
    }
    var k := IndexOfRequest(store.items, id);
    if k.None? {
      return RequestNotFound;
    }
    var updated := WithStatus(store.items[k.value], st.value, reason, now);
    store.items := store.items[k.value := updated];
    reply := RequestUpdated(updated);
  }

  /** `Number.isFinite(Number(delta)) ? Number(delta) : 1` */
  function VoteDelta(delta: JsValue): (d: int)
    ensures delta.Undefined? ==> d == 1
    ensures delta.Null? ==> d == 0
    ensures delta.Num? ==> d == delta.n
    ensures ToNumber(delta).None? ==> d == 1
    ensures ToNumber(delta).Some? ==> d == ToNumber(delta).value
  {
    match ToNumber(delta)
    case Some(n) => n
    case None => 1
  }

  datatype VoteReply = VoteNotFound | Voted(request: SongRequest) {
    function Code(): int {
      if VoteNotFound? then 404 else 200
    }
  }

  /** `votar`: `$inc: { votes: delta }` on one record. The schema's minimum of 0 is not
      enforced on updates, so votes may become negative. */
  method Votar(store: RequestStore, id: RequestId, delta: JsValue) returns (reply: VoteReply)
    requires store.Valid()
    modifies store
    ensures store.Valid()
    ensures reply.VoteNotFound? <==> !UsesRequestId(old(store.items), id)
    ensures reply.VoteNotFound? ==> store.items == old(store.items)
    ensures reply.Voted? ==>
      var k := IndexOfRequest(old(store.items), id).value;
      && reply.request == old(store.items)[k].(votes := old(store.items)[k].votes + VoteDelta(delta))
      && store.items == old(store.items)[k := reply.request]
  {
    var k := IndexOfRequest(store.items, id);
    if k.None? {
      return VoteNotFound;
    }
    var rec := store.items[k.value];
    var voted := rec.(votes := rec.votes + VoteDelta(delta));
    store.items := store.items[k.value := voted];
    reply := Voted(voted);
  }

  /** `eliminar`: `findByIdAndDelete(id)`. Exactly the record with that id leaves the
      collection, and the others keep their order. */
  method Eliminar(store: RequestStore, id: RequestId) returns (found: bool)
    requires store.Valid()
    modifies store
    ensures store.Valid()
    ensures found <==> UsesRequestId(old(store.items), id)
    ensures !found ==> store.items == old(store.items)
    ensures found ==>
      var k := IndexOfRequest(old(store.items), id).value;
      && store.items == old(store.items)[..k] + old(store.items)[k + 1..]
      && multiset(store.items) + multiset{old(store.items)[k]} == multiset(old(store.items))
    ensures !UsesRequestId(store.items, id)
  {
    var k := IndexOfRequest(store.items, id);
    if k.None? {
      return false;
    }
    var rs := store.items;
    var i := k.value;
    assert rs == rs[..i] + [rs[i]] + rs[i + 1..];
    store.items := rs[..i] + rs[i + 1..];
    forall j | 0 <= j < |store.items| ensures store.items[j].id != id {
      if j < i { assert store.items[j] == rs[j]; }
      else { assert store.items[j] == rs[j + 1]; }
    }
    found := true;
  }
}

=== FILE: spotify_auth.dfy ===
/** The player account's authorization-code flow (section 4.1 of RFC 6749): the scope list,
    the single-use `state` values of the login (section 10.12 of RFC 6749), the token grant
    and its refresh (section 6 of RFC 6749), the cached access token and the status report. */
module SpotifyAuth {
  import opened Strings
  import opened Js

  /** The scopes asked for when the environment names none, joined with single spaces:
      "user-read-playback-state user-modify-playback-state user-read-currently-playing". */
  const DefaultScopes := Join(DefaultScopeWords, " ")

  const DefaultScopeWords: seq<string> :=
    ["user-read-playback-state", "user-modify-playback-state", "user-read-currently-playing"]

  /** A word of the default list holds no whitespace. */
  predicate WordNoWhitespace(w: string) {
    forall i :: 0 <= i < |w| ==> !IsJsWhitespace(w[i])
  }

  lemma PlaybackStateWord()
    ensures WordNoWhitespace(DefaultScopeWords[0])
  {
  }

  lemma ModifyPlaybackWord()
    ensures WordNoWhitespace(DefaultScopeWords[1])
  {
  }

  lemma CurrentlyPlayingWord()
    ensures WordNoWhitespace(DefaultScopeWords[2])
  {
  }

  /** `s.split(/\s+/).filter(Boolean).join(" ")`: the words of `s`, single-spaced. The
      result has exactly the words of `s`, in their order. */
  function ScopeList(s: string): (r: string)
    ensures SingleSpaced(r)
    ensures Words(r) == Words(s)
  {
    var words := Words(s);
    JoinWordsSingleSpaced(words);
    WordsOfJoin(words);
    Join(words, " ")
  }

  /** `getScopes`: the words of the environment's list when it is set and non-empty, else
      the default list. */
  function GetScopes(env: Option<string>): (r: string)
    ensures SingleSpaced(r)
    ensures Present(env) ==> Words(r) == Words(env.value)
  {
    ScopeList(if Present(env) then env.value else DefaultScopes)
  }

  /** A single-spaced list comes back unchanged, so `getScopes` is idempotent. */
  lemma ScopeListOfSingleSpaced(s: string)
    requires SingleSpaced(s)
    ensures ScopeList(s) == s
  {
    SplitJoinSingleSpaced(s);
  }

  lemma GetScopesIdempotent(env: Option<string>)
    ensures var once := GetScopes(env);
      once != [] ==> GetScopes(Some(once)) == once
  {
    ScopeListOfSingleSpaced(GetScopes(env));
  }

  /** With the environment unset the default list is used as it is: its three words, each
      free of whitespace, single-spaced. */
  lemma GetScopesDefault()
    ensures GetScopes(None) == DefaultScopes
    ensures Words(GetScopes(None)) == DefaultScopeWords
  {
    PlaybackStateWord();
    ModifyPlaybackWord();
    CurrentlyPlayingWord();
    var ws := DefaultScopeWords;
    assert forall k :: 0 <= k < |ws| ==> WordNoWhitespace(ws[k]);
    JoinWordsSingleSpaced(ws);
    WordsOfJoin(ws);
    ScopeListOfSingleSpaced(DefaultScopes);
  }

  /** A non-empty value made of whitespace only is truthy, so it replaces the default, and
      it yields an empty scope list. */
  lemma BlankScopesEnv(s: string)
    requires s != [] && forall i :: 0 <= i < |s| ==> IsJsWhitespace(s[i])
    ensures GetScopes(Some(s)) == []
  {
    assert FirstWhitespace(s) == 0;
    assert TrimStart(s[0..]) == [];
    assert SplitWhitespace([]) == [[]];
    assert SplitWhitespace(s) == [[], []];
    assert NonEmpty([[], []]) == [];
  }

  /** The module-level `_oauth` object; `expiresAt` is in milliseconds, 0 when unset. */
  datatype OAuth = OAuth(accessToken: Option<string>, refreshToken: Option<string>, expiresAt: int)

  /** `_oauth` at start-up and after `_devReset`. */
  const Cleared := OAuth(None, None, 0)

  /** The parsed JSON of a successful token response. */
  datatype TokenResponse = TokenResponse(accessToken: Option<string>, refreshToken: Option<string>,
                                         expiresIn: Option<int>)

  /** Outcome of a POST to the token endpoint: failed (missing client configuration, a
      network error or a non-2xx status) or answered. */
  datatype TokenCall = CallFailed | CallOk(data: TokenResponse)

  /** `data.expires_in || 3600`, in seconds. */
  function LifetimeSeconds(e: Option<int>): (s: int)
    ensures e.None? || e == Some(0) ==> s == 3600
    ensures e.Some? && e.value != 0 ==> s == e.value
  {
    if e.None? || e.value == 0 then 3600 else e.value
  }

  /** What a token response does to `_oauth`, the same for the code exchange and for the
      refresh: the new access token, a new expiry, and the old refresh token unless a new
      one came. */
  function Granted(o: OAuth, data: TokenResponse, now: int): (r: OAuth)
    ensures r.accessToken == data.accessToken
    ensures Present(data.refreshToken) ==> r.refreshToken == data.refreshToken
    ensures !Present(data.refreshToken) ==> r.refreshToken == o.refreshToken
    ensures r.expiresAt == now + LifetimeSeconds(data.expiresIn) * 1000
  {
    OAuth(data.accessToken, if Present(data.refreshToken) then data.refreshToken else o.refreshToken,
          now + LifetimeSeconds(data.expiresIn) * 1000)
  }

  /** A grant keeps the account connected once it was connected. */
  lemma GrantedKeepsConnection(o: OAuth, data: TokenResponse, now: int)
    requires Present(o.refreshToken)
    ensures Present(Granted(o, data, now).refreshToken)
  {
  }

  /** The margin `getAccessToken` keeps before the expiry, in milliseconds. */
  const RefreshMarginMs := 30000

  /** `_oauth.accessToken && now() < _oauth.expiresAt - 30_000` */
  predicate CachedUsable(o: OAuth, now: int) {
    Present(o.accessToken) && now < o.expiresAt - RefreshMarginMs
  }

  /** A granted access token is served from the cache exactly until 30 seconds before the
      end of its lifetime. */
  lemma GrantedTokenLife(o: OAuth, data: TokenResponse, now: int, later: int)
    requires Present(data.accessToken)
    ensures CachedUsable(Granted(o, data, now), later) <==>
      later < now + LifetimeSeconds(data.expiresIn) * 1000 - RefreshMarginMs
  {
  }

  /** The reply of `status`: `accessTokenExpiresIn` is in whole seconds. */
  datatype StatusReply = StatusReply(connected: bool, expiresIn: Option<int>)

  /** `status`: connected means a refresh token is stored; the remaining lifetime of the
      access token is rounded down to seconds and never negative, and absent without a token
      or an expiry. */
  function StatusOf(o: OAuth, now: int): (r: StatusReply)
    ensures r.connected <==> Present(o.refreshToken)
    ensures r.expiresIn.None? <==> !Present(o.accessToken) || o.expiresAt == 0
    ensures r.expiresIn.Some? ==> r.expiresIn.value >= 0
    ensures r.expiresIn.Some? && o.expiresAt <= now ==> r.expiresIn.value == 0
    ensures r.expiresIn.Some? && o.expiresAt > now ==>
      r.expiresIn.value * 1000 <= o.expiresAt - now < r.expiresIn.value * 1000 + 1000
  {
    var left := (o.expiresAt - now) / 1000;
    StatusReply(Present(o.refreshToken),
                if Present(o.accessToken) && o.expiresAt != 0 then Some(if left < 0 then 0 else left) else None)
  }

  /** After a reset the account reads as disconnected and the cache is empty. */
  lemma ClearedIsDisconnected(now: int)
    ensures StatusOf(Cleared, now) == StatusReply(false, None)
    ensures !CachedUsable(Cleared, now)
  {
  }

  datatype LoginReply = LoginFailed | AuthorizeRedirect(state: string, scope: string) {
    function Code(): int {
      match this
      case LoginFailed => 500
      case AuthorizeRedirect(_, _) => 302
    }
  }

  /** How a callback ends. With the front-end URLs configured the success and failure
      answers are redirects instead of pages; the kind of outcome is the same. */
  datatype CallbackReply = ProviderError(error: string) | InvalidCallback | CallbackFailed | Connected {
    function Code(): int {
      match this
      case ProviderError(_) => 400
      case InvalidCallback => 400
      case CallbackFailed => 500
      case Connected => 200
    }
  }

  datatype TokenResult = TokenError | Token(token: Option<string>)

  /** The controller's module-level state: `_oauth` and `_pendingStates`. */
  class AuthState {
    var oauth: OAuth
    var pendingStates: set<string>

    constructor ()
      ensures oauth == Cleared && pendingStates == {}
    {
      oauth := Cleared;
      pendingStates := {};
    }

    /** `login`. `configured` says the client id and redirect URI are set; `newState` is the
        generated `state`. */
    method Login(configured: bool, scopesEnv: Option<string>, newState: string) returns (reply: LoginReply)
      modifies this`pendingStates
      ensures reply.LoginFailed? <==> !configured
      ensures !configured ==> pendingStates == old(pendingStates)
      ensures configured ==>
        && pendingStates == old(pendingStates) + {newState}
        && reply == AuthorizeRedirect(newState, GetScopes(scopesEnv))
    {
      if !configured {
        return LoginFailed;
      }
      pendingStates := pendingStates + {newState};
      reply := AuthorizeRedirect(newState, GetScopes(scopesEnv));
    }

    /** `exchangeCodeForTokens` */
    method ExchangeCodeForTokens(call: TokenCall, now: int) returns (ok: bool)
      modifies this`oauth
      ensures ok <==> call.CallOk?
      ensures oauth == if ok then Granted(old(oauth), call.data, now) else old(oauth)
    {
      if call.CallFailed? {
        return false;
      }
      oauth := Granted(oauth, call.data, now);
      ok := true;
    }

    /** `callback`. The `state` is consumed before the code is exchanged, so it cannot be
        replayed even when the exchange fails. */
    method Callback(error: Option<string>, code: Option<string>, state: Option<string>,
                    call: TokenCall, now: int) returns (reply: CallbackReply)
      modifies this
      ensures reply.ProviderError? <==> Present(error)
      ensures reply.InvalidCallback? <==>
        !Present(error) && !(Present(code) && Present(state) && state.value in old(pendingStates))
      ensures reply.ProviderError? || reply.InvalidCallback? ==>
        oauth == old(oauth) && pendingStates == old(pendingStates)
      ensures reply.CallbackFailed? || reply.Connected? ==>
        && pendingStates == old(pendingStates) - {state.value}
        && (reply.Connected? <==> call.CallOk?)
        && oauth == if call.CallOk? then Granted(old(oauth), call.data, now) else old(oauth)
    {
      if Present(error) {
        return ProviderError(error.value);
      }
      if !Present(code) || !Present(state) || state.value !in pendingStates {
        return InvalidCallback;
      }
      pendingStates := pendingStates - {state.value};
      var ok := ExchangeCodeForTokens(call, now);
      reply := if ok then Connected else CallbackFailed;
    }

    /** `refreshAccessToken`: refused without a stored refresh token. */
    method RefreshAccessToken(call: TokenCall, now: int) returns (ok: bool)
      modifies this`oauth
      ensures ok <==> Present(old(oauth).refreshToken) && call.CallOk?
      ensures oauth == if ok then Granted(old(oauth), call.data, now) else old(oauth)
    {
      if !Present(oauth.refreshToken) || call.CallFailed? {
        return false;
      }
      oauth := Granted(oauth, call.data, now);
      ok := true;
    }

    /** `getAccessToken`: the cached token while it is usable, otherwise a refresh. */
    method GetAccessToken(call: TokenCall, now: int) returns (r: TokenResult)
      modifies this`oauth
      ensures CachedUsable(old(oauth), now) ==> r == Token(old(oauth).accessToken) && oauth == old(oauth)
      ensures !CachedUsable(old(oauth), now) ==>
        && (r.Token? <==> Present(old(oauth).refreshToken) && call.CallOk?)
        && oauth == (if r.Token? then Granted(old(oauth), call.data, now) else old(oauth))
        && (r.Token? ==> r.token == oauth.accessToken)
    {
      if CachedUsable(oauth, now) {
        return Token(oauth.accessToken);
      }
      var ok := RefreshAccessToken(call, now);
      r := if ok then Token(oauth.accessToken) else TokenError;
    }

    /** `status` */
    function Status(now: int): (r: StatusReply)
      reads this
      ensures r == StatusOf(oauth, now)
    {
      StatusOf(oauth, now)
    }

    /** `_devReset`: all three token fields cleared; pending states stay. */
    method DevReset()
      modifies this`oauth
      ensures oauth == Cleared
    {
      oauth := Cleared;
    }
  }

  /** A `state` is good for one callback: after a callback that got past the check, a second
      callback with the same `state` is refused, whatever the token call answers. */
  method StateIsSingleUse(auth: AuthState, code: string, state: string, call1: TokenCall,
                          call2: TokenCall, now: int)
    returns (first: CallbackReply, second: CallbackReply)
    modifies auth
    ensures first.Connected? || first.CallbackFailed? ==> second == InvalidCallback
  {
    first := auth.Callback(None, Some(code), Some(state), call1, now);
    second := auth.Callback(None, Some(code), Some(state), call2, now);
  }
}

=== FILE: strings.dfy ===
/** String operations of JavaScript's String.prototype, as the backend uses them:
    trim, startsWith, includes, ASCII case mapping, join and split on whitespace runs. */
module Strings {
  import opened Collections

  /** The characters JavaScript's `trim` removes and its regular-expression class `\s`
      matches: the WhiteSpace and LineTerminator productions of ECMA-262. */
  predicate IsJsWhitespace(c: char) {
    c == '\t' || c == '\n' || c == '\U{000B}' || c == '\U{000C}' || c == '\r' || c == ' '
    || c == '\U{00A0}' || c == '\U{1680}' || ('\U{2000}' <= c <= '\U{200A}')
    || c == '\U{2028}' || c == '\U{2029}' || c == '\U{202F}' || c == '\U{205F}'
    || c == '\U{3000}' || c == '\U{FEFF}'
  }

  /** No whitespace at either end. */
  predicate Trimmed(s: string) {
    s == [] || (!IsJsWhitespace(s[0]) && !IsJsWhitespace(s[|s| - 1]))
  }

  function TrimStart(s: string): (r: string)
    ensures |r| <= |s| && r == s[|s| - |r|..]
    ensures r == [] || !IsJsWhitespace(r[0])
    ensures forall i :: 0 <= i < |s| - |r| ==> IsJsWhitespace(s[i])
    ensures s != [] && IsJsWhitespace(s[0]) ==> |r| < |s|
  {
    if s != [] && IsJsWhitespace(s[0]) then TrimStart(s[1..]) else s
  }

  function TrimEnd(s: string): (r: string)
    ensures |r| <= |s| && r == s[..|r|]
    ensures r == [] || !IsJsWhitespace(r[|r| - 1])
    ensures forall i :: |r| <= i < |s| ==> IsJsWhitespace(s[i])
  {
    if s != [] && IsJsWhitespace(s[|s| - 1]) then TrimEnd(s[..|s| - 1]) else s
  }

  /** `s.trim()`: the infix of `s` left after removing whitespace from both ends. */
  function Trim(s: string): (r: string)
    ensures Trimmed(r)
    ensures |r| <= |s|
  {
    var t := TrimStart(s);
    var r := TrimEnd(t);
    assert r != [] ==> r[0] == t[0];
    r
  }

  /** `Trim(s)` is the infix of `s` that starts where the leading whitespace ends. */
  lemma TrimIsInfix(s: string)
    ensures var k := |s| - |TrimStart(s)|;
      k + |Trim(s)| <= |s| && Trim(s) == s[k..k + |Trim(s)|]
  {
  }

  /** Everything of `s` outside `Trim(s)` is whitespace. */
  lemma TrimDropsOnlyWhitespace(s: string)
    ensures var k, r := |s| - |TrimStart(s)|, Trim(s);
      && (forall i :: 0 <= i < k ==> IsJsWhitespace(s[i]))
      && (forall i :: k + |r| <= i < |s| ==> IsJsWhitespace(s[i]))
  {
    var t := TrimStart(s);
    var r := TrimEnd(t);
    assert Trim(s) == r;
    TailOfSuffix(s, t, |r|, IsJsWhitespace);
  }

  /** A prefix of a suffix is an infix of the whole. */
  lemma HeadOfSuffix(s: string, t: string, n: nat)
    requires |t| <= |s| && t == s[|s| - |t|..] && n <= |t|
    ensures t[..n] == s[|s| - |t|..|s| - |t| + n]
  {
  }

  /** A property of the tail of a suffix is a property of the tail of the whole. */
  lemma TailOfSuffix(s: string, t: string, n: nat, p: char -> bool)
    requires |t| <= |s| && t == s[|s| - |t|..] && n <= |t|
    requires forall i :: n <= i < |t| ==> p(t[i])
    ensures forall i :: |s| - |t| + n <= i < |s| ==> p(s[i])
  {
    var k := |s| - |t|;
    forall i | k + n <= i < |s| ensures p(s[i]) {
      assert s[i] == t[i - k];
    }
  }

  /** A string without whitespace at its ends is its own trim. */
  lemma TrimOfTrimmed(s: string)
    requires Trimmed(s)
    ensures Trim(s) == s
  {
  }

  /** `trim` is idempotent. */
  lemma TrimIdempotent(s: string)
    ensures Trim(Trim(s)) == Trim(s)
  {
    TrimOfTrimmed(Trim(s));
  }

  /** `s.startsWith(p)` */
  predicate StartsWith(s: string, p: string) {
    |p| <= |s| && s[..|p|] == p
  }

  /** `s.includes(sub)`: `sub` occurs in `s` at some position (the empty string occurs everywhere). */
  predicate Contains(s: string, sub: string)
    decreases |s|
  {
    StartsWith(s, sub) || (s != [] && Contains(s[1..], sub))
  }

  /** `includes` agrees with the definition by positions. */
  lemma {:induction false} ContainsAt(s: string, sub: string, k: nat)
    requires k + |sub| <= |s| && s[k..k + |sub|] == sub
    ensures Contains(s, sub)
    decreases k
  {
    if k == 0 {
      assert s[..|sub|] == sub;
    } else {
      assert s[1..][k - 1..k - 1 + |sub|] == s[k..k + |sub|];
      ContainsAt(s[1..], sub, k - 1);
    }
  }

  /** A string contains its own suffix. */
  lemma ContainsSuffix(p: string, sub: string)
    ensures Contains(p + sub, sub)
  {
    assert (p + sub)[|p|..|p| + |sub|] == sub;
    ContainsAt(p + sub, sub, |p|);
  }

  /** What a string contains, it still contains with more appended. */
  lemma {:induction false} ContainsExtended(s: string, sub: string, t: string)
    requires Contains(s, sub)
    ensures Contains(s + t, sub)
    decreases |s|
  {
    if StartsWith(s, sub) {
      assert (s + t)[..|sub|] == s[..|sub|];
    } else {
      assert (s + t)[1..] == s[1..] + t;
      ContainsExtended(s[1..], sub, t);
    }
  }

  /** Lexicographic order by code point, the order of the strings' UTF-8 bytes. */
  predicate TextLe(a: string, b: string)
    decreases |a|
  {
    a == [] || (b != [] && (a[0] < b[0] || (a[0] == b[0] && TextLe(a[1..], b[1..]))))
  }

  lemma {:induction false} TextLeTotal(a: string, b: string)
    ensures TextLe(a, b) || TextLe(b, a)
    decreases |a|
  {
    if a != [] && b != [] && a[0] == b[0] {
      TextLeTotal(a[1..], b[1..]);
    }
  }

  lemma {:induction false} TextLeTrans(a: string, b: string, c: string)
    requires TextLe(a, b) && TextLe(b, c)
    ensures TextLe(a, c)
    decreases |a|
  {
    if a != [] && a[0] == b[0] && b[0] == c[0] {
      TextLeTrans(a[1..], b[1..], c[1..]);
    }
  }

  predicate IsAsciiUpper(c: char) { 'A' <= c <= 'Z' }
  predicate IsAsciiLower(c: char) { 'a' <= c <= 'z' }
  predicate IsDigit(c: char) { '0' <= c <= '9' }

  function LowerChar(c: char): char {
    if IsAsciiUpper(c) then (c as int + 32) as char else c
  }

  function UpperChar(c: char): char {
    if IsAsciiLower(c) then (c as int - 32) as char else c
  }

  /** `toLowerCase`, restricted to the ASCII letters. */
  function LowerAscii(s: string): (r: string)
    ensures |r| == |s|
    ensures forall i :: 0 <= i < |s| ==> r[i] == LowerChar(s[i])
  {
    seq(|s|, i requires 0 <= i < |s| => LowerChar(s[i]))
  }

  lemma LowerAsciiConcat(a: string, b: string)
    ensures LowerAscii(a + b) == LowerAscii(a) + LowerAscii(b)
  {
  }

  lemma LowerAsciiKeeps(s: string)
    requires forall i :: 0 <= i < |s| ==> !IsAsciiUpper(s[i])
    ensures LowerAscii(s) == s
  {
  }

  /** `toUpperCase`, restricted to the ASCII letters. */
  function UpperAscii(s: string): (r: string)
    ensures |r| == |s|
    ensures forall i :: 0 <= i < |s| ==> r[i] == UpperChar(s[i])
  {
    seq(|s|, i requires 0 <= i < |s| => UpperChar(s[i]))
  }

  /** Lower-casing forgets an earlier upper-casing. */
  lemma LowerOfUpper(s: string)
    ensures LowerAscii(UpperAscii(s)) == LowerAscii(s)
  {
    var u, l := LowerAscii(UpperAscii(s)), LowerAscii(s);
    forall i | 0 <= i < |s| ensures u[i] == l[i] {
      assert u[i] == LowerChar(UpperChar(s[i]));
    }
  }

  /** `parts.join(sep)` */
  function Join(parts: seq<string>, sep: string): string {
    if parts == [] then []
    else if |parts| == 1 then parts[0]
    else parts[0] + sep + Join(parts[1..], sep)
  }

  /** Length of the longest prefix of `s` whose characters all satisfy `p`. */
  function Span(s: string, p: char -> bool): (n: nat)
    ensures n <= |s|
    ensures forall j :: 0 <= j < n ==> p(s[j])
    ensures n < |s| ==> !p(s[n])
  {
    if s == [] || !p(s[0]) then 0 else 1 + Span(s[1..], p)
  }

  /** The span is the first position where `p` fails, or the length when it never does. */
  lemma SpanStops(s: string, p: char -> bool, k: nat)
    requires k <= |s| && forall j :: 0 <= j < k ==> p(s[j])
    requires k < |s| ==> !p(s[k])
    ensures Span(s, p) == k
  {
  }

  /** Index of the first `sep` in `s`, or `|s|` when there is none. */
  function IndexOfChar(s: string, sep: char): (i: nat)
    ensures i <= |s|
    ensures forall j :: 0 <= j < i ==> s[j] != sep
    ensures i < |s| ==> s[i] == sep
  {
    if s == [] || s[0] == sep then 0 else 1 + IndexOfChar(s[1..], sep)
  }

  /** `s.split(sep)` for a one-character separator: the pieces between separators, in
      order, empty ones included. */
  function SplitChar(s: string, sep: char): (parts: seq<string>)
    ensures |parts| >= 1
    ensures forall k :: 0 <= k < |parts| ==> sep !in parts[k]
    decreases |s|
  {
    var i := IndexOfChar(s, sep);
    assert sep !in s[..i] by {
      forall j | 0 <= j < i ensures s[..i][j] != sep { }
    }
    if i == |s| then [s] else [s[..i]] + SplitChar(s[i + 1..], sep)
  }

  /** A string without the separator is a single piece. */
  lemma SplitCharNone(s: string, sep: char)
    requires sep !in s
    ensures SplitChar(s, sep) == [s]
  {
    forall j | 0 <= j < |s| ensures s[j] != sep {
      assert s[j] in s;
    }
  }

  /** The first separator ends the first piece. */
  lemma SplitCharCons(x: string, sep: char, y: string)
    requires sep !in x
    ensures SplitChar(x + [sep] + y, sep) == [x] + SplitChar(y, sep)
  {
    var s := x + [sep] + y;
    var i := IndexOfChar(s, sep);
    forall j | 0 <= j < |x| ensures s[j] != sep {
      assert s[j] == x[j] && x[j] in x;
    }
    assert s[|x|] == sep;
    assert s[..i] == x && s[i + 1..] == y;
  }

  /** Joining the pieces with the separator gives back the string. */
  lemma {:induction false} SplitCharJoin(s: string, sep: char)
    ensures Join(SplitChar(s, sep), [sep]) == s
    decreases |s|
  {
    var i := IndexOfChar(s, sep);
    if i < |s| {
      SplitCharJoin(s[i + 1..], sep);
      JoinCons(s[..i], SplitChar(s[i + 1..], sep), [sep]);
      SplitAround(s, i);
    }
  }

  lemma SplitAround(s: string, i: nat)
    requires i < |s|
    ensures s == s[..i] + [s[i]] + s[i + 1..]
  {
  }

  /** Index of the first whitespace character of `s`, or `|s|` when there is none. */
  function FirstWhitespace(s: string): (i: nat)
    ensures i <= |s|
    ensures i < |s| ==> IsJsWhitespace(s[i])
    ensures forall j :: 0 <= j < i ==> !IsJsWhitespace(s[j])
  {
    if s == [] || IsJsWhitespace(s[0]) then 0 else 1 + FirstWhitespace(s[1..])
  }

  /** `s.replace(/\s+/g, " ")`: every maximal whitespace run replaced by one space. */
  function Collapse(s: string): string
    decreases |s|
  {
    if s == [] then []
    else if IsJsWhitespace(s[0]) then " " + Collapse(TrimStart(s))
    else [s[0]] + Collapse(s[1..])
  }

  /** A word in front passes through `Collapse` unchanged. */
  lemma {:induction false} CollapseWord(w: string, t: string)
    requires forall j :: 0 <= j < |w| ==> !IsJsWhitespace(w[j])
    ensures Collapse(w + t) == w + Collapse(t)
    decreases |w|
  {
    if w == [] {
      assert w + t == t;
    } else {
      assert (w + t)[0] == w[0] && (w + t)[1..] == w[1..] + t;
      CollapseWord(w[1..], t);
    }
  }

  /** `s.split(/\s+/)`: the pieces between maximal whitespace runs, including the empty
      pieces before a leading run and after a trailing one. */
  function SplitWhitespace(s: string): (parts: seq<string>)
    ensures |parts| >= 1
    ensures forall k, j :: 0 <= k < |parts| && 0 <= j < |parts[k]| ==> !IsJsWhitespace(parts[k][j])
    decreases |s|
  {
    var i := FirstWhitespace(s);
    if i == |s| then [s]
    else
      var w, rest := s[..i], SplitWhitespace(TrimStart(s[i..]));
      PrefixAvoids(s, i, IsJsWhitespace);
      PiecesAvoid(w, rest, IsJsWhitespace);
      [w] + rest
  }

  /** A piece and pieces without a `p` character make pieces without one. */
  lemma PiecesAvoid(w: string, rest: seq<string>, p: char -> bool)
    requires forall j :: 0 <= j < |w| ==> !p(w[j])
    requires forall k, j :: 0 <= k < |rest| && 0 <= j < |rest[k]| ==> !p(rest[k][j])
    ensures forall k, j :: 0 <= k < |[w] + rest| && 0 <= j < |([w] + rest)[k]| ==> !p(([w] + rest)[k][j])
  {
    forall k, j | 0 <= k < |[w] + rest| && 0 <= j < |([w] + rest)[k]| ensures !p(([w] + rest)[k][j]) {
      if k > 0 {
        assert ([w] + rest)[k] == rest[k - 1];
      }
    }
  }

  /** A whitespace run collapses to one space in front of what follows it. */
  lemma CollapseRun(u: string)
    requires u != [] && IsJsWhitespace(u[0])
    ensures Collapse(u) == " " + Collapse(TrimStart(u))
  {
  }

  /** Joining a word in front of at least one more piece puts one separator after it. */
  lemma JoinCons(w: string, rest: seq<string>, sep: string)
    requires rest != []
    ensures Join([w] + rest, sep) == w + sep + Join(rest, sep)
  {
    assert ([w] + rest)[0] == w && ([w] + rest)[1..] == rest;
  }

  /** The first whitespace character ends the first piece. */
  lemma SplitWhitespaceCons(s: string, i: nat)
    requires i == FirstWhitespace(s) && i < |s|
    ensures SplitWhitespace(s) == [s[..i]] + SplitWhitespace(TrimStart(s[i..]))
  {
  }

  /** A prefix keeps what no character of it satisfies. */
  lemma PrefixAvoids(s: string, n: nat, p: char -> bool)
    requires n <= |s|
    requires forall j :: 0 <= j < n ==> !p(s[j])
    ensures forall j :: 0 <= j < |s[..n]| ==> !p(s[..n][j])
  {
    forall j | 0 <= j < n ensures !p(s[..n][j]) {
      assert s[..n][j] == s[j];
    }
  }

  lemma SplitAt(s: string, n: nat)
    requires n <= |s|
    ensures s[..n] + s[n..] == s
  {
  }

  /** Everything before the first whitespace character passes through `Collapse`. */
  lemma CollapseUpToWhitespace(s: string, i: nat)
    requires i == FirstWhitespace(s)
    ensures Collapse(s) == s[..i] + Collapse(s[i..])
  {
    PrefixAvoids(s, i, IsJsWhitespace);
    CollapseWord(s[..i], s[i..]);
    SplitAt(s, i);
  }

  lemma Reassociate(w: string, x: string)
    ensures w + " " + x == w + (" " + x)
  {
  }

  /** One step of `SplitWhitespaceJoin`: the first piece, one space, and the rest. */
  lemma SplitWhitespaceJoinStep(s: string, i: nat)
    requires i == FirstWhitespace(s) && i < |s|
    requires Join(SplitWhitespace(TrimStart(s[i..])), " ") == Collapse(TrimStart(s[i..]))
    ensures Join(SplitWhitespace(s), " ") == Collapse(s)
  {
    var w, u := s[..i], s[i..];
    var t := TrimStart(u);
    SplitWhitespaceCons(s, i);
    JoinCons(w, SplitWhitespace(t), " ");
    CollapseRun(u);
    CollapseUpToWhitespace(s, i);
    Reassociate(w, Join(SplitWhitespace(t), " "));
  }

  /** The pieces joined with one space give `s` with each whitespace run collapsed: no
      character is lost, and a piece ends exactly where a run begins. */
  lemma {:induction false} SplitWhitespaceJoin(s: string)
    ensures Join(SplitWhitespace(s), " ") == Collapse(s)
    decreases |s|
  {
    var i := FirstWhitespace(s);
    if i == |s| {
      CollapseWord(s, []);
      assert s + [] == s;
    } else {
      SplitWhitespaceJoin(TrimStart(s[i..]));
      SplitWhitespaceJoinStep(s, i);
    }
  }

  predicate IsWord(w: string) { w != [] }

  /** `parts.filter(Boolean)` on strings: the non-empty parts, in order. */
  function NonEmpty(parts: seq<string>): (r: seq<string>)
    ensures forall k :: 0 <= k < |r| ==> r[k] != [] && r[k] in parts
    ensures forall x :: x in parts && x != [] ==> x in r
  {
    if parts == [] then []
    else if parts[0] == [] then NonEmpty(parts[1..])
    else [parts[0]] + NonEmpty(parts[1..])
  }

  /** An empty piece in front of non-empty ones is dropped. */
  lemma {:induction false} NonEmptyKeeps(parts: seq<string>)
    requires forall k :: 0 <= k < |parts| ==> parts[k] != []
    ensures NonEmpty([""] + parts) == parts
  {
    NonEmptyAll(parts);
    assert ([""] + parts)[1..] == parts;
  }

  lemma {:induction false} NonEmptyAll(parts: seq<string>)
    requires forall k :: 0 <= k < |parts| ==> parts[k] != []
    ensures NonEmpty(parts) == parts
  {
    if parts != [] {
      NonEmptyAll(parts[1..]);
    }
  }

  /** `NonEmpty` is the filter on non-empty strings, so it keeps the parts' order. */
  lemma {:induction false} NonEmptyIsFilter(parts: seq<string>)
    ensures NonEmpty(parts) == Filter(parts, IsWord)
  {
    if parts != [] {
      NonEmptyIsFilter(parts[1..]);
    }
  }

  /** `s.split(/\s+/).filter(Boolean)`: the words of `s`. */
  function Words(s: string): seq<string> {
    NonEmpty(SplitWhitespace(s))
  }

  /** Words separated by single spaces: no whitespace but ' ', no leading, trailing or
      doubled space. */
  predicate SingleSpaced(s: string) {
    && Trimmed(s)
    && (forall i :: 0 <= i < |s| && IsJsWhitespace(s[i]) ==> s[i] == ' ')
    && (forall i, j :: 0 <= i < |s| && 0 <= j < |s| && j == i + 1 ==> !(s[i] == ' ' && s[j] == ' '))
  }

  /** Joining non-empty whitespace-free words with one space gives a single-spaced string. */
  lemma {:induction false} JoinWordsSingleSpaced(ws: seq<string>)
    requires forall k :: 0 <= k < |ws| ==> ws[k] != []
    requires forall k, j :: 0 <= k < |ws| && 0 <= j < |ws[k]| ==> !IsJsWhitespace(ws[k][j])
    ensures SingleSpaced(Join(ws, " "))
    ensures ws != [] ==> Join(ws, " ") != [] && Join(ws, " ")[0] == ws[0][0]
  {
    if |ws| > 1 {
      JoinWordsSingleSpaced(ws[1..]);
      var t := Join(ws[1..], " ");
      var r := ws[0] + " " + t;
      assert r == Join(ws, " ");
      forall i | 0 <= i < |r| && IsJsWhitespace(r[i]) ensures r[i] == ' ' {
        if i > |ws[0]| { assert r[i] == t[i - |ws[0]| - 1]; }
      }
      forall i, j | 0 <= i < j < |r| && j == i + 1 ensures !(r[i] == ' ' && r[j] == ' ') {
        if i > |ws[0]| { assert r[i] == t[i - |ws[0]| - 1] && r[j] == t[i - |ws[0]|]; }
        else if i == |ws[0]| { assert r[j] == t[0] == ws[1][0]; }
      }
    }
  }

  /** A suffix of a single-spaced string that starts on a word is single-spaced. */
  lemma SingleSpacedSuffix(s: string, k: nat)
    requires SingleSpaced(s) && k < |s| && !IsJsWhitespace(s[k])
    ensures SingleSpaced(s[k..])
  {
    var rest := s[k..];
    forall j, m | 0 <= j < |rest| && 0 <= m < |rest| && m == j + 1
      ensures !(rest[j] == ' ' && rest[m] == ' ')
    {
      assert rest[j] == s[k + j] && rest[m] == s[k + m];
    }
    forall j | 0 <= j < |rest| && IsJsWhitespace(rest[j]) ensures rest[j] == ' ' {
      assert rest[j] == s[k + j];
    }
  }

  /** In a single-spaced string the first whitespace is one inner space, and what follows it
      is single-spaced again. */
  lemma SingleSpacedAfterSpace(s: string, i: nat)
    requires SingleSpaced(s) && i == FirstWhitespace(s) && i < |s|
    ensures 0 < i < |s| - 1 && s[i] == ' '
    ensures TrimStart(s[i..]) == s[i + 1..]
    ensures SingleSpaced(s[i + 1..])
  {
    assert s[i] == ' ';
    assert 0 < i < |s| - 1;
    assert !IsJsWhitespace(s[i + 1]);
    assert TrimStart(s[i..]) == s[i + 1..] by {
      assert s[i..][1..] == s[i + 1..];
    }
    SingleSpacedSuffix(s, i + 1);
  }

  /** Splitting a single-spaced string on whitespace and dropping empty pieces gives back its
      words, and joining them with one space rebuilds it. */
  lemma {:induction false} SplitJoinSingleSpaced(s: string)
    requires SingleSpaced(s)
    ensures Join(Words(s), " ") == s
    ensures s != [] ==> Words(s) != []
    decreases |s|
  {
    var i := FirstWhitespace(s);
    if i < |s| {
      SingleSpacedAfterSpace(s, i);
      var rest := s[i + 1..];
      SplitJoinSingleSpaced(rest);
      var tail := Words(rest);
      assert SplitWhitespace(s) == [s[..i]] + SplitWhitespace(rest);
      assert Words(s) == [s[..i]] + tail by {
        assert ([s[..i]] + SplitWhitespace(rest))[1..] == SplitWhitespace(rest);
      }
      assert s == s[..i] + " " + rest;
    }
  }

  /** A word followed by whitespace is the first word. */
  lemma WordsCons(s: string, i: nat)
    requires i == FirstWhitespace(s) && 0 < i < |s|
    ensures Words(s) == [s[..i]] + Words(TrimStart(s[i..]))
  {
    var rest := SplitWhitespace(TrimStart(s[i..]));
    assert SplitWhitespace(s) == [s[..i]] + rest;
    assert ([s[..i]] + rest)[1..] == rest;
  }

  /** A word, one space and a string starting on a word: the word comes first. */
  lemma WordsAfterSpace(w: string, t: string)
    requires w != [] && forall j :: 0 <= j < |w| ==> !IsJsWhitespace(w[j])
    requires t != [] && !IsJsWhitespace(t[0])
    ensures Words(w + " " + t) == [w] + Words(t)
  {
    var s := w + " " + t;
    assert FirstWhitespace(s) == |w| by {
      var i := FirstWhitespace(s);
      assert s[|w|] == ' ' && IsJsWhitespace(' ');
      assert forall j :: 0 <= j < |w| ==> s[j] == w[j];
    }
    assert TrimStart(s[|w|..]) == t by {
      assert s[|w|..] == " " + t && (" " + t)[1..] == t;
    }
    WordsCons(s, |w|);
    assert s[..|w|] == w;
  }

  /** The words of words joined with single spaces are those words. */
  lemma {:induction false} WordsOfJoin(ws: seq<string>)
    requires forall k :: 0 <= k < |ws| ==> ws[k] != []
    requires forall k, j :: 0 <= k < |ws| && 0 <= j < |ws[k]| ==> !IsJsWhitespace(ws[k][j])
    ensures Words(Join(ws, " ")) == ws
  {
    if ws == [] {
      assert SplitWhitespace([]) == [[]];
    } else if |ws| == 1 {
      assert FirstWhitespace(ws[0]) == |ws[0]|;
      assert SplitWhitespace(ws[0]) == [ws[0]];
      assert NonEmpty([ws[0]]) == [ws[0]] + NonEmpty([]);
    } else {
      var w, t := ws[0], Join(ws[1..], " ");
      assert forall k :: 0 <= k < |ws| - 1 ==> ws[1..][k] == ws[k + 1];
      JoinWordsSingleSpaced(ws[1..]);
      WordsOfJoin(ws[1..]);
      assert t[0] == ws[1][0] && !IsJsWhitespace(ws[1][0]);
      WordsAfterSpace(w, t);
      assert Join(ws, " ") == w + " " + t;
      assert [w] + ws[1..] == ws;
    }
  }
}

=== FILE: token_store.dfy ===
/** The in-memory store of the player account's tokens: an access token with an expiry
    that keeps a 30-second safety margin, a refresh token and the granted scope. */
module SpotifyTokenStore {
  import opened Js

  /** The safety margin taken off the token's lifetime, in seconds. */
  const MarginSeconds := 30

  /** A copy of the store's four fields, as `getTokens` returns it. `expiresAt` is in
      milliseconds, 0 when unset. */
  datatype Tokens = Tokens(accessToken: Option<string>, refreshToken: Option<string>,
                           expiresAt: int, scope: Option<string>)

  /** The store at start-up: no tokens and `expiresAt = 0`. */
  const Initial := Tokens(None, None, 0, None)

  /** `isExpired`: there is no access token, or its time is up. */
  predicate Expired(t: Tokens, now: int) {
    !Present(t.accessToken) || now >= t.expiresAt
  }

  /** `setTokens`: each field takes the supplied value only when that value is truthy; the
      expiry is recomputed only when `expires_in` is a number, and then ends `MarginSeconds`
      early. */
  function WithTokens(t: Tokens, access: Option<string>, refresh: Option<string>,
                      expiresIn: JsValue, scope: Option<string>, now: int): (r: Tokens)
    ensures Present(access) ==> r.accessToken == access
    ensures !Present(access) ==> r.accessToken == t.accessToken
    ensures Present(refresh) ==> r.refreshToken == refresh
    ensures !Present(refresh) ==> r.refreshToken == t.refreshToken
    ensures Present(scope) ==> r.scope == scope
    ensures !Present(scope) ==> r.scope == t.scope
    ensures expiresIn.Num? ==> r.expiresAt == now + (expiresIn.n - MarginSeconds) * 1000
    ensures !expiresIn.Num? ==> r.expiresAt == t.expiresAt
  {
    Tokens(
      if Present(access) then access else t.accessToken,
      if Present(refresh) then refresh else t.refreshToken,
      if expiresIn.Num? then now + (expiresIn.n - MarginSeconds) * 1000 else t.expiresAt,
      if Present(scope) then scope else t.scope)
  }

  /** The store starts expired, whatever the clock says. */
  lemma InitialExpired(now: int)
    ensures Expired(Initial, now)
  {
  }

  /** A freshly stored access token with a lifetime of `e` seconds is usable exactly until
      `MarginSeconds` before the end of that lifetime. */
  lemma FreshTokenLife(t: Tokens, access: Option<string>, refresh: Option<string>, e: int,
                       scope: Option<string>, now: int, later: int)
    requires Present(access)
    ensures !Expired(WithTokens(t, access, refresh, Num(e), scope, now), later) <==>
      later < now + e * 1000 - MarginSeconds * 1000
  {
  }

  /** Without a number for `expires_in` the expiry stays: a new access token stored after the
      old one expired is still reported expired. */
  lemma NoLifetimeKeepsExpiry(t: Tokens, access: Option<string>, refresh: Option<string>,
                              scope: Option<string>, now: int)
    requires Expired(t, now) && Present(t.accessToken)
    ensures Expired(WithTokens(t, access, refresh, Str("3600"), scope, now), now)
  {
  }

  /** Storing the same response twice at the same time is the same as storing it once. */
  lemma WithTokensIdempotent(t: Tokens, access: Option<string>, refresh: Option<string>,
                             expiresIn: JsValue, scope: Option<string>, now: int)
    ensures var once := WithTokens(t, access, refresh, expiresIn, scope, now);
      WithTokens(once, access, refresh, expiresIn, scope, now) == once
  {
  }

  /** The module-level `tokenStore` object. */
  class TokenStore {
    var accessToken: Option<string>
    var refreshToken: Option<string>
    var expiresAt: int
    var scope: Option<string>

    constructor ()
      ensures Snapshot() == Initial
    {
      accessToken, refreshToken, expiresAt, scope := None, None, 0, None;
    }

    /** `getTokens`: a copy of all four fields. */
    function Snapshot(): (t: Tokens)
      reads this
      ensures t.accessToken == accessToken && t.refreshToken == refreshToken
      ensures t.expiresAt == expiresAt && t.scope == scope
    {
      Tokens(accessToken, refreshToken, expiresAt, scope)
    }

    /** `setTokens`, at clock time `now`. */
    method SetTokens(access: Option<string>, refresh: Option<string>, expiresIn: JsValue,
                     scope: Option<string>, now: int)
      modifies this
      ensures Snapshot() == WithTokens(old(Snapshot()), access, refresh, expiresIn, scope, now)
    {
      if Present(access) {
        accessToken := access;
      }
      if Present(refresh) {
        refreshToken := refresh;
      }
      if expiresIn.Num? {
        expiresAt := now + (expiresIn.n - MarginSeconds) * 1000;
      }
      if Present(scope) {
        this.scope := scope;
      }
    }

    /** `getAccessToken` */
    function GetAccessToken(): (r: Option<string>)
      reads this
      ensures r == Snapshot().accessToken
    {
      accessToken
    }

    /** `getRefreshToken` */
    function GetRefreshToken(): (r: Option<string>)
      reads this
      ensures r == Snapshot().refreshToken
    {
      refreshToken
    }

    /** `isExpired`, at clock time `now`. */
    predicate IsExpired(now: int)
      reads this
      ensures IsExpired(now) <==> Expired(Snapshot(), now)
    {
      !Present(accessToken) || now >= expiresAt
    }
  }
}

=== FILE: track_uri.dfy ===
/** `normalizeTrackUri`: the canonical `spotify:track:<id>` form of what a customer sends,
    which may be a native URI, an `open.spotify.com/track/<id>` link or a bare id.
    Links are read with the URL parser of the WHATWG URL Standard (section 4.4, basic URL
    parser), reduced here to what decides whether parsing fails and what the path is. */
module TrackUri {
  import opened Strings
  import opened Js

  const TrackPrefix: string := "spotify:track:"
  const LinkMarker: string := "open.spotify.com/track/"

  predicate IsAsciiAlpha(c: char) { IsAsciiUpper(c) || IsAsciiLower(c) }
  predicate IsAsciiAlnum(c: char) { IsAsciiAlpha(c) || IsDigit(c) }

  /** `/^[A-Za-z0-9]+$/` */
  predicate BareId(s: string) {
    s != [] && forall i :: 0 <= i < |s| ==> IsAsciiAlnum(s[i])
  }

  /** `/open\.spotify\.com\/track\//i`. Without the `u` flag a case-insensitive match
      compares upper-case forms, except that a non-ASCII character never matches an ASCII
      one; for this all-ASCII pattern that is ASCII case folding. */
  predicate MentionsTrackLink(s: string) {
    Contains(LowerAscii(s), LinkMarker)
  }

  /** A character from `!` to `~`: printable ASCII other than space. */
  predicate IsVisible(c: char) { '!' <= c <= '~' }

  /** A serialised path segment: no `/`, and only visible ASCII (everything else is
      percent-encoded). */
  predicate PlainSegment(x: string) {
    '/' !in x && forall i :: 0 <= i < |x| ==> IsVisible(x[i])
  }

  // ---------------------------------------------------------------- input clean-up

  /** Leading and trailing C0 controls and spaces are removed. */
  function StripC0(s: string): (r: string)
    ensures |r| <= |s|
    decreases |s|
  {
    if s != [] && s[0] <= ' ' then StripC0(s[1..])
    else if s != [] && s[|s| - 1] <= ' ' then StripC0(s[..|s| - 1])
    else s
  }

  /** Every tab, line feed and carriage return is removed. */
  function RemoveTabNewline(s: string): (r: string)
    ensures |r| <= |s|
  {
    if s == [] then []
    else (if s[0] == '\t' || s[0] == '\n' || s[0] == '\r' then [] else [s[0]]) + RemoveTabNewline(s[1..])
  }

  // ---------------------------------------------------------------- scheme and host

  predicate IsSchemeChar(c: char) {
    IsAsciiAlnum(c) || c == '+' || c == '-' || c == '.'
  }

  /** The special schemes whose URLs have an authority and a hierarchical path (`file`,
      also special, is parsed differently and is not part of this model). */
  predicate IsSpecialScheme(scheme: string) {
    scheme == "http" || scheme == "https" || scheme == "ws" || scheme == "wss" || scheme == "ftp"
  }

  predicate IsSlash(c: char) { c == '/' || c == '\\' }
  predicate IsNotAt(c: char) { c != '@' }

  /** Characters that do not end the authority of a special URL. */
  predicate InAuthority(c: char) { c != '/' && c != '\\' && c != '?' && c != '#' }

  /** Characters that do not end the host (a `:` starts the port). */
  predicate InHost(c: char) { c != ':' }

  /** Characters that do not end the path (`?` starts the query, `#` the fragment). */
  predicate InPath(c: char) { c != '?' && c != '#' }

  /** Forbidden domain code points, the percent sign aside (it is only forbidden once the
      host has been percent-decoded). */
  predicate IsForbiddenHostChar(c: char) {
    c <= '\U{001F}' || c == ' ' || c == '#' || c == '/' || c == ':' || c == '<' || c == '>'
    || c == '?' || c == '@' || c == '[' || c == '\\' || c == ']' || c == '^' || c == '|'
    || c == '\U{007F}'
  }

  predicate HostOk(host: string) {
    host != [] && forall i :: 0 <= i < |host| ==> !IsForbiddenHostChar(host[i])
  }

  /** An empty port, or decimal digits whose value fits in 16 bits. */
  predicate PortOk(port: string) {
    AllDigits(port) && DigitsValue(port) <= 65535
  }

  /** The part of an authority after its last `@`: credentials precede it. */
  function AfterLastAt(s: string): (r: string)
    ensures '@' !in r
    decreases |s|
  {
    var i := Span(s, IsNotAt);
    if i == |s| then
      assert forall j :: 0 <= j < |s| ==> s[j] != '@';
      s
    else AfterLastAt(s[i + 1..])
  }

  // ---------------------------------------------------------------- path

  /** A backslash in a special URL's path is a segment separator like `/`. */
  function BackslashToSlash(s: string): (r: string)
    ensures |r| == |s|
  {
    seq(|s|, i requires 0 <= i < |s| => if s[i] == '\\' then '/' else s[i])
  }

  /** The path percent-encode set: C0 controls, space, `"`, `#`, `<`, `>`, `?`, backquote,
      `{`, `}` and everything above `~`. */
  predicate InPathEncodeSet(c: char) {
    c < '!' || c > '~' || c == '"' || c == '#' || c == '<' || c == '>' || c == '?' || c == '`'
    || c == '{' || c == '}'
  }

  predicate IsUpperHex(c: char) { IsDigit(c) || 'A' <= c <= 'F' }

  function HexDigit(d: nat): (c: char)
    requires d < 16
    ensures IsUpperHex(c)
  {
    "0123456789ABCDEF"[d]
  }

  function PercentByte(b: nat): (r: string)
    requires b < 256
    ensures |r| == 3 && r[0] == '%' && IsUpperHex(r[1]) && IsUpperHex(r[2])
  {
    ['%', HexDigit(b / 16), HexDigit(b % 16)]
  }

  /** The UTF-8 encoding of a character. */
  function Utf8(c: char): (bytes: seq<nat>)
    ensures 1 <= |bytes| <= 4 && forall k :: 0 <= k < |bytes| ==> bytes[k] < 256
  {
    var n := c as int;
    if n < 0x80 then [n]
    else if n < 0x800 then [0xC0 + n / 64, 0x80 + n % 64]
    else if n < 0x10000 then [0xE0 + n / 4096, 0x80 + n / 64 % 64, 0x80 + n % 64]
    else [0xF0 + n / 262144, 0x80 + n / 4096 % 64, 0x80 + n / 64 % 64, 0x80 + n % 64]
  }

  /** Each byte written `%XX`. */
  function PercentBytes(bytes: seq<nat>): (r: string)
    requires forall k :: 0 <= k < |bytes| ==> bytes[k] < 256
    ensures |r| == 3 * |bytes|
    ensures forall i :: 0 <= i < |r| ==> r[i] == '%' || IsUpperHex(r[i])
  {
    if bytes == [] then [] else PercentByte(bytes[0]) + PercentBytes(bytes[1..])
  }

  /** A character encoded as UTF-8, each byte written `%XX`. */
  function PercentUtf8(c: char): (r: string)
    ensures r != [] && forall i :: 0 <= i < |r| ==> r[i] == '%' || IsUpperHex(r[i])
  {
    PercentBytes(Utf8(c))
  }

  function EncodeSegment(seg: string): (r: string)
    ensures '/' !in seg ==> PlainSegment(r)
  {
    if seg == [] then []
    else
      var head := if InPathEncodeSet(seg[0]) then PercentUtf8(seg[0]) else [seg[0]];
      var tail := EncodeSegment(seg[1..]);
      assert '/' !in seg ==> '/' !in seg[1..] && seg[0] != '/' by {
        if '/' !in seg { assert seg[0] in seg; }
      }
      assert '/' !in seg ==> '/' !in head by {
        if '/' !in seg {
          forall i | 0 <= i < |head| ensures head[i] != '/' { }
        }
      }
      head + tail
  }

  function EncodeAll(segs: seq<string>): (r: seq<string>)
    requires forall k :: 0 <= k < |segs| ==> '/' !in segs[k]
    ensures |r| == |segs| && forall k :: 0 <= k < |r| ==> PlainSegment(r[k])
  {
    seq(|segs|, k requires 0 <= k < |segs| => EncodeSegment(segs[k]))
  }

  /** `.` or its percent-encoded spelling. */
  predicate IsSingleDot(seg: string) {
    seg == "." || LowerAscii(seg) == "%2e"
  }

  /** `..` or one of its percent-encoded spellings. */
  predicate IsDoubleDot(seg: string) {
    var l := LowerAscii(seg);
    l == ".." || l == ".%2e" || l == "%2e." || l == "%2e%2e"
  }

  /** Path segments appended one by one to `acc`: `..` drops the last one, `.` is skipped,
      and either of them as the final segment leaves an empty segment behind. */
  function ResolveDots(acc: seq<string>, segs: seq<string>): (r: seq<string>)
    requires forall k :: 0 <= k < |acc| ==> PlainSegment(acc[k])
    requires forall k :: 0 <= k < |segs| ==> PlainSegment(segs[k])
    ensures forall k :: 0 <= k < |r| ==> PlainSegment(r[k])
    decreases |segs|
  {
    if segs == [] then acc
    else
      var seg := segs[0];
      var last := |segs| == 1;
      if IsDoubleDot(seg) then
        var popped := if acc == [] then [] else acc[..|acc| - 1];
        ResolveDots(if last then popped + [""] else popped, segs[1..])
      else if IsSingleDot(seg) then
        ResolveDots(if last then acc + [""] else acc, segs[1..])
      else
        ResolveDots(acc + [seg], segs[1..])
  }

  /** The `pathname` getter: every segment preceded by `/`. */
  function Pathname(segs: seq<string>): string {
    if segs == [] then [] else "/" + (segs[0] + Pathname(segs[1..]))
  }

  /** One step of `SplitPathname`: a slash-free prefix and a slash before a string that
      splits into `[s0] + tail`. */
  lemma SplitAfterSlash(x: string, s0: string, y: string, tail: seq<string>)
    requires '/' !in x && SplitChar(s0 + y, '/') == [s0] + tail
    ensures SplitChar(x + (['/'] + (s0 + y)), '/') == [x] + ([s0] + tail)
  {
    assert x + (['/'] + (s0 + y)) == x + ['/'] + (s0 + y);
    SplitCharCons(x, '/', s0 + y);
  }

  /** No segment holds a `/`. */
  predicate NoSlashes(segs: seq<string>) {
    segs == [] || ('/' !in segs[0] && NoSlashes(segs[1..]))
  }

  /** Segments none of which holds a `/`, stated index by index. */
  lemma {:induction false} NoSlashesOfAll(segs: seq<string>)
    requires forall k :: 0 <= k < |segs| ==> '/' !in segs[k]
    ensures NoSlashes(segs)
  {
    if segs != [] {
      var rest := segs[1..];
      forall k | 0 <= k < |rest| ensures '/' !in rest[k] { assert rest[k] == segs[k + 1]; }
      NoSlashesOfAll(rest);
    }
  }

  /** Splitting a serialised path on `/` gives back its segments after the leading empty piece. */
  lemma {:induction false} SplitPathname(x: string, segs: seq<string>)
    requires '/' !in x && NoSlashes(segs)
    ensures SplitChar(x + Pathname(segs), '/') == [x] + segs
    decreases |segs|
  {
    if segs == [] {
      assert x + Pathname(segs) == x;
      SplitCharNone(x, '/');
    } else {
      var rest := segs[1..];
      SplitPathname(segs[0], rest);
      SplitAfterSlash(x, segs[0], Pathname(rest), rest);
      assert segs == [segs[0]] + rest;
    }
  }

  /** `new URL(s).pathname.split("/").filter(Boolean)`, or `None` when `new URL(s)` throws. */
  function UrlPathParts(input: string): (r: Option<seq<string>>)
    ensures r.Some? ==> forall k :: 0 <= k < |r.value| ==> r.value[k] != [] && PlainSegment(r.value[k])
  {
    var rest := AfterSpecialScheme(input);
    if rest.None? then None
    else
      var body := PathText(rest.value);
      if body.None? then None else Some(PathParts(body.value))
  }

  /** What follows the `scheme:` of an input whose scheme is one of the special ones, after
      the leading C0 controls and spaces and every tab and newline are dropped. */
  function AfterSpecialScheme(input: string): (r: Option<string>)
  {
    var s := RemoveTabNewline(StripC0(input));
    var n := Span(s, IsSchemeChar);
    if s == [] || !IsAsciiAlpha(s[0]) || n == |s| || s[n] != ':' then None
    else if !IsSpecialScheme(LowerAscii(s[..n])) then None
    else Some(s[n + 1..])
  }

  /** The path of what follows the scheme, without its leading slash: the slashes, the
      authority (credentials, host and port) are skipped, and `None` when the host or port
      is not valid. */
  function PathText(rest: string): (r: Option<string>)
  {
    var afterSlashes := rest[Span(rest, IsSlash)..];
    var a := Span(afterSlashes, InAuthority);
    var hostPort := AfterLastAt(afterSlashes[..a]);
    var h := Span(hostPort, InHost);
    var host := hostPort[..h];
    var port := if h < |hostPort| then hostPort[h + 1..] else "";
    if !HostOk(host) || !PortOk(port) then None
    else
      var tail := afterSlashes[a..];
      var pathText := tail[..Span(tail, InPath)];
      Some(if pathText != [] && (pathText[0] == '/' || pathText[0] == '\\') then pathText[1..] else pathText)
  }

  /** `pathname.split("/").filter(Boolean)` for a path: its encoded, dot-resolved segments,
      the empty ones dropped. */
  function PathParts(body: string): (parts: seq<string>)
    ensures forall k :: 0 <= k < |parts| ==> parts[k] != [] && PlainSegment(parts[k])
  {
    var segs := ResolveDots([], EncodeAll(SplitChar(BackslashToSlash(body), '/')));
    NoSlashesOfAll(segs);
    SplitPathname("", segs);
    assert "" + Pathname(segs) == Pathname(segs);
    NonEmpty(SplitChar(Pathname(segs), '/'))
  }

  // ---------------------------------------------------------------- normalisation

  /** The id a track link names: the second non-empty path segment of the parsed URL.
      `None` when the URL does not parse or has fewer than two segments. */
  function LinkTrackId(s: string): (r: Option<string>)
    ensures r.Some? ==> r.value != [] && PlainSegment(r.value)
  {
    var parsed := UrlPathParts(s);
    if parsed.Some? && |parsed.value| >= 2 then Some(parsed.value[1]) else None
  }

  /** `spotify:track:` followed by an id that does not end in whitespace is a trimmed
      string with the prefix. */
  lemma PrefixedShape(id: string)
    requires id != [] && !IsJsWhitespace(id[|id| - 1])
    ensures StartsWith(TrackPrefix + id, TrackPrefix) && Trimmed(TrackPrefix + id)
  {
    assert (TrackPrefix + id)[..|TrackPrefix|] == TrackPrefix;
  }

  /** The id of a link, after the prefix, gives a trimmed URI. */
  lemma LinkIdShape(s: string)
    requires LinkTrackId(s).Some?
    ensures var u := TrackPrefix + LinkTrackId(s).value; StartsWith(u, TrackPrefix) && Trimmed(u)
  {
    var id := LinkTrackId(s).value;
    assert IsVisible(id[|id| - 1]);
    PrefixedShape(id);
  }

  /** `normalizeTrackUri` on a string: `None` is `null`. A link that parses answers with
      its id or `null`; one that does not parse is tried as a bare id. */
  function NormalizeString(raw: string): (r: Option<string>)
    ensures r.Some? ==> StartsWith(r.value, TrackPrefix) && Trimmed(r.value)
    ensures r.Some? ==> raw != []
  {
    if raw == [] then None
    else
      var s := Trim(raw);
      if StartsWith(s, TrackPrefix) then Some(s)
      else if MentionsTrackLink(s) && UrlPathParts(s).Some? then
        var id := LinkTrackId(s);
        if id.Some? then
          LinkIdShape(s);
          Some(TrackPrefix + id.value)
        else None
      else if BareId(s) then
        assert IsAsciiAlnum(s[|s| - 1]);
        PrefixedShape(s);
        Some(TrackPrefix + s)
      else None
  }

  /** `normalizeTrackUri(input)`: anything but a string gives `null`. */
  function NormalizeTrackUri(input: JsValue): (r: Option<string>)
    ensures r.Some? ==> StartsWith(r.value, TrackPrefix) && Trimmed(r.value)
    ensures r.Some? ==> input.Str? && input.s != []
  {
    if input.Str? then NormalizeString(input.s) else None
  }

  /** A trimmed string with the prefix is returned as it is. */
  lemma NormalizeOfPrefixed(u: string)
    requires StartsWith(u, TrackPrefix) && Trimmed(u)
    ensures NormalizeTrackUri(Str(u)) == Some(u)
  {
    TrimOfTrimmed(u);
    assert NormalizeString(u) == Some(u);
  }

  /** Normalising a normalised URI changes nothing. */
  lemma NormalizeIdempotent(input: JsValue)
    ensures var r := NormalizeTrackUri(input);
      r.Some? ==> NormalizeTrackUri(Str(r.value)) == r
  {
    var r := NormalizeTrackUri(input);
    if r.Some? {
      NormalizeOfPrefixed(r.value);
    }
  }

  /** A string that avoids a character of `sub` does not contain `sub`. */
  lemma {:induction false} NotContainsWithout(s: string, sub: string, c: char)
    requires c in sub && c !in s
    ensures !Contains(s, sub)
    decreases |s|
  {
    var k :| 0 <= k < |sub| && sub[k] == c;
    if |sub| <= |s| {
      assert s[k] in s;
      assert s[..|sub|][k] != sub[k];
    }
    if s != [] {
      assert forall x :: x in s[1..] ==> x in s;
      NotContainsWithout(s[1..], sub, c);
    }
  }

  /** A bare id neither carries the URI prefix nor mentions a track link. */
  lemma BareIdShape(x: string)
    requires BareId(x)
    ensures !StartsWith(x, TrackPrefix) && !MentionsTrackLink(x)
  {
    if |TrackPrefix| <= |x| {
      assert x[..|TrackPrefix|][7] == x[7];
    }
    forall i | 0 <= i < |x| ensures LowerAscii(x)[i] != '.' { }
    assert '.' in LinkMarker by { assert LinkMarker[4] == '.'; }
    NotContainsWithout(LowerAscii(x), LinkMarker, '.');
  }

  /** A bare alphanumeric id becomes `spotify:track:<id>`. */
  lemma NormalizeBareId(x: string)
    requires BareId(x)
    ensures NormalizeTrackUri(Str(x)) == Some(TrackPrefix + x)
  {
    TrimOfTrimmed(x);
    BareIdShape(x);
    assert NormalizeString(x) == Some(TrackPrefix + x);
  }

  // ---------------------------------------------------------------- track links

  /** Visible characters survive the input clean-up unchanged. */
  lemma {:induction false} CleanVisible(s: string)
    requires forall i :: 0 <= i < |s| ==> IsVisible(s[i])
    ensures StripC0(s) == s && RemoveTabNewline(s) == s
  {
    if s != [] {
      CleanVisible(s[1..]);
      assert s == [s[0]] + s[1..];
    }
  }

  /** Alphanumeric characters are not percent-encoded. */
  lemma {:induction false} EncodeAlnum(seg: string)
    requires forall i :: 0 <= i < |seg| ==> IsAsciiAlnum(seg[i])
    ensures EncodeSegment(seg) == seg
  {
    if seg != [] {
      EncodeAlnum(seg[1..]);
      assert seg == [seg[0]] + seg[1..];
    }
  }

  /** A segment starting with a letter or digit is neither `.` nor `..` in any spelling. */
  lemma AlnumNotDot(seg: string)
    requires seg != [] && IsAsciiAlnum(seg[0])
    ensures !IsSingleDot(seg) && !IsDoubleDot(seg)
  {
    var l := LowerAscii(seg);
    assert l[0] != '.' && l[0] != '%';
  }

  predicate AllVisible(s: string) {
    forall i :: 0 <= i < |s| ==> IsVisible(s[i])
  }

  predicate AllAlnum(s: string) {
    forall i :: 0 <= i < |s| ==> IsAsciiAlnum(s[i])
  }

  lemma VisibleConcat(a: string, b: string)
    requires AllVisible(a) && AllVisible(b)
    ensures AllVisible(a + b)
  {
    forall i | 0 <= i < |a + b| ensures IsVisible((a + b)[i]) {
      if i >= |a| {
        assert (a + b)[i] == b[i - |a|];
      }
    }
  }

  /** An input made of visible characters whose scheme is a special one: what follows the
      colon. */
  lemma AfterSchemeOf(scheme: string, rest: string)
    requires scheme != [] && IsAsciiAlpha(scheme[0])
    requires forall i :: 0 <= i < |scheme| ==> IsSchemeChar(scheme[i])
    requires IsSpecialScheme(LowerAscii(scheme))
    requires AllVisible(scheme) && AllVisible(rest)
    ensures AfterSpecialScheme(scheme + [':'] + rest) == Some(rest)
  {
    var u := scheme + [':'] + rest;
    VisibleConcat(scheme, [':']);
    VisibleConcat(scheme + [':'], rest);
    CleanVisible(u);
    SpanStops(u, IsSchemeChar, |scheme|);
    assert u[..|scheme|] == scheme && u[|scheme| + 1..] == rest;
  }

  /** After `//`, a valid host with no credentials and no port, and a path that starts with
      `/` and has no query or fragment: the path without its leading slash. */
  lemma PathTextOf(host: string, path: string)
    requires HostOk(host)
    requires path != [] && path[0] == '/' && forall i :: 0 <= i < |path| ==> InPath(path[i])
    ensures PathText("//" + host + path) == Some(path[1..])
  {
    var rest := "//" + host + path;
    var afterSlashes := host + path;
    SpanStops(rest, IsSlash, 2);
    assert rest[2..] == afterSlashes;
    SpanStops(afterSlashes, InAuthority, |host|);
    assert afterSlashes[..|host|] == host && afterSlashes[|host|..] == path;
    SpanStops(host, IsNotAt, |host|);
    SpanStops(host, InHost, |host|);
    assert host[..|host|] == host;
    SpanStops(path, InPath, |path|);
    assert path[..|path|] == path;
  }

  /** `a/b` with two alphanumeric names splits into `a` and `b`. */
  lemma SplitTwo(a: string, b: string)
    requires AllAlnum(a) && AllAlnum(b)
    ensures SplitChar(BackslashToSlash(a + "/" + b), '/') == [a, b]
  {
    var body := a + "/" + b;
    assert BackslashToSlash(body) == body by {
      forall i | 0 <= i < |body| ensures body[i] != '\\' {
        if i < |a| {
          assert body[i] == a[i];
        } else if i > |a| {
          assert body[i] == b[i - |a| - 1];
        }
      }
    }
    assert '/' !in a by {
      forall i | 0 <= i < |a| ensures a[i] != '/' { }
    }
    assert '/' !in b by {
      forall i | 0 <= i < |b| ensures b[i] != '/' { }
    }
    assert body == a + ['/'] + b;
    SplitCharCons(a, '/', b);
    SplitCharNone(b, '/');
    assert [a] + [b] == [a, b];
  }

  /** Two alphanumeric names are kept as they are by encoding and dot resolution. */
  lemma ResolveTwo(a: string, b: string)
    requires a != [] && AllAlnum(a) && b != [] && AllAlnum(b)
    ensures ResolveDots([], EncodeAll([a, b])) == [a, b]
  {
    EncodeAlnum(a);
    EncodeAlnum(b);
    var segs := [a, b];
    assert EncodeAll(segs) == segs;
    AlnumNotDot(a);
    AlnumNotDot(b);
    assert [] + [a] == [a] && segs[1..] == [b] && [a] + [b] == segs;
    assert ResolveDots([a], [b]) == ResolveDots(segs, []);
  }

  /** `a/b` with two alphanumeric names has the segments `a` and `b`. */
  lemma PathPartsOf(a: string, b: string)
    requires a != [] && AllAlnum(a) && b != [] && AllAlnum(b)
    ensures PathParts(a + "/" + b) == [a, b]
  {
    var segs := [a, b];
    SplitTwo(a, b);
    ResolveTwo(a, b);
    NoSlashesOfAll(segs);
    SplitPathname("", segs);
    assert "" + Pathname(segs) == Pathname(segs);
    NonEmptyKeeps(segs);
  }

  /** The URL `scheme://host/name/id`, with a special scheme, a valid host and two
      alphanumeric names, has the path segments `name` and `id`. */
  lemma UrlPathPartsOf(scheme: string, host: string, name: string, x: string)
    requires scheme != [] && IsAsciiAlpha(scheme[0])
    requires forall i :: 0 <= i < |scheme| ==> IsSchemeChar(scheme[i])
    requires IsSpecialScheme(LowerAscii(scheme)) && AllVisible(scheme)
    requires HostOk(host) && AllVisible(host)
    requires name != [] && AllAlnum(name) && x != [] && AllAlnum(x)
    ensures UrlPathParts(scheme + [':'] + ("//" + host + ("/" + (name + "/" + x)))) == Some([name, x])
  {
    var path := "/" + (name + "/" + x);
    forall i | 0 <= i < |path| ensures IsVisible(path[i]) && InPath(path[i]) {
      if 1 <= i <= |name| {
        assert path[i] == name[i - 1];
      } else if i > |name| + 1 {
        assert path[i] == x[i - |name| - 2];
      }
    }
    VisibleConcat("//", host);
    VisibleConcat("//" + host, path);
    AfterSchemeOf(scheme, "//" + host + path);
    PathTextOf(host, path);
    assert path[1..] == name + "/" + x;
    PathPartsOf(name, x);
  }

  /** The pieces of a track link. */
  lemma LinkPieces(x: string)
    ensures "https://open.spotify.com/track/" + x
      == "https" + [':'] + ("//" + "open.spotify.com" + ("/" + ("track" + "/" + x)))
  {
  }

  /** A track link parses, with the path segments `track` and the id. */
  lemma LinkParses(x: string)
    requires x != [] && AllAlnum(x)
    ensures UrlPathParts("https://open.spotify.com/track/" + x) == Some(["track", x])
  {
    assert LowerAscii("https") == "https";
    assert HostOk("open.spotify.com") && AllVisible("open.spotify.com");
    UrlPathPartsOf("https", "open.spotify.com", "track", x);
    LinkPieces(x);
  }

  /** The start of a track link is lower-case and holds the marker after `https://`. */
  lemma MarkerInLink()
    ensures Contains(LowerAscii("https://open.spotify.com/track/"), LinkMarker)
  {
    LinkLower();
    LinkHoldsMarker();
    ContainsSuffix("https://", LinkMarker);
  }

  lemma LinkLower()
    ensures LowerAscii("https://open.spotify.com/track/") == "https://open.spotify.com/track/"
  {
    var link := "https://open.spotify.com/track/";
    forall i | 0 <= i < |link| ensures !IsAsciiUpper(link[i]) { }
    LowerAsciiKeeps(link);
  }

  lemma LinkHoldsMarker()
    ensures "https://open.spotify.com/track/" == "https://" + LinkMarker
  {
  }

  /** A URL whose path segments are `name` and `id` names the track `id`. */
  lemma LinkTrackIdOf(s: string, name: string, x: string)
    requires UrlPathParts(s) == Some([name, x])
    ensures LinkTrackId(s) == Some(x)
  {
  }

  /** A track link mentions `open.spotify.com/track/`. */
  lemma LinkMentioned(x: string)
    ensures MentionsTrackLink("https://open.spotify.com/track/" + x)
  {
    var link := "https://open.spotify.com/track/";
    MarkerInLink();
    LowerAsciiConcat(link, x);
    ContainsExtended(LowerAscii(link), LinkMarker, LowerAscii(x));
  }

  /** A trimmed string without the URI prefix that mentions a track link and parses as a URL
      with a track id becomes `spotify:track:<id>`. */
  lemma NormalizeLinkOf(u: string, x: string)
    requires u != [] && Trimmed(u) && !StartsWith(u, TrackPrefix)
    requires MentionsTrackLink(u) && UrlPathParts(u).Some? && LinkTrackId(u) == Some(x)
    ensures NormalizeTrackUri(Str(u)) == Some(TrackPrefix + x)
  {
    TrimOfTrimmed(u);
  }

  /** A track link is trimmed and does not start with the URI prefix. */
  lemma LinkShape(x: string)
    requires x != [] && AllAlnum(x)
    ensures var u := "https://open.spotify.com/track/" + x; Trimmed(u) && !StartsWith(u, TrackPrefix)
  {
    var u := "https://open.spotify.com/track/" + x;
    assert u[0] == 'h' && u[|u| - 1] == x[|x| - 1];
    assert u[..|TrackPrefix|][0] != TrackPrefix[0];
  }

  /** An `open.spotify.com/track/<id>` link with an alphanumeric id becomes
      `spotify:track:<id>`. */
  lemma NormalizeTrackLink(x: string)
    requires x != [] && forall i :: 0 <= i < |x| ==> IsAsciiAlnum(x[i])
    ensures NormalizeTrackUri(Str("https://open.spotify.com/track/" + x)) == Some(TrackPrefix + x)
  {
    var u := "https://open.spotify.com/track/" + x;
    LinkShape(x);
    LinkMentioned(x);
    LinkParses(x);
    LinkTrackIdOf(u, "track", x);
    NormalizeLinkOf(u, x);
  }

  /** Inputs that are not strings, and empty strings, give `null`. */
  lemma NormalizeNonString(input: JsValue)
    requires !input.Str? || input.s == []
    ensures NormalizeTrackUri(input) == None
  {
  }
}
